=== FILE: README.md ===
# Bookify back end: the exchange negotiation and the services around it

This project models, in Dafny, the core of the Bookify back end: a NestJS/TypeORM service in which users
list books and negotiate exchanges of them.

**The exchange (`Intercambio`).** An exchange has:

- a requester and a receiver, who owns the requested book;
- the requested book and an optional offered book;
- a proposal state (`pending`, `accepted`, `rejected`, `canceled`, `completed`);
- two confirmation flags;
- an optional meeting location.

The exchange service creates exchanges and moves them through these requests:

- the owner's status write;
- the offer of a book;
- the proposal of a meeting place;
- the two confirmations;
- cancellation.

When both parties have confirmed, the exchange is completed and both books are marked `exchanged`.

**The services around the exchange.** The model also covers:

- the chat service: two-member chats, their messages, and the chat delete that cascades onto the pair's exchanges;
- the rating service;
- the book service: the listing, a user's shelf, genre find-or-create, and delete with its cascade;
- the notification inbox;
- the account rules of registration, login and the location updates;
- the bearer-token guard;
- the string helpers of the image service: object keys, public URLs, and key extraction.

**How the model is built.**

- **One database value.** Every table is a sequence of rows in insertion order, held in one `Db` value (module `Store`).
  - A repository `findOne` is the first matching row.
  - Keys come from one generator, `nextId`.
- **Pure functions.** Every service method is a pure function from a `Db` and its arguments to a `Result` carrying either the new `Db` or the `Failure` the service throws.
  - The `Failure` kinds are `NotFound`, `BadRequest`, `Forbidden`, `Unauthorized`, `Conflict` and a plain `Error`.
  - The guards run in the order the service runs them.
- **JavaScript truthiness is explicit** (module `Js`). A key or a `float` coordinate of `0` is falsy, and so is an empty string. The exchange's meeting-place coordinates are `decimal` columns, which the database driver returns as strings. Once the row is reloaded, any stored coordinate is truthy, zero included, and only a null one counts as missing.
- **Values the services read from outside become parameters:**
  - the clock;
  - the password hash and its comparison;
  - the token decoder;
  - the configuration.
- **Sequences of requests.** Module `Negotiation` serves sequences of requests against the exchange service. It proves what holds of every exchange row across any such sequence.

A completing confirmation does not check that both books are still available, and the model does not either. Nothing in the code ever sets the `canceled` state: cancelling writes `rejected`.

## Model

| member | source | states |
|---|---|---|
| `Exchanges.CreateRequest` | src/intercambio/intercambio.service.ts:30-71 | A missing book fails first, then requesting one's own book. Otherwise the new row is pending, addressed to the book's current owner, with a null offered book unless a truthy one was given, no flags, no location and no agreement date. The owner gets an unread request notification. |
| `Exchanges.CheckPending` | src/intercambio/intercambio.service.ts:117-129 | True exactly when a pending exchange exists for that (book, requester, receiver) triple. |
| `Exchanges.Received` | src/intercambio/intercambio.service.ts:168-176 | Exactly the exchanges the user receives, as a permutation of them, newest proposal first. |
| `Exchanges.Sent` | src/intercambio/intercambio.service.ts:181-189 | Exactly the exchanges the user requested, as a permutation of them, newest proposal first. |
| `Exchanges.CreatedRequestIsFound` | src/intercambio/intercambio.service.ts:47-55 | A created request is found under its fresh key. It is reported by the pending check and listed among the owner's received exchanges and the requester's sent ones. |
| `Exchanges.SaveKeepsIndex` | src/intercambio/intercambio.service.ts:223 | Saving a row back under its own key leaves the lookup by that key on the same row. |
| `Exchanges.ApplyStatus` | src/intercambio/intercambio.service.ts:214-221 | The state becomes the requested one, whatever it was before. Acceptance stamps the agreement date, and the meeting point only when a truthy one is given. No other column changes. |
| `Exchanges.UpdateStatus` | src/intercambio/intercambio.service.ts:194-287 | A missing exchange fails, then any caller but the receiver. Otherwise only that row is rewritten and the requester is notified: accepted for acceptance, rejected for every other state. On acceptance between two distinct existing users, the pair afterwards shares a chat, and a returned chat id names a chat of both. If the chat cannot be created, the failure is swallowed: no chat id, and the chat tables are unchanged. Any other state leaves the chats alone. |
| `Exchanges.OfferBook` | src/intercambio/intercambio.service.ts:307-366 | Fails for a missing exchange, a state other than pending or accepted, an offered book already set, a missing book, or a book the requester does not own, in that order. Otherwise only the offered book changes and the requester is notified. |
| `Exchanges.ProposeLocation` | src/intercambio/intercambio.service.ts:406-439 | Fails for a missing exchange, then unless accepted, then without an offered book. Otherwise all five location columns are overwritten (a falsy place id becomes null), nothing else changes, and no notification is filed. |
| `Exchanges.MarkExchanged` | src/intercambio/intercambio.service.ts:529-536 | Exactly the rows of that book become exchanged. The table keeps its length and every other row. |
| `Exchanges.Confirm` | src/intercambio/intercambio.service.ts:486-600 | Fails for a missing exchange, a non-participant, a missing (null) latitude or longitude, or a second confirmation by the same role. A stored coordinate of 0 reloads as a truthy string and passes. Otherwise only the caller's flag turns true. The exchange completes, the agreement date is stamped and both books become exchanged exactly when both flags are now set. `both` in the response equals that conjunction. The state is never consulted. |
| `Exchanges.Cancel` | src/intercambio/intercambio.service.ts:605-650 | Fails for a missing exchange, a non-participant, or a completed exchange. Otherwise the state becomes rejected, nothing else in the row changes, and the other party is notified. |
| `Exchanges.OtherParticipant` | src/intercambio/intercambio.service.ts:541-543 | The party notified is always a participant. In an exchange between two users, it is never the acting participant. |
| `Exchanges.AppendedExchangeIsFound` | src/intercambio/intercambio.service.ts:55 | A row saved under a fresh key is found under that key at the end of the table, and every key stays issued. |
| `Negotiation.StepGrows` | src/intercambio/intercambio.service.ts:214-221 | No request changes an exchange's key, parties, requested book or proposal date. No request clears a confirmation flag or replaces a truthy offered book. |
| `Negotiation.RunGrows` | src/intercambio/intercambio.service.ts:332-335 | The same holds across any sequence of requests. In particular, an offered book, once set, is never replaced. |
| `Negotiation.StepFlagProvenance` | src/intercambio/intercambio.service.ts:510-520 | A request that sets a row's requester flag is that requester's confirmation of that exchange, and likewise for the receiver. |
| `Negotiation.RequesterFlagNeedsRequester` | src/intercambio/intercambio.service.ts:510-514 | A requester flag set by a sequence of requests was set by a confirmation of that requester within it. |
| `Negotiation.ReceiverFlagNeedsReceiver` | src/intercambio/intercambio.service.ts:515-520 | A receiver flag set by a sequence of requests was set by a confirmation of that receiver within it. |
| `Negotiation.StepCompletion` | src/intercambio/intercambio.service.ts:522-526 | An exchange becomes completed in exactly two ways. Either its receiver writes the completed state, or a participant's confirmation at a proposed meeting place leaves both flags set. |
| `Negotiation.StepKeepsCompleted` | src/intercambio/intercambio.service.ts:624-627 | Only a status write takes an exchange out of the completed state. Cancellation refuses it. |
| `Negotiation.CompletedPersists` | src/intercambio/intercambio.service.ts:625-627 | In a sequence of exchange-service requests without status writes, a completed exchange stays completed. Chat deletion, outside that service, can still reject it. |
| `Negotiation.AcceptStep` | src/intercambio/intercambio.service.ts:214-223 | The owner's acceptance leaves the row at its index, under its key, accepted, with its other columns as they were. |
| `Negotiation.OfferStep` | src/intercambio/intercambio.service.ts:353-354 | An offer of the requester's book for an accepted exchange without one sets that offered book and nothing else. |
| `Negotiation.ProposeStep` | src/intercambio/intercambio.service.ts:433-439 | A proposal for an accepted exchange with an offered book stores all five location columns and makes the meeting location present, whatever the coordinates, zero included. |
| `Negotiation.FirstConfirmStep` | src/intercambio/intercambio.service.ts:510-514 | The requester's first confirmation sets only the requester's flag and does not complete the exchange. |
| `Negotiation.SecondConfirmStep` | src/intercambio/intercambio.service.ts:523-537 | The receiver's confirmation after the requester's completes the exchange and marks both books exchanged. |
| `Negotiation.RequestStep` | src/intercambio/intercambio.service.ts:47-55 | A request for another user's book appends a pending row under the next key. |
| `Negotiation.ConfirmationsComplete` | src/intercambio/intercambio.service.ts:522-537 | Both confirmations at a proposed meeting place complete the exchange, set both flags and mark both books exchanged. |
| `Negotiation.AcceptedCompletes` | src/intercambio/intercambio.service.ts:307-537 | From acceptance, an offer, a proposal and both confirmations complete the exchange with the offered book recorded. |
| `Negotiation.RequestAccepted` | src/intercambio/intercambio.service.ts:30-223 | A request followed by the owner's acceptance leaves one accepted row, unconfirmed, with no offered book, and the books untouched. |
| `Negotiation.FullNegotiationCompletes` | src/intercambio/intercambio.service.ts:30-539 | The intended six-request negotiation ends with the exchange completed, both flags set, the offered book recorded, and both books exchanged. |
| `Negotiation.StatusWriteCompletesUnconfirmed` | src/intercambio/intercambio.service.ts:209-214 | The receiver's status write can complete a fresh request with neither confirmation, no meeting place and no book marked exchanged. |
| `Store.NewestFirst` | src/intercambio/intercambio.service.ts:171 | Exchanges ordered by descending proposal date, as a permutation of the input. |
| `Chats.ChatUsers` | src/chat/chat.service.ts:369-372 | Exactly the membership rows of the chat. |
| `Chats.FindExistingChat` | src/chat/chat.service.ts:238-252 | A chat in which both users are members, or none exactly when the pair shares no chat. |
| `Chats.CreateChat` | src/chat/chat.service.ts:197-236 | A missing user fails before the self-chat check. An existing chat of the pair is returned unchanged. Otherwise a chat carrying the exchange id (or null) and exactly two membership rows is added. |
| `Chats.CreateChatPreservesExchanges` | src/chat/chat.service.ts:221-230 | Creating a chat never touches the exchanges. |
| `Chats.NewChatHasExactlyThePair` | src/chat/chat.service.ts:227-230 | A newly created chat has exactly the two given users as members. |
| `Chats.CreateChatKeepsKeysIssued` | src/chat/chat.service.ts:221-230 | Chat and membership keys stay below the key generator. |
| `Chats.OnlySharedChatAfterCreate` | src/chat/chat.service.ts:213-230 | After creating a chat, it is the only chat the pair shares. |
| `Chats.CreateChatIdempotent` | src/chat/chat.service.ts:213-219 | Asking again for the pair's chat, in either order, returns the same chat and changes nothing. |
| `Chats.ChatMessages` | src/chat/chat.service.ts:83-85 | Exactly the messages of the chat. |
| `Chats.GetChatMessages` | src/chat/chat.service.ts:74-102 | A non-member fails, then a negative limit, which the database rejects. An absent limit means 200. A limit of 0 is falsy, so the query runs unlimited and returns every message of the chat. Any other limit returns that many earliest messages, or all when there are fewer. Results are in ascending time, and no left-out message is earlier than one returned. |
| `Chats.Page` | src/chat/chat.service.ts:83-88 | The page holds only messages of the input, in ascending time, with none left out that is earlier than one kept. It is all of them for a take of 0, and otherwise exactly the take or all, whichever is fewer. |
| `Chats.SentMessageIsSeen` | src/chat/chat.service.ts:105-120 | A message just sent is among the chat's new messages for any earlier `since`. It also appears in the unlimited listing for every member. |
| `Chats.SendMessage` | src/chat/chat.service.ts:105-120 | A non-member fails. Otherwise one message with the sender, chat, text and time is appended. |
| `Chats.GetNewMessages` | src/chat/chat.service.ts:255-288 | A non-member fails. Otherwise exactly the chat's messages strictly after `since`, as a permutation of them, in ascending time. |
| `Chats.GetChatExchanges` | src/chat/chat.service.ts:368-401 | Nothing for fewer than two members. Otherwise exactly the accepted and completed exchanges between the first two members, in either direction, newest first. |
| `Chats.DeleteChat` | src/chat/chat.service.ts:474-513 | A non-member is forbidden, then a chat without exactly two members fails. Otherwise every pending, accepted or completed exchange of the pair becomes rejected, in place, and the chat's messages, memberships and the chat itself go. |
| `Chats.DeleteChatLeavesPairClosed` | src/chat/chat.service.ts:492-506 | After a chat delete, no exchange between the pair is pending, accepted or completed. |
| `Ratings.CreateRating` | src/rating/rating.service.ts:23-80 | Each failure in order: a missing exchange, a flag missing (the state is not consulted), a rater who is not a participant, a rated user who is not the other participant, a second rating by the same rater. On success one rating copying the request is appended. |
| `Ratings.CreateRatingChecked` | src/rating/rating.dto.ts:17-20 | Requests whose stars lie outside 1..5 are refused. Every other request runs as the service does. |
| `Ratings.CheckedKeepsStarsInRange` | src/rating/rating.dto.ts:17-20 | With the bound enforced, every stored rating stays within 1..5. |
| `Ratings.UncheckedStarsAreStored` | src/rating/rating.service.ts:70-78 | As written, a rating of 0 stars by an eligible rater is stored. |
| `Ratings.HasUserRated` | src/rating/rating.service.ts:153-162 | True exactly when a rating of the exchange by the user is stored. |
| `Ratings.CreateRatingOncePerRater` | src/rating/rating.service.ts:58-67 | A stored rating keeps one rating per rater and exchange. A second attempt by the same rater conflicts. |
| `Ratings.GetUserRatings` | src/rating/rating.service.ts:85-92 | The total is the number of ratings the user received. The list is exactly those ratings, highest key first. |
| `Ratings.GetExchangeRatings` | src/rating/rating.service.ts:117-147 | A missing exchange fails. Each side's rating is present exactly when that participant has rated. `both` holds exactly when both have. |
| `Books.FirstPicture` | src/book/book.service.ts:42-44 | The smallest key among the book's pictures, and none exactly when it has no picture. |
| `Books.FirstPictureIgnoresOthers` | src/book/book.service.ts:42-44 | Pictures of other books do not move a book's first picture. |
| `Books.ByFirstPicture` | src/book/book.service.ts:42-44 | The same books, each once, in ascending order of first picture key; books without a picture come after all others. |
| `Books.ByFirstPictureAgree` | src/book/book.service.ts:42-44 | The listing order depends only on the first pictures of the listed books. |
| `Books.ListedBooks` | src/book/book.service.ts:38-45 | Exactly the books that are not exchanged, ordered by first picture with picture-less books last. |
| `Books.FindAll` | src/book/book.service.ts:34-80 | The proximity search runs exactly when the flag is on, the caller id is truthy, and the caller exists with non-zero coordinates. Every other case lists exactly the books that are not exchanged, ordered by first picture. |
| `Books.FlagOffIgnoresCaller` | src/book/book.service.ts:36-47 | With the flag off, the caller makes no difference. |
| `Books.FindByUser` | src/book/book.service.ts:246-255 | Exactly the user's books that are not exchanged, as many as `countByUser` counts, ordered by first picture. |
| `Books.CountByUser` | src/book/book.service.ts:257-264 | The count is the length of the user's shelf. It is 0 exactly when the user has no listed book. |
| `Books.FindGenre` | src/book/book.service.ts:195-197 | The genre with that name, or none exactly when no genre has that name. |
| `Books.FindOrCreateGenre` | src/book/book.service.ts:194-205 | The genre with that name, created only when missing. The name set grows by that name alone, and unique names stay unique. |
| `Books.ResolveGenres` | src/book/book.service.ts:191-209 | One genre per requested name, in order and with that name. The genre table only grows at its end. |
| `Books.ResolveGenresNames` | src/book/book.service.ts:194-206 | The genre loop adds exactly the requested names that were missing. |
| `Books.ResolveGenresUnique` | src/book/book.service.ts:199-203 | The genre loop never creates a second genre with an existing name. |
| `Books.AddPictures` | src/book/book.service.ts:215-227 | One picture row per URL, in input order, each linked to the book. |
| `Books.Create` | src/book/book.service.ts:181-233 | The book is owned by the given user and available, with the requested genres in order. Its pictures are linked to it in input order, and no other table changes. |
| `Books.CreateGenreNames` | src/book/book.service.ts:191-209 | Creating a book adds exactly its missing genre names and never a duplicate genre. |
| `Books.CreatedBookIsShelved` | src/book/book.service.ts:212 | A created book is found by its key and appears on its owner's shelf. It raises the owner's count by one and leaves others' shelves as they were. |
| `Books.AppendedBookIsShelved` | src/book/book.service.ts:246-264 | A freshly appended available book joins exactly its owner's shelf and count. |
| `Books.OtherShelfKept` | src/book/book.service.ts:246-255 | A shelf with the same rows keeps its order when only a new book gains pictures. |
| `Books.NewPicturesKeepFirst` | src/book/book.service.ts:215-227 | Pictures saved for a new book leave every other book's first picture unchanged. |
| `Books.AppendedBookIsFound` | src/book/book.service.ts:212 | A book appended under a fresh key is the one found under that key. |
| `Books.InvolvedIds` | src/book/book.service.ts:270-277 | Exactly the keys of the exchanges that request or offer the book. |
| `Books.ChatsFor` | src/book/book.service.ts:282-286 | Exactly the keys of the chats opened for those exchanges. |
| `Books.Delete` | src/book/book.service.ts:266-323 | The book, its pictures and the exchanges that mention it are removed. So are those exchanges' chats with their messages and members. Users, genres, ratings and notifications stay. |
| `Books.DeleteLeavesNoDanglingRows` | src/book/book.service.ts:270-321 | After a delete, no exchange, picture, chat or message refers to the removed rows. |
| `Notifications.Format` | src/notifications/notification.service.ts:144-161 | The sender and the exchange show as null exactly when the relation is absent. Otherwise they show the related row's name or state. |
| `Notifications.Inbox` | src/notifications/notification.service.ts:58-63 | Exactly the user's notifications, only unread ones when requested. |
| `Notifications.LatestPage` | src/notifications/notification.service.ts:62-67 | At most 50 of the inbox, newest first; no inbox notification newer than one on the page is left out. |
| `Notifications.GetUserNotifications` | src/notifications/notification.service.ts:58-69 | The formatted page: at most 50, only the user's, unread ones when requested, newest first. |
| `Notifications.FormatKeepsOrder` | src/notifications/notification.service.ts:149-150 | Formatting keeps each notification's read flag and creation time. |
| `Notifications.OwnedIndex` | src/notifications/notification.service.ts:72-75 | The user's notification with that key, or none exactly when the user has none. |
| `Notifications.MarkAsRead` | src/notifications/notification.service.ts:71-79 | Fails unless the notification exists and is the user's. Otherwise that row alone becomes read. |
| `Notifications.GetUnreadCount` | src/notifications/notification.service.ts:89-93 | The number of the user's unread notifications. It is 0 exactly when all of them are read. |
| `Notifications.MarkAllAsRead` | src/notifications/notification.service.ts:81-87 | Every notification of the user becomes read; no other row changes. |
| `Notifications.MarkAllAsReadClearsInbox` | src/notifications/notification.service.ts:81-87 | Afterwards the user has nothing unread, the returned count is what was unread, and every other user's unread count is unchanged. |
| `Notifications.MarkAsReadCount` | src/notifications/notification.service.ts:76-78 | Marking an unread notification lowers the owner's unread count by one; a read one leaves it. |
| `Notifications.DeleteNotification` | src/notifications/notification.service.ts:95-101 | Fails unless the notification exists and is the user's. Otherwise exactly that row is removed. |
| `Notifications.OnlyRecipientTouches` | src/notifications/notification.service.ts:96-99 | Anyone but the recipient is told the notification does not exist. Once deleted, it cannot be marked read. |
| `Auth.EmailCheckMatchesPattern` | src/auth/auth.service.ts:47-50 | The computed test accepts exactly the language of `^[^\s@]+@[^\s@]+\.[^\s@]+$`. |
| `Auth.ValidEmailMatches` | src/auth/auth.service.ts:47-48 | Every accepted string matches the pattern. |
| `Auth.PatternIsValidEmail` | src/auth/auth.service.ts:47-48 | Every match of the pattern is accepted. |
| `Auth.Clash` | src/auth/auth.service.ts:34-36 | A user with the same raw e-mail or name, or none exactly when there is none. |
| `Auth.Register` | src/auth/auth.service.ts:26-94 | The failures in order: missing fields, e-mail taken (before name taken), bad e-mail format, password shorter than 4, and a unique-column clash at the save as a generic failure. The saved account has the lower-cased e-mail and a null gender when none is given. |
| `Auth.RegisterKeepsAccountsUnique` | src/auth/auth.service.ts:34-65 | Registration keeps user names and e-mails unique. |
| `Auth.Account` | src/auth/auth.service.ts:108-113 | A user whose name or e-mail is the identifier, or none exactly when no user has it. |
| `Auth.Login` | src/auth/auth.service.ts:99-124 | Missing fields are unauthorized. An unknown identifier and a wrong password give the same unauthorized outcome. Success returns a stored user whose name or e-mail is the identifier and whose hash matches. |
| `Auth.RegisterThenLoginByName` | src/auth/auth.service.ts:58-124 | A freshly registered user can log in by name with the chosen password. |
| `Auth.MixedCaseEmailLocksOut` | src/auth/auth.service.ts:60 | As written, an e-mail typed with an upper-case letter at registration cannot be used to log in. |
| `Auth.AccountCorrected` | src/auth/auth.service.ts:108-113 | The login lookup with the e-mail compared lower-cased. |
| `Auth.LoginCorrected` | src/auth/auth.service.ts:99-124 | `login` over the corrected lookup, with the same failures. |
| `Auth.RegisterThenLoginByEmail` | src/auth/auth.service.ts:58-63 | With the corrected lookup, a new user can log in with the e-mail exactly as typed. |
| `Auth.UserIndex` | src/auth/auth.service.ts:230 | The row of the user with that key, or none exactly when there is none. |
| `Auth.UpdateUserLocation` | src/auth/auth.service.ts:229-256 | An unknown user fails. Otherwise the coordinates and time are written; the city and the radius keep their old values when none (or a falsy one) is given. |
| `Auth.UpdateSearchRadius` | src/auth/auth.service.ts:261-276 | An unknown user fails first, then a radius outside 1..100. Otherwise only that user's radius changes. |
| `Auth.RadiusBoundOnOnePath` | src/auth/auth.service.ts:241-243 | The radius bound is kept by `updateSearchRadius` but not by `updateUserLocation`. |
| `Guard.SchemeAndToken` | src/auth/jwt-auth.guard.ts:17 | The first two pieces of the header split on single spaces. The pieces hold no space and join back to the header. |
| `Guard.CanActivate` | src/auth/jwt-auth.guard.ts:8-45 | A missing or empty header, then a malformed one, each gets its own error. Any later failure, the unknown user included, is "invalid or expired token". Success, for any header the split accepts (extra pieces included), carries the key, name and e-mail of the stored user that the second piece decodes to. |
| `Guard.BearerHeaderParts` | src/auth/jwt-auth.guard.ts:17-21 | `Bearer <token>` splits into the scheme and the token. |
| `Guard.WellFormedHeaderAdmitsTokenUser` | src/auth/jwt-auth.guard.ts:23-39 | A well-formed header is admitted exactly when the token decodes to a stored user. The request then carries that user. |
| `Guard.StrictHeaderFormat` | src/auth/jwt-auth.guard.ts:17-21 | A double space before the token, or a lower-case scheme, is a format error. |
| `Guard.DoubleSpaceScheme` | src/auth/jwt-auth.guard.ts:17 | `Bearer  <token>` splits into the scheme and an empty piece. |
| `Guard.LowercaseScheme` | src/auth/jwt-auth.guard.ts:17 | `bearer <token>` yields the scheme word `bearer`. |
| `Images.Sanitize` | src/images/images.service.ts:32 | The sanitised name has no whitespace, is no longer than the name, and leaves a whitespace-free name unchanged. |
| `Images.SanitizeRun` | src/images/images.service.ts:52 | A maximal whitespace run becomes exactly one `-`, whatever stands on either side. |
| `Images.SanitizeIdempotent` | src/images/images.service.ts:32 | Sanitising twice is sanitising once. |
| `Images.BookKey` | src/images/images.service.ts:32 | Book keys lie under `books/` and hold no whitespace. |
| `Images.ProfileKey` | src/images/images.service.ts:52 | Profile keys lie under `profiles/` and hold no whitespace. |
| `Images.FolderKeyInjective` | src/images/images.service.ts:32 | Two keys in one folder are equal only for the same millisecond and the same sanitised name. |
| `Images.BucketName` | src/images/images.service.ts:12 | The configured bucket when it is set and non-empty, otherwise `emaprobookify`; never empty. |
| `Images.ClientRegion` | src/images/images.service.ts:22 | The configured region when it is set and non-empty, otherwise `us-east-2`; never empty. |
| `Images.PublicUrlAsWritten` | src/images/images.service.ts:43 | The returned URL interpolates the raw region setting: an unset one prints `undefined` and an empty one prints nothing. |
| `Images.PublicUrl` | src/images/images.service.ts:22-43 | Corrected URL: equal to the returned URL whenever a region is configured, and the `us-east-2` URL when it is unset or empty. |
| `Images.UnsetRegionNamesUndefinedHost` | src/images/images.service.ts:43 | With the region unset, the returned URL differs from the object's URL. With it set, the two agree. |
| `Images.ExtractKey` | src/images/images.service.ts:99-102 | A URL without `.amazonaws.com/` comes back unchanged. Otherwise the result is the piece after the first occurrence, up to the next occurrence or the end, and it holds no occurrence itself. |
| `Images.FirstMarker` | src/images/images.service.ts:100 | In a generated URL, the first `.amazonaws.com/` is the one right after the host. |
| `Images.ExtractKeyRoundTrip` | src/images/images.service.ts:99-102 | Extracting the key from a generated URL gives back the key, when the key has no marker. |
| `Images.PublicUrlRoundTrip` | src/images/images.service.ts:43-64 | Extracting the key from a URL that an upload method returns gives back the key, for every key without the marker and any region setting without a `/`. The same holds for the corrected URL. |
| `Images.PublicUrlUnsetIsDefault` | src/images/images.service.ts:22 | Corrected URL: with `AWS_REGION` unset or empty, it is the URL of the region the client falls back to, the same as configuring `us-east-2` explicitly. |
| `Images.BookKeyRoundTrip` | src/images/images.service.ts:31-43 | The round trip holds for every book-picture URL the upload returns, and for its corrected form, whenever the file name has no `/`. |
| `Strings.SplitOn` | src/auth/jwt-auth.guard.ts:17 | `split` on one character: at least one piece, none holding the separator. |
| `Strings.JoinSplit` | src/auth/jwt-auth.guard.ts:17 | Joining the pieces back with the separator gives the input. |
| `Strings.ToLower` | src/auth/auth.service.ts:60 | Lower-casing keeps the length and lower-cases each letter. |
| `Strings.NatToStringRoundTrip` | src/images/images.service.ts:32 | The millisecond numeral in a key reads back as the number. |

## Left out

- **Push notifications** are left out: the push-token checks, the push SDK calls and their logging. They run after the state is written, and their failures are caught.
  - The unread inbox rows that the exchange requests file are modelled: recipient, sender, exchange and kind.
  - The message texts and push titles are left out.
- **`testPushNotification` and `sendPushNotification`**: pure push I/O.
- **The proximity branch of `findAll`**, `calculateDistance` and `calculateDistanceBatch`: these are floating-point geography run inside the database. The model returns the `Nearby` marker instead of a result list.
- **`findById`**: plain lookups without a rule of their own.
- **The average in `getUserRatings`**: floating-point division and rounding. The count and the ordered list are modelled.
- **Password hashing, tokens and clocks**, which come in as parameters:
  - bcrypt's hash and compare are parameters;
  - `generateToken` is left out;
  - `verifyToken` is a decoder parameter, and a decoded payload without an id is not modelled;
  - the clock is a value passed in.
- **S3 I/O**: uploads, deletes, signed URLs and the credential check in the constructor. Only the key and URL strings are modelled.
- **`getUserChats`, `getChatExchange`, `getChatExchangeStatus`, `getChatParticipants`, `getExchangeById` and `formatExchangeResponse`**: SQL projections of rows into response objects, with no rule beyond the joins.
- **Response projections and re-fetches.** The model returns the written row. It does not model a failing re-fetch after a save, or the re-fetch errors that follow it.
- **`updateProfilePhoto`, `getUserLocation` and `getUserById`**: plain reads and writes of one column.
- **Concurrency and transactions**: the service has none, so every request is served in sequence.
- **Ids.**
  - All tables draw keys from one generator, whereas the schema has one serial per table; only freshness matters.
  - Coordinates are integers: `decimal(10,7)` columns are counted in units of 10^-7.
- **Strings.** `Strings.ToLower` lower-cases the ASCII letters only. String lengths are counted in characters, not UTF-16 code units.
- **The request spread of `create`.** The `...bookData` spread is modelled as the title, author and description.
- **Duplicate names in one genre list.** Within one request, a repeated genre name resolves to the row created for its first occurrence, as the loop does.
- **Ratings and notifications of removed exchanges.** Deleting a book leaves the ratings and notifications of its exchanges in place. Whether foreign keys would refuse that delete is a schema question outside the model.
- **The remaining `Books.FindAll` branches.** The proximity query itself is not modelled, so `Books.FindAll` says only when the proximity branch is taken.
- Books.ListedBooks, Books.FindAll, Books.FindByUser: PostgreSQL returns the books without any picture in an order it does not specify. The model keeps them in table order, which is one of the orders the database may return.
- Auth.UpdateUserLocation, Books.FindAll: a user's coordinates are `float` columns (src/entities/user.entity.ts:29-33), and the model abstracts them to integers. The listing reads only whether each is zero, and `UpdateUserLocation` stores them as given, so no rounding is modelled.
- Chats.GetChatMessages: the limit is taken as an already-parsed integer or absent. A query value that parses to `NaN` is not modelled (the query builder rejects it), and neither is a fractional one.
- **Availability at completion.** Completion does not check that the books are still available, and the model follows the code. As a result, two exchanges of the same book can both complete.

## Findings

| source | as written | input that shows it | evidently intended | confidence | as-written member | corrected member |
|---|---|---|---|---|---|---|
| src/rating/rating.service.ts:70-78 | The star count is stored as given. The bound `@Min(1) @Max(5)` of the request type is never enforced, because no validation pipe is registered. | An eligible rater sends `estrellas: 0`, and a 0-star rating is stored. | Refuse any star count outside 1..5. | not executed | `Ratings.UncheckedStarsAreStored` | `Ratings.CheckedKeepsStarsInRange` |
| src/images/images.service.ts:43 | The returned URL interpolates the raw `AWS_REGION` setting. The client itself falls back to `us-east-2`. | With `AWS_REGION` unset, an upload returns `https://emaprobookify.s3.undefined.amazonaws.com/books/...`. | Build the URL from the region the client uses. | not executed | `Images.UnsetRegionNamesUndefinedHost` | `Images.PublicUrlUnsetIsDefault` |
| src/auth/auth.service.ts:60 | Registration stores the lower-cased e-mail, but login compares the identifier as typed. | A user registers with `Ann@x.io` and then logs in with `Ann@x.io`: the credentials are reported invalid. | Compare the e-mail lower-cased at login. | not executed | `Auth.MixedCaseEmailLocksOut` | `Auth.RegisterThenLoginByEmail` |

=== FILE: auth.dfy ===
/** The account service: registration with its field rules, login by name or e-mail, and the
    two location updates. Password hashing and comparison are parameters: `hash` stands for
    bcrypt's hash and `matches` for its compare. */
module Auth {
  import opened Wrappers
  import opened Failures
  import opened Entities
  import opened Store
  import Js
  import Seqs
  import opened Strings

  /** The default search radius of a new account (`radio_busqueda_km`, default 10). */
  const DefaultRadiusKm := 10

  /** The shortest accepted password. */
  const MinPasswordLength := 4

  /** `RegisterDto`. */
  datatype RegisterDto = RegisterDto(username: string, email: string, password: string, gender: Option<string>)

  /** `LoginDto`: the identifier is a user name or an e-mail address. */
  datatype LoginDto = LoginDto(identifier: string, password: string)

  /** A character allowed in each part of an address: neither whitespace nor `@`. */
  predicate Plain(c: char) {
    !IsSpace(c) && c != '@'
  }

  predicate AllPlain(s: string) {
    forall k :: 0 <= k < |s| ==> Plain(s[k])
  }

  /** The language of `^[^\s@]+@[^\s@]+\.[^\s@]+$`: a non-empty local part, `@`, a non-empty
      part, a dot, a non-empty part, none of the parts holding whitespace or `@`. */
  ghost predicate EmailPattern(s: string) {
    exists i, j :: 0 < i && i + 1 < j && j + 1 < |s| && s[i] == '@' && s[j] == '.'
      && AllPlain(s[..i]) && AllPlain(s[i + 1..j]) && AllPlain(s[j + 1..])
  }

  /** The e-mail test of `register`, computed: one `@` after a non-empty local part, and a
      domain with a dot that is neither its first nor its last character. */
  function IsValidEmail(s: string): bool {
    match IndexOf(s, "@")
    case None => false
    case Some(i) =>
      var domain := s[i + 1..];
      i > 0 && AllPlain(s[..i]) && AllPlain(domain) && |domain| >= 3 && '.' in domain[1..|domain| - 1]
  }

  /** The computed e-mail test accepts exactly the strings the regular expression matches. */
  lemma EmailCheckMatchesPattern(s: string)
    ensures IsValidEmail(s) <==> EmailPattern(s)
  {
    if IsValidEmail(s) {
      ValidEmailMatches(s);
    }
    if EmailPattern(s) {
      var i, j :| 0 < i && i + 1 < j && j + 1 < |s| && s[i] == '@' && s[j] == '.'
        && AllPlain(s[..i]) && AllPlain(s[i + 1..j]) && AllPlain(s[j + 1..]);
      PatternIsValidEmail(s, i, j);
    }
  }

  /** A string the computed test accepts matches the expression, split at its `@` and at a
      dot inside the domain. */
  lemma ValidEmailMatches(s: string)
    requires IsValidEmail(s)
    ensures EmailPattern(s)
  {
    IndexOfChar(s, '@');
    var i := IndexOf(s, "@").value;
    var domain := s[i + 1..];
    var k :| 0 <= k < |domain[1..|domain| - 1]| && domain[1..|domain| - 1][k] == '.';
    var j := i + 2 + k;
    assert s[j] == '.';
    assert s[i + 1..j] == domain[..k + 1];
    assert s[j + 1..] == domain[k + 2..];
    PlainSlice(domain, 0, k + 1);
    PlainSlice(domain, k + 2, |domain|);
    assert domain[..k + 1] == domain[0..k + 1];
    assert domain[k + 2..] == domain[k + 2..|domain|];
    assert 0 < i && i + 1 < j && j + 1 < |s| && s[i] == '@';
  }

  /** A slice of a string of plain characters is one too. */
  lemma PlainSlice(s: string, lo: nat, hi: nat)
    requires lo <= hi <= |s| && AllPlain(s)
    ensures AllPlain(s[lo..hi])
  {
    assert forall k :: 0 <= k < hi - lo ==> s[lo..hi][k] == s[lo + k];
  }

  /** A match of the expression, split at `i` and `j`, passes the computed test. */
  lemma PatternIsValidEmail(s: string, i: nat, j: nat)
    requires 0 < i && i + 1 < j && j + 1 < |s| && s[i] == '@' && s[j] == '.'
    requires AllPlain(s[..i]) && AllPlain(s[i + 1..j]) && AllPlain(s[j + 1..])
    ensures IsValidEmail(s)
  {
    assert '@' !in s[..i];
    IndexOfChar(s, '@');
    assert IndexOf(s, "@") == Some(i);
    var domain := s[i + 1..];
    forall k | 0 <= k < |domain| ensures Plain(domain[k]) {
      if i + 1 + k < j {
        assert domain[k] == s[i + 1..j][k];
      } else if i + 1 + k > j {
        assert domain[k] == s[j + 1..][k - (j - i)];
      }
    }
    assert domain[1..|domain| - 1][j - i - 2] == '.';
  }

  /** The row the duplicate check of `register` finds: a user with the same raw e-mail or the
      same user name. */
  function Clash(db: Db, dto: RegisterDto): (r: Option<User>)
    ensures r.Some? ==> r.value in db.users && (r.value.email == dto.email || r.value.username == dto.username)
    ensures r.None? <==> forall u :: u in db.users ==> u.email != dto.email && u.username != dto.username
  {
    Seqs.First(db.users, (u: User) => u.email == dto.email || u.username == dto.username)
  }

  /** The account `register` saves: lower-cased e-mail, hashed password, null gender when none
      (or an empty one) is given, and every other column at its default. */
  function NewAccount(id: UserId, dto: RegisterDto, hash: string -> string): User {
    User(id, dto.username, ToLower(dto.email), hash(dto.password), Js.OrNullStr(dto.gender),
         None, None, DefaultRadiusKm, None, None)
  }

  /** The unique columns `nombre_usuario` and `email` would reject the row. */
  predicate SaveRejects(db: Db, u: User) {
    exists x :: x in db.users && (x.username == u.username || x.email == u.email)
  }

  /** `register`. The checks run in order: all three fields present, no user with the same raw
      e-mail or name (an e-mail clash of the found row is reported first), the e-mail pattern,
      the password length. The saved e-mail is lower-cased, so a unique-column clash can still
      occur at the save; the service reports that as a generic registration failure. */
  function Register(db: Db, dto: RegisterDto, hash: string -> string): (r: Result<(Db, User), Failure>)
    ensures |dto.username| == 0 || |dto.email| == 0 || |dto.password| == 0 ==>
      r == Err(BadRequest(MissingFields))
    ensures |dto.username| > 0 && |dto.email| > 0 && |dto.password| > 0 && Clash(db, dto).Some? ==>
      r == Err(BadRequest(if Clash(db, dto).value.email == dto.email then EmailTaken else UsernameTaken))
    ensures (|dto.username| > 0 && |dto.email| > 0 && |dto.password| > 0 && Clash(db, dto).None?
             && !IsValidEmail(dto.email)) ==> r == Err(BadRequest(InvalidEmailFormat))
    ensures (|dto.username| > 0 && |dto.email| > 0 && Clash(db, dto).None? && IsValidEmail(dto.email)
             && 0 < |dto.password| < MinPasswordLength) ==> r == Err(BadRequest(PasswordTooShort))
    ensures r.Ok? <==>
      && |dto.username| > 0 && |dto.password| >= MinPasswordLength
      && Clash(db, dto).None? && IsValidEmail(dto.email)
      && !SaveRejects(db, NewAccount(db.nextId, dto, hash))
    ensures r.Err? && r.error.reason == RegistrationFailed ==> SaveRejects(db, NewAccount(db.nextId, dto, hash))
    ensures r.Ok? ==> var (db', u) := r.value;
      && u.id == db.nextId && u.username == dto.username && u.email == ToLower(dto.email)
      && u.passwordHash == hash(dto.password) && u.gender == Js.OrNullStr(dto.gender)
      && u.radiusKm == DefaultRadiusKm && u.lat.None? && u.lng.None?
      && db'.users == db.users + [u] && db'.nextId > db.nextId
      && db' == db.(users := db'.users, nextId := db'.nextId)
  {
    if |dto.username| == 0 || |dto.email| == 0 || |dto.password| == 0 then Err(BadRequest(MissingFields))
    else match Clash(db, dto)
      case Some(x) => Err(BadRequest(if x.email == dto.email then EmailTaken else UsernameTaken))
      case None =>
        if !IsValidEmail(dto.email) then Err(BadRequest(InvalidEmailFormat))
        else if |dto.password| < MinPasswordLength then Err(BadRequest(PasswordTooShort))
        else
          var u := NewAccount(db.nextId, dto, hash);
          if SaveRejects(db, u) then Err(BadRequest(RegistrationFailed))
          else Ok((db.(users := db.users + [u], nextId := db.nextId + 1), u))
  }

  /** No two accounts share a user name or an e-mail. */
  ghost predicate UniqueAccounts(db: Db) {
    forall i, j :: 0 <= i < j < |db.users| ==>
      db.users[i].username != db.users[j].username && db.users[i].email != db.users[j].email
  }

  /** Registration keeps user names and e-mails unique. */
  lemma RegisterKeepsAccountsUnique(db: Db, dto: RegisterDto, hash: string -> string)
    requires UniqueAccounts(db)
    requires Register(db, dto, hash).Ok?
    ensures UniqueAccounts(Register(db, dto, hash).value.0)
  {
    var (db', u) := Register(db, dto, hash).value;
    forall i, j | 0 <= i < j < |db'.users|
      ensures db'.users[i].username != db'.users[j].username && db'.users[i].email != db'.users[j].email
    {
      if j == |db.users| {
        assert db'.users[i] in db.users;
      } else {
        assert db'.users[i] == db.users[i] && db'.users[j] == db.users[j];
      }
    }
  }

  /** The row the lookup of `login` finds: a user whose name or e-mail is the identifier. */
  function Account(db: Db, identifier: string): (r: Option<User>)
    ensures r.Some? ==> r.value in db.users && (r.value.username == identifier || r.value.email == identifier)
    ensures r.None? <==> forall u :: u in db.users ==> u.username != identifier && u.email != identifier
  {
    Seqs.First(db.users, (u: User) => u.username == identifier || u.email == identifier)
  }

  /** `login`. Missing fields, an unknown identifier and a wrong password are all unauthorized;
      the last two are indistinguishable. */
  function Login(db: Db, dto: LoginDto, matches: (string, string) -> bool): (r: Result<User, Failure>)
    ensures |dto.identifier| == 0 || |dto.password| == 0 ==> r == Err(Unauthorized(MissingCredentials))
    ensures r.Ok? ==> (r.value in db.users && matches(dto.password, r.value.passwordHash)
      && (r.value.username == dto.identifier || r.value.email == dto.identifier))
    ensures r.Ok? <==> (|dto.identifier| > 0 && |dto.password| > 0 && Account(db, dto.identifier).Some?
      && matches(dto.password, Account(db, dto.identifier).value.passwordHash))
    ensures r.Err? && |dto.identifier| > 0 && |dto.password| > 0 ==> r == Err(Unauthorized(InvalidCredentials))
  {
    if |dto.identifier| == 0 || |dto.password| == 0 then Err(Unauthorized(MissingCredentials))
    else match Account(db, dto.identifier)
      case None => Err(Unauthorized(InvalidCredentials))
      case Some(u) => if !matches(dto.password, u.passwordHash) then Err(Unauthorized(InvalidCredentials)) else Ok(u)
  }

  /** A freshly registered user can log in with the user name and password just chosen, unless
      an older account uses that name as its e-mail. */
  lemma RegisterThenLoginByName(db: Db, dto: RegisterDto, hash: string -> string, matches: (string, string) -> bool)
    requires Register(db, dto, hash).Ok?
    requires matches(dto.password, hash(dto.password))
    requires forall u :: u in db.users ==> u.email != dto.username
    ensures Login(Register(db, dto, hash).value.0, LoginDto(dto.username, dto.password), matches)
            == Ok(Register(db, dto, hash).value.1)
  {
    var (db', u) := Register(db, dto, hash).value;
    var found := Account(db', dto.username);
    assert found.Some?;
    assert found.value == u;
  }

  /** As written, a user who registers with an upper-case letter in the e-mail cannot log in
      with that e-mail as typed: the account holds the lower-cased address and the lookup
      compares the raw identifier. */
  lemma MixedCaseEmailLocksOut(db: Db, dto: RegisterDto, hash: string -> string, matches: (string, string) -> bool)
    requires Register(db, dto, hash).Ok?
    requires ToLower(dto.email) != dto.email && dto.username != dto.email
    requires forall u :: u in db.users ==> u.username != dto.email && u.email != dto.email
    ensures Login(Register(db, dto, hash).value.0, LoginDto(dto.email, dto.password), matches)
            == Err(Unauthorized(InvalidCredentials))
  {
  }

  /** The lookup of `login` with the e-mail compared lower-cased, as the stored addresses are. */
  function AccountCorrected(db: Db, identifier: string): (r: Option<User>)
    ensures r.Some? ==> r.value in db.users && (r.value.username == identifier || r.value.email == ToLower(identifier))
    ensures r.None? <==> forall u :: u in db.users ==> u.username != identifier && u.email != ToLower(identifier)
  {
    Seqs.First(db.users, (u: User) => u.username == identifier || u.email == ToLower(identifier))
  }

  /** `login` with the corrected lookup; the checks and outcomes are otherwise those of `Login`. */
  function LoginCorrected(db: Db, dto: LoginDto, matches: (string, string) -> bool): (r: Result<User, Failure>)
    ensures |dto.identifier| == 0 || |dto.password| == 0 ==> r == Err(Unauthorized(MissingCredentials))
    ensures r.Ok? ==> (r.value in db.users && matches(dto.password, r.value.passwordHash)
      && (r.value.username == dto.identifier || r.value.email == ToLower(dto.identifier)))
    ensures r.Err? && |dto.identifier| > 0 && |dto.password| > 0 ==> r == Err(Unauthorized(InvalidCredentials))
  {
    if |dto.identifier| == 0 || |dto.password| == 0 then Err(Unauthorized(MissingCredentials))
    else match AccountCorrected(db, dto.identifier)
      case None => Err(Unauthorized(InvalidCredentials))
      case Some(u) => if !matches(dto.password, u.passwordHash) then Err(Unauthorized(InvalidCredentials)) else Ok(u)
  }

  /** With the corrected lookup, a freshly registered user can log in with the e-mail exactly as
      it was typed at registration. */
  lemma RegisterThenLoginByEmail(db: Db, dto: RegisterDto, hash: string -> string, matches: (string, string) -> bool)
    requires Register(db, dto, hash).Ok?
    requires matches(dto.password, hash(dto.password))
    requires forall u :: u in db.users ==> u.username != dto.email
    ensures LoginCorrected(Register(db, dto, hash).value.0, LoginDto(dto.email, dto.password), matches)
            == Ok(Register(db, dto, hash).value.1)
  {
    var (db', u) := Register(db, dto, hash).value;
    assert !SaveRejects(db, u);
    var found := AccountCorrected(db', dto.email);
    assert u in db'.users;
    assert found.Some?;
    assert found.value == u;
  }

  /** The index of the user row with key `id`. */
  function UserIndex(db: Db, id: UserId): (r: Option<nat>)
    ensures r.Some? ==> r.value < |db.users| && db.users[r.value].id == id
    ensures r.None? <==> forall u :: u in db.users ==> u.id != id
  {
    Seqs.FirstIndex(db.users, (u: User) => u.id == id)
  }

  /** `UpdateLocationDto`. */
  datatype LocationDto = LocationDto(lat: int, lng: int, city: Option<string>, radiusKm: Option<int>)

  /** `updateUserLocation`: the user must exist. The coordinates are overwritten and stamped; the
      city and the radius keep their old values when none (or an empty one, or 0) is given. The
      radius is not range-checked here. */
  function UpdateUserLocation(db: Db, user: UserId, dto: LocationDto, now: Time): (r: Result<(Db, User), Failure>)
    ensures r.Err? <==> forall u :: u in db.users ==> u.id != user
    ensures r.Err? ==> r.error == BadRequest(UserNotFound)
    ensures r.Ok? ==> var (db', u) := r.value; var i := UserIndex(db, user).value; var prev := db.users[i];
      && |db'.users| == |db.users| && u == db'.users[i]
      && (forall j :: 0 <= j < |db.users| && j != i ==> db'.users[j] == db.users[j])
      && u.lat == Some(dto.lat) && u.lng == Some(dto.lng) && u.locationUpdatedAt == Some(now)
      && u.city == (if Js.TruthyStr(dto.city) then dto.city else prev.city)
      && u.radiusKm == (if Js.TruthyOpt(dto.radiusKm) then dto.radiusKm.value else prev.radiusKm)
      && u.id == prev.id && u.username == prev.username && u.email == prev.email
      && u.passwordHash == prev.passwordHash && u.gender == prev.gender
      && db' == db.(users := db'.users)
  {
    match UserIndex(db, user)
    case None => Err(BadRequest(UserNotFound))
    case Some(i) =>
      var prev := db.users[i];
      var u := prev.(lat := Some(dto.lat), lng := Some(dto.lng),
                    city := if Js.TruthyStr(dto.city) then dto.city else prev.city,
                    locationUpdatedAt := Some(now),
                    radiusKm := if Js.TruthyOpt(dto.radiusKm) then dto.radiusKm.value else prev.radiusKm);
      Ok((db.(users := db.users[i := u]), u))
  }

  /** The bounds of `updateSearchRadius`, in kilometres. */
  predicate RadiusInRange(km: int) {
    1 <= km <= 100
  }

  /** `updateSearchRadius`: an unknown user is reported first, then a radius outside 1..100;
      otherwise only the radius changes. */
  function UpdateSearchRadius(db: Db, user: UserId, km: int): (r: Result<Db, Failure>)
    ensures (forall u :: u in db.users ==> u.id != user) ==> r == Err(BadRequest(UserNotFound))
    ensures (exists u :: u in db.users && u.id == user) && !RadiusInRange(km) ==> r == Err(BadRequest(RadiusOutOfRange))
    ensures r.Ok? <==> (exists u :: u in db.users && u.id == user) && RadiusInRange(km)
    ensures r.Ok? ==> var i := UserIndex(db, user).value;
      && |r.value.users| == |db.users|
      && r.value.users[i] == db.users[i].(radiusKm := km)
      && (forall j :: 0 <= j < |db.users| && j != i ==> r.value.users[j] == db.users[j])
      && r.value == db.(users := r.value.users)
  {
    match UserIndex(db, user)
    case None => Err(BadRequest(UserNotFound))
    case Some(i) =>
      if km < 1 || km > 100 then Err(BadRequest(RadiusOutOfRange))
      else Ok(db.(users := db.users[i := db.users[i].(radiusKm := km)]))
  }

  /** Every stored radius lies within 1..100. */
  ghost predicate RadiiInRange(db: Db) {
    forall u :: u in db.users ==> RadiusInRange(u.radiusKm)
  }

  /** `updateSearchRadius` keeps every radius within its bounds, but `updateUserLocation` stores
      any non-zero radius it is given: the bound holds on one path only. */
  lemma RadiusBoundOnOnePath(db: Db, user: UserId, km: int, dto: LocationDto, now: Time)
    requires RadiiInRange(db)
    ensures UpdateSearchRadius(db, user, km).Ok? ==> RadiiInRange(UpdateSearchRadius(db, user, km).value)
    ensures (exists u :: u in db.users && u.id == user) && dto.radiusKm == Some(500) ==>
      && UpdateSearchRadius(db, user, 500).Err?
      && UpdateUserLocation(db, user, dto, now).Ok?
      && !RadiiInRange(UpdateUserLocation(db, user, dto, now).value.0)
  {
    if UpdateSearchRadius(db, user, km).Ok? {
      var i := UserIndex(db, user).value;
      var db' := UpdateSearchRadius(db, user, km).value;
      forall u | u in db'.users ensures RadiusInRange(u.radiusKm) {
        var j :| 0 <= j < |db'.users| && db'.users[j] == u;
        if j != i {
          assert db.users[j] in db.users;
        }
      }
    }
    if (exists u :: u in db.users && u.id == user) && dto.radiusKm == Some(500) {
      var r := UpdateUserLocation(db, user, dto, now);
      var i := UserIndex(db, user).value;
      assert r.value.0.users[i] in r.value.0.users;
    }
  }
}

=== FILE: book.dfy ===
/** The book service: the catalogue listing, a user's shelf, adding a book with its genres and
    pictures, and deleting a book together with every negotiation about it. */
module Books {
  import opened Wrappers
  import opened Entities
  import opened Store
  import Js
  import Seqs

  /** A book is listed while it has not changed hands (`estado != 'exchanged'`). */
  predicate Listed(b: Book) {
    b.state != Exchanged
  }

  /** The key of the first picture of `book` (its smallest picture key), if it has any. */
  function FirstPicture(images: seq<BookImage>, book: BookId): (r: Option<int>)
    ensures r.Some? ==> exists k :: 0 <= k < |images| && images[k].book == book && images[k].id == r.value
    ensures r.Some? ==> forall k :: 0 <= k < |images| && images[k].book == book ==> r.value <= images[k].id
    ensures r.None? <==> forall k :: 0 <= k < |images| ==> images[k].book != book
  {
    if |images| == 0 then None
    else
      var rest := FirstPicture(images[1..], book);
      assert forall k :: 0 <= k < |images| - 1 ==> images[1..][k] == images[k + 1];
      if images[0].book != book then rest
      else
        match rest
        case None => Some(images[0].id)
        case Some(m) => Some(if images[0].id < m then images[0].id else m)
  }

  /** Pictures that belong to other books do not move a book's first picture. */
  lemma {:induction false} FirstPictureIgnoresOthers(images: seq<BookImage>, extra: seq<BookImage>, book: BookId)
    requires forall k :: 0 <= k < |extra| ==> extra[k].book != book
    ensures FirstPicture(images + extra, book) == FirstPicture(images, book)
  {
    if |images| == 0 {
      assert images + extra == extra;
    } else {
      assert (images + extra)[1..] == images[1..] + extra;
      FirstPictureIgnoresOthers(images[1..], extra, book);
    }
  }

  /** Where a book sorts in a listing ordered by picture key: books with pictures come first,
      by their first picture, and books without any come after them all. */
  ghost predicate NotAfter(images: seq<BookImage>, a: Book, b: Book) {
    FirstPicture(images, b.id).Some? ==>
      FirstPicture(images, a.id).Some? && FirstPicture(images, a.id).value <= FirstPicture(images, b.id).value
  }

  function Pictured(images: seq<BookImage>): Book -> bool {
    (b: Book) => FirstPicture(images, b.id).Some?
  }

  function Bare(images: seq<BookImage>): Book -> bool {
    (b: Book) => FirstPicture(images, b.id).None?
  }

  function PictureKey(images: seq<BookImage>): Book -> int {
    (b: Book) => match FirstPicture(images, b.id) case Some(k) => k case None => 0
  }

  /** The listing order of every book query: an ascending sort on the joined picture key, which
      PostgreSQL puts after every key when a book has no picture (`NULLS LAST`). Books without a
      picture keep their table order, one of the orders the database may return. */
  function ByFirstPicture(images: seq<BookImage>, books: seq<Book>): (r: seq<Book>)
    ensures |r| == |books| && multiset(r) == multiset(books)
    ensures forall b :: b in r <==> b in books
    ensures forall i, j :: 0 <= i < j < |r| ==> NotAfter(images, r[i], r[j])
  {
    var first := Seqs.SortAscBy(Seqs.Filter(books, Pictured(images)), PictureKey(images));
    var rest := Seqs.Filter(books, Bare(images));
    SplitByPicture(images, books, first, rest);
    first + rest
  }

  /** The two halves of the listing hold every book once, in listing order. */
  lemma SplitByPicture(images: seq<BookImage>, books: seq<Book>, first: seq<Book>, rest: seq<Book>)
    requires first == Seqs.SortAscBy(Seqs.Filter(books, Pictured(images)), PictureKey(images))
    requires rest == Seqs.Filter(books, Bare(images))
    ensures multiset(first + rest) == multiset(books)
    ensures forall b :: b in first + rest <==> b in books
    ensures forall i, j :: 0 <= i < j < |first + rest| ==> NotAfter(images, (first + rest)[i], (first + rest)[j])
  {
    var pictured := Seqs.Filter(books, Pictured(images));
    Seqs.FilterPartition(books, Pictured(images), Bare(images));
    forall i | 0 <= i < |first| ensures Pictured(images)(first[i]) {
      assert first[i] in pictured;
    }
    PicturedFirst(images, first, rest);
    assert multiset(first + rest) == multiset(books);
    assert forall b :: b in first + rest <==> b in multiset(books);
  }

  /** Books with pictures sorted by key, then books without any, are in listing order. */
  lemma PicturedFirst(images: seq<BookImage>, first: seq<Book>, rest: seq<Book>)
    requires forall i :: 0 <= i < |first| ==> Pictured(images)(first[i])
    requires forall i, j :: 0 <= i < j < |first| ==> PictureKey(images)(first[i]) <= PictureKey(images)(first[j])
    requires forall i :: 0 <= i < |rest| ==> Bare(images)(rest[i])
    ensures forall i, j :: 0 <= i < j < |first + rest| ==> NotAfter(images, (first + rest)[i], (first + rest)[j])
  {
    var r := first + rest;
    forall i, j | 0 <= i < j < |r| ensures NotAfter(images, r[i], r[j]) {
      if j < |first| {
        assert r[i] == first[i] && r[j] == first[j];
      } else {
        assert r[j] == rest[j - |first|];
      }
    }
  }

  /** The listing order depends only on the first pictures of the books listed. */
  lemma ByFirstPictureAgree(images: seq<BookImage>, images': seq<BookImage>, books: seq<Book>)
    requires forall k :: 0 <= k < |books| ==>
      FirstPicture(images, books[k].id) == FirstPicture(images', books[k].id)
    ensures ByFirstPicture(images, books) == ByFirstPicture(images', books)
  {
    Seqs.FilterAgree(books, Pictured(images), Pictured(images'));
    Seqs.FilterAgree(books, Bare(images), Bare(images'));
    var pictured := Seqs.Filter(books, Pictured(images));
    forall i | 0 <= i < |pictured|
      ensures PictureKey(images)(pictured[i]) == PictureKey(images')(pictured[i])
    {
      assert pictured[i] in books;
    }
    Seqs.SortByAgree(pictured, PictureKey(images), PictureKey(images'));
  }

  /** Every listed book, ordered by first picture as `findAll` returns them. */
  function ListedBooks(db: Db): (r: seq<Book>)
    ensures forall b :: b in r <==> b in db.books && Listed(b)
    ensures multiset(r) <= multiset(db.books)
    ensures forall i, j :: 0 <= i < j < |r| ==> NotAfter(db.images, r[i], r[j])
  {
    ByFirstPicture(db.images, Seqs.Filter(db.books, Listed))
  }

  /** What `findAll` answers: every listed book, or a proximity search around the caller's home
      point (a PostGIS query outside this model). */
  datatype Catalogue = Everything(books: seq<Book>) | Nearby(user: User)

  /** The caller has a home point: both coordinates are set and non-zero. */
  predicate HasHome(u: User) {
    Js.TruthyOpt(u.lat) && Js.TruthyOpt(u.lng)
  }

  /** `findAll`. The proximity search runs only when the feature flag is on, the caller's id is
      truthy, the caller exists and has a home point; every other case lists all listed books. */
  function FindAll(db: Db, proximityEnabled: bool, userId: Option<int>): (r: Catalogue)
    ensures r.Nearby? <==>
      && proximityEnabled && Js.TruthyOpt(userId)
      && FindUser(db, userId.value).Some? && HasHome(FindUser(db, userId.value).value)
    ensures r.Nearby? ==> r.user in db.users && r.user.id == userId.value && HasHome(r.user)
    ensures r.Everything? ==> forall b :: b in r.books <==> b in db.books && b.state != Exchanged
    ensures r.Everything? ==> forall i, j :: 0 <= i < j < |r.books| ==> NotAfter(db.images, r.books[i], r.books[j])
  {
    if !proximityEnabled then Everything(ListedBooks(db))
    else if !Js.TruthyOpt(userId) then Everything(ListedBooks(db))
    else
      match FindUser(db, userId.value)
      case None => Everything(ListedBooks(db))
      case Some(u) => if !HasHome(u) then Everything(ListedBooks(db)) else Nearby(u)
  }

  /** With the proximity flag off, the caller makes no difference. */
  lemma FlagOffIgnoresCaller(db: Db, a: Option<int>, b: Option<int>)
    ensures FindAll(db, false, a) == FindAll(db, false, b) == FindAll(db, true, None)
    ensures FindAll(db, false, a).Everything?
  {
  }

  /** The `WHERE` clause of `findByUser` and `countByUser`. */
  function OnShelf(user: UserId): Book -> bool {
    (b: Book) => b.owner == user && Listed(b)
  }

  /** `findByUser`: the listed books the user owns, ordered by first picture. */
  function FindByUser(db: Db, user: UserId): (r: seq<Book>)
    ensures forall b :: b in r <==> b in db.books && b.owner == user && b.state != Exchanged
    ensures multiset(r) <= multiset(db.books)
    ensures |r| == |Seqs.Filter(db.books, OnShelf(user))|
    ensures forall i, j :: 0 <= i < j < |r| ==> NotAfter(db.images, r[i], r[j])
  {
    ByFirstPicture(db.images, Seqs.Filter(db.books, OnShelf(user)))
  }

  /** `countByUser`: it counts exactly the books `findByUser` lists. */
  function CountByUser(db: Db, user: UserId): (n: nat)
    ensures n == |FindByUser(db, user)|
    ensures n == 0 <==> forall b :: b in db.books ==> b.owner != user || b.state == Exchanged
  {
    Seqs.CountIsFilterSize(db.books, OnShelf(user));
    Seqs.Count(db.books, OnShelf(user))
  }

  /** `CreateBookDto`. A missing genre or picture list behaves as an empty one. */
  datatype CreateBookDto = CreateBookDto(
    title: string, author: string, description: Option<string>,
    genres: seq<string>, images: seq<string>, owner: UserId)

  /** The set of genre names in the table. */
  ghost function GenreNames(db: Db): set<string> {
    set g | g in db.genres :: g.name
  }

  /** No two genre rows share a name (the `nombre` column is unique). */
  ghost predicate UniqueGenreNames(db: Db) {
    forall i, j :: 0 <= i < j < |db.genres| ==> db.genres[i].name != db.genres[j].name
  }

  /** `db2` only appended genre rows to `db` and drew keys from the generator. */
  ghost predicate GenresExtended(db: Db, db2: Db) {
    && |db.genres| <= |db2.genres| && db2.genres[..|db.genres|] == db.genres
    && db.nextId <= db2.nextId
    && db2 == db.(genres := db2.genres, nextId := db2.nextId)
  }

  /** Extending the genre table twice is extending it once. */
  lemma ExtendedTrans(db: Db, db1: Db, db2: Db)
    requires GenresExtended(db, db1) && GenresExtended(db1, db2)
    ensures GenresExtended(db, db2)
  {
    assert db2.genres[..|db.genres|] == db2.genres[..|db1.genres|][..|db.genres|];
  }

  /** Putting the genre of the first name in front of the genres of the others. */
  lemma ConsGenres(g: Genre, gs: seq<Genre>, names: seq<string>, genres: seq<Genre>)
    requires |names| > 0 && |gs| == |names| - 1
    requires g in genres && g.name == names[0]
    requires forall k :: 0 <= k < |gs| ==> gs[k] in genres && gs[k].name == names[1..][k]
    ensures forall k :: 0 <= k < |names| ==> ([g] + gs)[k] in genres && ([g] + gs)[k].name == names[k]
  {
    var r := [g] + gs;
    forall k | 0 <= k < |names| ensures r[k] in genres && r[k].name == names[k] {
      if k > 0 {
        assert r[k] == gs[k - 1] && names[k] == names[1..][k - 1];
      }
    }
  }

  /** A genre row survives an extension of the table. */
  lemma ExtendedKeeps(db1: Db, db2: Db, g: Genre)
    requires GenresExtended(db1, db2) && g in db1.genres
    ensures g in db2.genres
  {
    var i :| 0 <= i < |db1.genres| && db1.genres[i] == g;
    assert db2.genres[..|db1.genres|][i] == g;
  }

  /** The genre called `name`, looked up by its unique name. */
  function FindGenre(db: Db, name: string): (r: Option<Genre>)
    ensures r.Some? ==> r.value in db.genres && r.value.name == name
    ensures r.None? <==> name !in GenreNames(db)
  {
    Seqs.First(db.genres, (g: Genre) => g.name == name)
  }

  /** One turn of the genre loop of `create`: the genre called `name`, created first when no row
      has that name. */
  function FindOrCreateGenre(db: Db, name: string): (r: (Db, Genre))
    ensures r.1 in r.0.genres && r.1.name == name
    ensures GenresExtended(db, r.0)
    ensures GenreNames(r.0) == GenreNames(db) + {name}
    ensures |r.0.genres| == |db.genres| + (if name in GenreNames(db) then 0 else 1)
    ensures UniqueGenreNames(db) ==> UniqueGenreNames(r.0)
  {
    match FindGenre(db, name)
    case Some(g) => (db, g)
    case None =>
      var g := Genre(db.nextId, name);
      var db' := db.(genres := db.genres + [g], nextId := db.nextId + 1);
      assert db'.genres[..|db.genres|] == db.genres;
      assert forall x :: x in db'.genres <==> x in db.genres || x == g;
      (db', g)
  }

  /** The genre loop of `create`: one genre row per requested name, in order, creating only the
      names the table lacks. */
  function ResolveGenres(db: Db, names: seq<string>): (r: (Db, seq<Genre>))
    ensures |r.1| == |names|
    ensures forall k :: 0 <= k < |names| ==> r.1[k] in r.0.genres && r.1[k].name == names[k]
    ensures GenresExtended(db, r.0)
    decreases |names|
  {
    if |names| == 0 then (db, [])
    else
      var first := FindOrCreateGenre(db, names[0]);
      var rest := ResolveGenres(first.0, names[1..]);
      ExtendedTrans(db, first.0, rest.0);
      ExtendedKeeps(first.0, rest.0, first.1);
      ConsGenres(first.1, rest.1, names, rest.0.genres);
      (rest.0, [first.1] + rest.1)
  }

  /** The genre loop adds exactly the requested names that were missing. */
  lemma {:induction false} ResolveGenresNames(db: Db, names: seq<string>)
    ensures GenreNames(ResolveGenres(db, names).0) == GenreNames(db) + NameSet(names)
    decreases |names|
  {
    if |names| > 0 {
      var db1 := FindOrCreateGenre(db, names[0]).0;
      var db2 := ResolveGenres(db1, names[1..]).0;
      assert ResolveGenres(db, names).0 == db2;
      ResolveGenresNames(db1, names[1..]);
      NameSetCons(names);
      UnionRegroup(GenreNames(db), {names[0]}, NameSet(names[1..]));
    }
  }

  /** The genre loop creates no second row for a name. */
  lemma {:induction false} ResolveGenresUnique(db: Db, names: seq<string>)
    requires UniqueGenreNames(db)
    ensures UniqueGenreNames(ResolveGenres(db, names).0)
    decreases |names|
  {
    if |names| > 0 {
      var db1 := FindOrCreateGenre(db, names[0]).0;
      assert ResolveGenres(db, names).0 == ResolveGenres(db1, names[1..]).0;
      ResolveGenresUnique(db1, names[1..]);
    }
  }

  /** The names requested in `names`. */
  ghost function NameSet(names: seq<string>): set<string> {
    set n | n in names
  }

  /** The first name and the names after it. */
  lemma NameSetCons(names: seq<string>)
    requires |names| > 0
    ensures NameSet(names) == {names[0]} + NameSet(names[1..])
  {
    assert names == [names[0]] + names[1..];
  }

  /** Union regroups freely. */
  lemma UnionRegroup(a: set<string>, b: set<string>, c: set<string>)
    ensures a + b + c == a + (b + c)
  {
  }

  /** The picture loop of `create`: one row per URL, in order, linked to `book`. */
  function AddPictures(db: Db, book: BookId, urls: seq<string>): (r: Db)
    ensures |r.images| == |db.images| + |urls| && r.images[..|db.images|] == db.images
    ensures forall k :: 0 <= k < |urls| ==>
      r.images[|db.images| + k].book == book && r.images[|db.images| + k].url == urls[k]
    ensures r.nextId == db.nextId + |urls|
    ensures r == db.(images := r.images, nextId := r.nextId)
  {
    var pictures := seq(|urls|, k requires 0 <= k < |urls| => BookImage(db.nextId + k, book, urls[k]));
    var r := db.(images := db.images + pictures, nextId := db.nextId + |urls|);
    assert r.images[..|db.images|] == db.images;
    r
  }

  /** `create`. The genres are resolved first, then the book row is saved owned by `owner` and
      available, then one picture row per URL, in order, linked to the new book. */
  function Create(db: Db, dto: CreateBookDto): (r: (Db, Book))
    ensures r.1.owner == dto.owner && r.1.title == dto.title && r.1.author == dto.author
    ensures r.1.description == dto.description && r.1.state == Available
    ensures r.0.books == db.books + [r.1]
    ensures r.1.id >= db.nextId && r.0.nextId > r.1.id
    ensures |r.1.genres| == |dto.genres|
    ensures forall k :: 0 <= k < |dto.genres| ==> Genre(r.1.genres[k], dto.genres[k]) in r.0.genres
    ensures |db.genres| <= |r.0.genres| && r.0.genres[..|db.genres|] == db.genres
    ensures |r.0.images| == |db.images| + |dto.images| && r.0.images[..|db.images|] == db.images
    ensures forall k :: 0 <= k < |dto.images| ==>
      r.0.images[|db.images| + k].book == r.1.id && r.0.images[|db.images| + k].url == dto.images[k]
    ensures r.0.users == db.users && r.0.exchanges == db.exchanges && r.0.chats == db.chats
    ensures r.0.members == db.members && r.0.messages == db.messages && r.0.ratings == db.ratings
    ensures r.0.notifications == db.notifications
  {
    var (db1, gs) := ResolveGenres(db, dto.genres);
    var book := Book(db1.nextId, dto.owner, dto.title, dto.author, Available, dto.description,
                     Seqs.Map(gs, (g: Genre) => g.id));
    assert forall k :: 0 <= k < |dto.genres| ==> gs[k] == Genre(book.genres[k], dto.genres[k]);
    var db2 := db1.(books := db1.books + [book], nextId := db1.nextId + 1);
    (AddPictures(db2, book.id, dto.images), book)
  }

  /** Creating a book adds exactly the genre names it asks for that were missing, and never a
      second genre row with the same name. */
  lemma CreateGenreNames(db: Db, dto: CreateBookDto)
    ensures GenreNames(Create(db, dto).0) == GenreNames(db) + set n | n in dto.genres
    ensures UniqueGenreNames(db) ==> UniqueGenreNames(Create(db, dto).0)
  {
    ResolveGenresNames(db, dto.genres);
    if UniqueGenreNames(db) {
      ResolveGenresUnique(db, dto.genres);
    }
    assert Create(db, dto).0.genres == ResolveGenres(db, dto.genres).0.genres;
  }

  /** Every book key is below the key generator. */
  ghost predicate BookKeysIssued(db: Db) {
    forall b :: b in db.books ==> b.id < db.nextId
  }

  /** A created book is found by its key, appears on its owner's shelf and raises the owner's
      count by one; other users' shelves do not change. */
  lemma CreatedBookIsShelved(db: Db, dto: CreateBookDto, other: UserId)
    requires BookKeysIssued(db)
    requires other != dto.owner
    ensures BookKeysIssued(Create(db, dto).0)
    ensures FindBook(Create(db, dto).0, Create(db, dto).1.id) == Some(Create(db, dto).1)
    ensures Create(db, dto).1 in FindByUser(Create(db, dto).0, dto.owner)
    ensures CountByUser(Create(db, dto).0, dto.owner) == CountByUser(db, dto.owner) + 1
    ensures FindByUser(Create(db, dto).0, other) == FindByUser(db, other)
  {
    var r := Create(db, dto);
    AppendedBookIsShelved(db, r.0, r.1, other);
  }

  /** The shelf facts for any table that gained one fresh available book and pictures of it
      only. */
  lemma AppendedBookIsShelved(db: Db, db': Db, book: Book, other: UserId)
    requires BookKeysIssued(db)
    requires db'.books == db.books + [book] && book.state == Available
    requires db.nextId <= book.id < db'.nextId
    requires |db.images| <= |db'.images| && db'.images[..|db.images|] == db.images
    requires forall k :: |db.images| <= k < |db'.images| ==> db'.images[k].book == book.id
    requires other != book.owner
    ensures BookKeysIssued(db')
    ensures FindBook(db', book.id) == Some(book)
    ensures book in FindByUser(db', book.owner)
    ensures CountByUser(db', book.owner) == CountByUser(db, book.owner) + 1
    ensures FindByUser(db', other) == FindByUser(db, other)
  {
    AppendedBookIsFound(db, db', book);
    Seqs.FilterSnoc(db.books, book, OnShelf(book.owner));
    Seqs.FilterSnoc(db.books, book, OnShelf(other));
    assert OnShelf(book.owner)(book) && !OnShelf(other)(book);
    OtherShelfKept(db, db', book.id, other);
  }

  /** A shelf whose rows did not change keeps its order when only a new book gains pictures. */
  lemma OtherShelfKept(db: Db, db': Db, newBook: BookId, other: UserId)
    requires BookKeysIssued(db) && db.nextId <= newBook
    requires Seqs.Filter(db'.books, OnShelf(other)) == Seqs.Filter(db.books, OnShelf(other))
    requires |db.images| <= |db'.images| && db'.images[..|db.images|] == db.images
    requires forall k :: |db.images| <= k < |db'.images| ==> db'.images[k].book == newBook
    ensures FindByUser(db', other) == FindByUser(db, other)
  {
    var shelf := Seqs.Filter(db.books, OnShelf(other));
    forall k | 0 <= k < |shelf|
      ensures FirstPicture(db'.images, shelf[k].id) == FirstPicture(db.images, shelf[k].id)
    {
      assert shelf[k] in db.books;
      NewPicturesKeepFirst(db, db', newBook, shelf[k].id);
    }
    ByFirstPictureAgree(db'.images, db.images, shelf);
  }

  /** Pictures added for a new book leave the first picture of every other book as it was. */
  lemma NewPicturesKeepFirst(db: Db, db': Db, newBook: BookId, book: BookId)
    requires |db.images| <= |db'.images| && db'.images[..|db.images|] == db.images
    requires forall k :: |db.images| <= k < |db'.images| ==> db'.images[k].book == newBook
    requires book != newBook
    ensures FirstPicture(db'.images, book) == FirstPicture(db.images, book)
  {
    var extra := db'.images[|db.images|..];
    assert db'.images == db.images + extra;
    FirstPictureIgnoresOthers(db.images, extra, book);
  }

  /** A book appended under a fresh key is the one found under that key. */
  lemma AppendedBookIsFound(db: Db, db': Db, book: Book)
    requires BookKeysIssued(db)
    requires db'.books == db.books + [book]
    requires db.nextId <= book.id < db'.nextId
    ensures BookKeysIssued(db')
    ensures FindBook(db', book.id) == Some(book)
  {
    assert book in db'.books;
    assert forall b :: b in db'.books && b.id == book.id ==> b == book;
  }

  /** The exchange asks for the book or offers it. */
  predicate Involves(e: Exchange, book: BookId) {
    e.requestedBook == book || e.offeredBook == Some(book)
  }

  /** The keys of the exchanges about `book`. */
  function InvolvedIds(db: Db, book: BookId): (r: set<ExchangeId>)
    ensures forall e :: e in db.exchanges && Involves(e, book) ==> e.id in r
    ensures forall x :: x in r ==> exists e :: e in db.exchanges && Involves(e, book) && e.id == x
  {
    set e | e in db.exchanges && Involves(e, book) :: e.id
  }

  /** The keys of the chats opened for one of the exchanges `xids`. */
  function ChatsFor(db: Db, xids: set<ExchangeId>): (r: set<ChatId>)
    ensures forall c :: c in db.chats && c.exchange.Some? && c.exchange.value in xids ==> c.id in r
    ensures forall x :: x in r ==> exists c :: c in db.chats && c.exchange.Some? && c.exchange.value in xids && c.id == x
  {
    set c | c in db.chats && c.exchange.Some? && c.exchange.value in xids :: c.id
  }

  /** `delete`. Deleting a missing book is not an error. When exchanges mention the book, the
      chats opened for them lose their messages, their members and themselves, and the
      exchanges are removed; then the pictures and the book row go. Ratings and notifications
      about the removed exchanges are left in place. */
  function Delete(db: Db, id: BookId): (r: Db)
    ensures forall b :: b in r.books <==> b in db.books && b.id != id
    ensures forall i :: i in r.images <==> i in db.images && i.book != id
    ensures forall e :: e in r.exchanges <==> e in db.exchanges && e.id !in InvolvedIds(db, id)
    ensures forall c :: c in r.chats <==> c in db.chats && c.id !in ChatsFor(db, InvolvedIds(db, id))
    ensures forall m :: m in r.messages <==> m in db.messages && m.chat !in ChatsFor(db, InvolvedIds(db, id))
    ensures forall m :: m in r.members <==> m in db.members && m.chat !in ChatsFor(db, InvolvedIds(db, id))
    ensures r.users == db.users && r.genres == db.genres && r.ratings == db.ratings
    ensures r.notifications == db.notifications && r.nextId == db.nextId
  {
    var xids := InvolvedIds(db, id);
    var db1 :=
      if xids == {} then db
      else
        var cids := ChatsFor(db, xids);
        var db0 :=
          if cids == {} then db
          else db.(messages := Seqs.Filter(db.messages, (m: Message) => m.chat !in cids),
                   members := Seqs.Filter(db.members, (m: ChatMember) => m.chat !in cids),
                   chats := Seqs.Filter(db.chats, (c: Chat) => c.id !in cids));
        db0.(exchanges := Seqs.Filter(db.exchanges, (e: Exchange) => e.id !in xids));
    db1.(images := Seqs.Filter(db.images, (i: BookImage) => i.book != id),
         books := Seqs.Filter(db.books, (b: Book) => b.id != id))
  }

  /** After `delete` nothing points at the book: no exchange asks for it or offers it, no
      picture is linked to it, no chat belongs to a removed exchange and no message or member
      belongs to a removed chat. */
  lemma DeleteLeavesNoDanglingRows(db: Db, id: BookId)
    ensures var r := Delete(db, id);
      && FindBook(r, id).None?
      && (forall e :: e in r.exchanges ==> !Involves(e, id))
      && (forall i :: i in r.images ==> i.book != id)
      && (forall c :: c in r.chats && c.exchange.Some? ==> c.exchange.value !in InvolvedIds(db, id))
      && (forall m :: m in r.messages ==> m.chat !in ChatsFor(db, InvolvedIds(db, id)))
  {
  }
}

=== FILE: chats.dfy ===
/** The chat service: two-member channels between users, their messages, and the chat delete
    that cascades onto the exchanges of the pair. */
module Chats {
  import opened Wrappers
  import opened Failures
  import opened Entities
  import opened Store
  import Js
  import Seqs

  /** `verifyUserInChat`: a membership row (chat, user) exists. */
  predicate IsMember(db: Db, chat: ChatId, user: UserId) {
    ChatMember(chat, user) in db.members
  }

  /** The membership rows of `chat`, in table order. */
  function ChatUsers(db: Db, chat: ChatId): (ms: seq<ChatMember>)
    ensures forall m :: m in ms <==> m in db.members && m.chat == chat
  {
    Seqs.Filter(db.members, (m: ChatMember) => m.chat == chat)
  }

  /** The exchange is between `u1` and `u2`, in either role. */
  predicate Between(e: Exchange, u1: UserId, u2: UserId) {
    (e.requester == u1 && e.receiver == u2) || (e.requester == u2 && e.receiver == u1)
  }

  /** `findExistingChat`: a chat in which both users are members, if there is one. */
  function FindExistingChat(db: Db, u1: UserId, u2: UserId): (r: Option<ChatId>)
    ensures r.Some? ==> IsMember(db, r.value, u1) && IsMember(db, r.value, u2)
    ensures r.None? <==> forall c :: IsMember(db, c, u1) ==> !IsMember(db, c, u2)
  {
    match Seqs.First(db.members, (m: ChatMember) => m.user == u1 && ChatMember(m.chat, u2) in db.members)
    case None =>
      assert forall c :: IsMember(db, c, u1) ==> !IsMember(db, c, u2) by {
        forall c | IsMember(db, c, u1)
          ensures !IsMember(db, c, u2)
        {
          var m := ChatMember(c, u1);
          assert m in db.members;
        }
      }
      None
    case Some(m) => Some(m.chat)
  }

  /** The result of `createChat`: the store after the call and the chat the caller gets back. */
  datatype ChatCreated = ChatCreated(db: Db, chat: ChatId, existed: bool)

  /** `createChat`: both users must exist, and only then must they differ. An existing chat of
      the pair is returned as it is; otherwise a chat with the two membership rows is created. */
  function CreateChat(db: Db, u1: UserId, u2: UserId, exchange: Option<ExchangeId>): (r: Result<ChatCreated, Failure>)
    ensures FindUser(db, u1).None? || FindUser(db, u2).None? ==> r == Err(NotFound(UsersNotFound))
    ensures FindUser(db, u1).Some? && FindUser(db, u2).Some? && u1 == u2 ==> r == Err(BadRequest(SelfChat))
    ensures r.Ok? <==> FindUser(db, u1).Some? && FindUser(db, u2).Some? && u1 != u2
    ensures r.Ok? ==> IsMember(r.value.db, r.value.chat, u1) && IsMember(r.value.db, r.value.chat, u2)
    ensures r.Ok? && r.value.existed ==> r.value.db == db
    ensures r.Ok? ==> (r.value.existed <==> FindExistingChat(db, u1, u2).Some?)
    ensures r.Ok? && !r.value.existed ==>
      && r.value.chat == db.nextId
      && r.value.db.chats == db.chats + [Chat(db.nextId, Js.OrNull(exchange))]
      && r.value.db.members == db.members + [ChatMember(db.nextId, u1), ChatMember(db.nextId, u2)]
      && r.value.db.exchanges == db.exchanges && r.value.db.messages == db.messages
      && r.value.db.users == db.users && r.value.db.books == db.books
  {
    if FindUser(db, u1).None? || FindUser(db, u2).None? then Err(NotFound(UsersNotFound))
    else if u1 == u2 then Err(BadRequest(SelfChat))
    else
      match FindExistingChat(db, u1, u2)
      case Some(c) => Ok(ChatCreated(db, c, true))
      case None =>
        var id := db.nextId;
        var db' := db.(chats := db.chats + [Chat(id, Js.OrNull(exchange))],
                       members := db.members + [ChatMember(id, u1), ChatMember(id, u2)],
                       nextId := db.nextId + 1);
        Ok(ChatCreated(db', id, false))
  }

  /** Every chat key and every membership row refers to a key the generator has handed out. */
  ghost predicate ChatKeysIssued(db: Db) {
    && (forall c :: c in db.chats ==> c.id < db.nextId)
    && (forall m :: m in db.members ==> m.chat < db.nextId)
  }

  /** `createChat` never touches the exchanges. */
  lemma CreateChatPreservesExchanges(db: Db, u1: UserId, u2: UserId, exchange: Option<ExchangeId>)
    ensures CreateChat(db, u1, u2, exchange).Ok? ==> CreateChat(db, u1, u2, exchange).value.db.exchanges == db.exchanges
  {
  }

  /** A chat `createChat` creates has exactly the two given users as members. */
  lemma NewChatHasExactlyThePair(db: Db, u1: UserId, u2: UserId, exchange: Option<ExchangeId>)
    requires ChatKeysIssued(db)
    requires CreateChat(db, u1, u2, exchange).Ok?
    requires !CreateChat(db, u1, u2, exchange).value.existed
    ensures var r := CreateChat(db, u1, u2, exchange).value;
            forall u :: IsMember(r.db, r.chat, u) <==> u == u1 || u == u2
  {
    var r := CreateChat(db, u1, u2, exchange).value;
    forall u
      ensures IsMember(r.db, r.chat, u) <==> u == u1 || u == u2
    {
      if ChatMember(db.nextId, u) in db.members {
        assert false;
      }
    }
  }

  /** `createChat` keeps every chat key issued. */
  lemma CreateChatKeepsKeysIssued(db: Db, u1: UserId, u2: UserId, exchange: Option<ExchangeId>)
    requires ChatKeysIssued(db)
    requires CreateChat(db, u1, u2, exchange).Ok?
    ensures ChatKeysIssued(CreateChat(db, u1, u2, exchange).value.db)
  {
  }

  /** After `createChat` made a new chat, it is the only chat the pair shares. */
  lemma OnlySharedChatAfterCreate(db: Db, u1: UserId, u2: UserId, exchange: Option<ExchangeId>)
    requires ChatKeysIssued(db)
    requires CreateChat(db, u1, u2, exchange).Ok?
    requires !CreateChat(db, u1, u2, exchange).value.existed
    ensures var r := CreateChat(db, u1, u2, exchange).value;
            forall c :: IsMember(r.db, c, u1) && IsMember(r.db, c, u2) ==> c == r.chat
  {
    var r := CreateChat(db, u1, u2, exchange).value;
    forall c | IsMember(r.db, c, u1) && IsMember(r.db, c, u2)
      ensures c == r.chat
    {
      if c != r.chat {
        assert IsMember(db, c, u1) && IsMember(db, c, u2);
      }
    }
  }

  /** Asking again for the chat of a pair, in either order, returns the chat the first call
      returned and changes nothing. */
  lemma {:induction false} CreateChatIdempotent(db: Db, u1: UserId, u2: UserId, x: Option<ExchangeId>, y: Option<ExchangeId>)
    requires ChatKeysIssued(db)
    requires CreateChat(db, u1, u2, x).Ok?
    ensures var first := CreateChat(db, u1, u2, x).value;
            && CreateChat(first.db, u1, u2, y) == Ok(ChatCreated(first.db, first.chat, true))
            && CreateChat(first.db, u2, u1, y).Ok?
            && CreateChat(first.db, u2, u1, y).value.db == first.db
  {
    var first := CreateChat(db, u1, u2, x).value;
    assert FindUser(first.db, u1) == FindUser(db, u1);
    assert FindUser(first.db, u2) == FindUser(db, u2);
    if !first.existed {
      OnlySharedChatAfterCreate(db, u1, u2, x);
    }
    assert FindExistingChat(first.db, u1, u2) == Some(first.chat);
    assert FindExistingChat(first.db, u2, u1).Some?;
  }

  /** The messages of `chat`, in table order. */
  function ChatMessages(db: Db, chat: ChatId): (ms: seq<Message>)
    ensures forall m :: m in ms <==> m in db.messages && m.chat == chat
    ensures multiset(ms) <= multiset(db.messages)
  {
    Seqs.Filter(db.messages, (m: Message) => m.chat == chat)
  }

  /** The page size of a listing whose `limit` query parameter is absent or empty. */
  const DefaultLimit: nat := 200

  /** The `take` of the query: the parsed `limit`, or the default when it is absent. */
  function TakeOf(limit: Option<int>): (n: int)
    ensures limit.None? ==> n == DefaultLimit
    ensures limit.Some? ==> n == limit.value
  {
    match limit
    case None => DefaultLimit
    case Some(l) => l
  }

  /** A page of `ms`, earliest first: the `take` earliest (all of them when there are fewer),
      or all of them for a `take` of 0. */
  function Page(ms: seq<Message>, take: nat): (r: seq<Message>)
    ensures |r| == if 0 < take < |ms| then take else |ms|
    ensures take == 0 ==> forall m :: m in r <==> m in ms
    ensures forall m :: m in r ==> m in ms
    ensures forall i, j :: 0 <= i < j < |r| ==> r[i].at <= r[j].at
    ensures forall m, i :: m in ms && 0 <= i < |r| && m.at < r[i].at ==> m in r
  {
    if take == 0 then Seqs.SortAscBy(ms, (m: Message) => m.at)
    else
      var page := Seqs.SmallestBy(ms, (m: Message) => m.at, take);
      assert forall m :: m in page ==> m in multiset(ms);
      page
  }

  /** `getChatMessages`: members only. A `take` of 0 is falsy and the query runs without a
      limit, so every message of the chat comes back; a negative one reaches the database as a
      negative `LIMIT`, which it rejects; otherwise the `take` earliest messages (all of them
      when there are fewer). Earliest first in every case. */
  function GetChatMessages(db: Db, chat: ChatId, user: UserId, limit: Option<int>): (r: Result<seq<Message>, Failure>)
    ensures !IsMember(db, chat, user) <==> r == Err(BadRequest(NoChatAccess))
    ensures IsMember(db, chat, user) && TakeOf(limit) < 0 ==> r == Err(Error(NegativeLimit))
    ensures r.Ok? <==> IsMember(db, chat, user) && TakeOf(limit) >= 0
    ensures r.Ok? ==> |r.value| == if 0 < TakeOf(limit) < |ChatMessages(db, chat)| then TakeOf(limit)
                                   else |ChatMessages(db, chat)|
    ensures r.Ok? && TakeOf(limit) == 0 ==> forall m :: m in r.value <==> m in db.messages && m.chat == chat
    ensures r.Ok? ==> forall m :: m in r.value ==> m in db.messages && m.chat == chat
    ensures r.Ok? ==> forall i, j :: 0 <= i < j < |r.value| ==> r.value[i].at <= r.value[j].at
    ensures r.Ok? ==> forall m, i :: m in db.messages && m.chat == chat && 0 <= i < |r.value| && m.at < r.value[i].at
                                     ==> m in r.value
  {
    if !IsMember(db, chat, user) then Err(BadRequest(NoChatAccess))
    else if TakeOf(limit) < 0 then Err(Error(NegativeLimit))
    else Ok(Page(ChatMessages(db, chat), TakeOf(limit)))
  }

  /** `sendMessage`: members only; the message is stored with the sender and the time. */
  function SendMessage(db: Db, user: UserId, chat: ChatId, text: string, now: Time): (r: Result<(Db, Message), Failure>)
    ensures !IsMember(db, chat, user) <==> r == Err(BadRequest(NoChatAccess))
    ensures r.Ok? ==> var (db', m) := r.value;
      && db'.messages == db.messages + [m]
      && m.chat == chat && m.sender == user && m.text == text && m.at == now
      && m.id == db.nextId && db'.nextId > db.nextId
      && db'.members == db.members && db'.chats == db.chats && db'.exchanges == db.exchanges
  {
    if !IsMember(db, chat, user) then Err(BadRequest(NoChatAccess))
    else
      var m := Message(db.nextId, chat, user, text, now);
      Ok((db.(messages := db.messages + [m], nextId := db.nextId + 1), m))
  }

  /** A message just sent is seen by the chat's members: among the new messages for any earlier
      `since`, and in the unlimited listing. */
  lemma SentMessageIsSeen(db: Db, chat: ChatId, user: UserId, member: UserId, text: string, now: Time, since: Time)
    requires IsMember(db, chat, user) && IsMember(db, chat, member)
    requires since < now
    ensures var (db', m) := SendMessage(db, user, chat, text, now).value;
      && GetNewMessages(db', chat, member, since).Ok? && m in GetNewMessages(db', chat, member, since).value
      && GetChatMessages(db', chat, member, Some(0)).Ok? && m in GetChatMessages(db', chat, member, Some(0)).value
  {
    var (db', m) := SendMessage(db, user, chat, text, now).value;
    assert m in db'.messages;
  }

  /** `getNewMessages`: members only; exactly the chat's messages strictly after `since`,
      earliest first. */
  function GetNewMessages(db: Db, chat: ChatId, user: UserId, since: Time): (r: Result<seq<Message>, Failure>)
    ensures !IsMember(db, chat, user) <==> r == Err(BadRequest(NoChatAccess))
    ensures r.Ok? ==> forall m :: m in r.value <==> m in db.messages && m.chat == chat && m.at > since
    ensures r.Ok? ==> multiset(r.value) == multiset(Seqs.Filter(db.messages, (m: Message) => m.chat == chat && m.at > since))
    ensures r.Ok? ==> forall i, j :: 0 <= i < j < |r.value| ==> r.value[i].at <= r.value[j].at
  {
    if !IsMember(db, chat, user) then Err(BadRequest(NoChatAccess))
    else
      var later := Seqs.Filter(db.messages, (m: Message) => m.chat == chat && m.at > since);
      Ok(Seqs.SortAscBy(later, (m: Message) => m.at))
  }

  /** The exchange states `getChatExchanges` lists. */
  predicate Listed(s: ProposalState) {
    s == Accepted || s == Completed
  }

  /** `getChatExchanges`: nothing for a chat with fewer than two members; otherwise the accepted
      and completed exchanges between its first two members, in either direction, newest
      proposal first. */
  function GetChatExchanges(db: Db, chat: ChatId): (r: seq<Exchange>)
    ensures |ChatUsers(db, chat)| < 2 ==> r == []
    ensures |ChatUsers(db, chat)| >= 2 ==>
      var u1 := ChatUsers(db, chat)[0].user;
      var u2 := ChatUsers(db, chat)[1].user;
      && (forall e :: e in r <==> e in db.exchanges && Between(e, u1, u2) && Listed(e.state))
      && multiset(r) == multiset(Seqs.Filter(db.exchanges, (e: Exchange) => Between(e, u1, u2) && Listed(e.state)))
      && (forall i, j :: 0 <= i < j < |r| ==> r[i].proposedAt >= r[j].proposedAt)
  {
    var ms := ChatUsers(db, chat);
    if |ms| < 2 then []
    else
      var u1 := ms[0].user;
      var u2 := ms[1].user;
      var found := Seqs.Filter(db.exchanges, (e: Exchange) => Between(e, u1, u2) && Listed(e.state));
      NewestFirst(found)
  }

  /** The exchange states a chat delete overrides. */
  predicate Overridden(s: ProposalState) {
    s == Pending || s == Accepted || s == Completed
  }

  /** The rewrite a chat delete applies to one exchange of the store. */
  function RejectForPair(e: Exchange, u1: UserId, u2: UserId): Exchange {
    if Between(e, u1, u2) && Overridden(e.state) then e.(state := Rejected) else e
  }

  /** `deleteChat`: members only; the chat must have exactly two membership rows. Every
      pending, accepted or completed exchange between the two members becomes rejected, and
      the chat's messages, memberships and the chat itself are deleted. */
  function DeleteChat(db: Db, chat: ChatId, user: UserId): (r: Result<Db, Failure>)
    ensures !IsMember(db, chat, user) ==> r == Err(Forbidden(DeleteNotAllowed))
    ensures IsMember(db, chat, user) && |ChatUsers(db, chat)| != 2 ==> r == Err(BadRequest(NotTwoParticipants))
    ensures r.Ok? <==> IsMember(db, chat, user) && |ChatUsers(db, chat)| == 2
    ensures r.Ok? ==>
      var u1 := ChatUsers(db, chat)[0].user;
      var u2 := ChatUsers(db, chat)[1].user;
      var db' := r.value;
      && |db'.exchanges| == |db.exchanges|
      && (forall k :: 0 <= k < |db.exchanges| && Between(db.exchanges[k], u1, u2) && Overridden(db.exchanges[k].state)
                      ==> db'.exchanges[k] == db.exchanges[k].(state := Rejected))
      && (forall k :: 0 <= k < |db.exchanges| && !(Between(db.exchanges[k], u1, u2) && Overridden(db.exchanges[k].state))
                      ==> db'.exchanges[k] == db.exchanges[k])
      && (forall m :: m in db'.messages <==> m in db.messages && m.chat != chat)
      && (forall m :: m in db'.members <==> m in db.members && m.chat != chat)
      && (forall c :: c in db'.chats <==> c in db.chats && c.id != chat)
      && db'.books == db.books && db'.users == db.users && db'.ratings == db.ratings
  {
    if !IsMember(db, chat, user) then Err(Forbidden(DeleteNotAllowed))
    else
      var ms := ChatUsers(db, chat);
      if |ms| != 2 then Err(BadRequest(NotTwoParticipants))
      else
        var u1 := ms[0].user;
        var u2 := ms[1].user;
        Ok(db.(exchanges := Seqs.Map(db.exchanges, (e: Exchange) => RejectForPair(e, u1, u2)),
               messages := Seqs.Filter(db.messages, (m: Message) => m.chat != chat),
               members := Seqs.Filter(db.members, (m: ChatMember) => m.chat != chat),
               chats := Seqs.Filter(db.chats, (c: Chat) => c.id != chat)))
  }

  /** After a chat delete no exchange between the pair is pending, accepted or completed. */
  lemma DeleteChatLeavesPairClosed(db: Db, chat: ChatId, user: UserId)
    requires DeleteChat(db, chat, user).Ok?
    ensures var u1 := ChatUsers(db, chat)[0].user;
            var u2 := ChatUsers(db, chat)[1].user;
            forall e :: e in DeleteChat(db, chat, user).value.exchanges && Between(e, u1, u2) ==> !Overridden(e.state)
  {
  }
}

=== FILE: entities.dfy ===
/** The persisted records: one datatype per table of the schema. Column names of the schema
    are given next to each field; nullable columns are `Option`s. */
module Entities {
  import opened Wrappers

  type UserId = int
  type BookId = int
  type ExchangeId = int
  type ChatId = int
  type GenreId = int

  /** A clock reading (`new Date()`, `Date.now()`), in milliseconds. */
  type Time = int

  /** A `decimal(10, 7)` coordinate, counted in units of 10^-7 degree. */
  type Fixed7 = int

  /** `EstadoPropuesta`: the five states an exchange can be in. */
  datatype ProposalState = Pending | Accepted | Rejected | Canceled | Completed

  /** The five nullable `ubicacion_encuentro_*` columns of an exchange. */
  datatype Location = Location(
    lat: Option<Fixed7>,         // ubicacion_encuentro_lat
    lng: Option<Fixed7>,         // ubicacion_encuentro_lng
    name: Option<string>,        // ubicacion_encuentro_nombre
    address: Option<string>,     // ubicacion_encuentro_direccion
    placeId: Option<string>)     // ubicacion_encuentro_place_id

  const NoLocation := Location(None, None, None, None, None)

  /** `Intercambio`: one negotiation between a requester and the owner of the requested book. */
  datatype Exchange = Exchange(
    id: ExchangeId,                  // id_intercambio
    requestedBook: BookId,           // id_libro_solicitado
    offeredBook: Option<BookId>,     // id_libro_ofertado (nullable)
    requester: UserId,               // id_usuario_solicitante
    receiver: UserId,                // id_usuario_solicitante_receptor
    meetingPoint: Option<int>,       // id_punto_encuentro (nullable)
    state: ProposalState,            // estado_propuesta, default pending
    proposedAt: Time,                // fecha_propuesta, default NOW()
    agreedAt: Option<Time>,          // fecha_acuerdo (nullable)
    confirmedByRequester: bool,      // confirmacion_solicitante, default false
    confirmedByReceiver: bool,       // confirmacion_receptor, default false
    location: Location)

  /** A freshly inserted exchange row: every column the insert leaves out takes its default. */
  function NewExchange(id: ExchangeId, requestedBook: BookId, offeredBook: Option<BookId>,
                       requester: UserId, receiver: UserId, now: Time): Exchange
  {
    Exchange(id, requestedBook, offeredBook, requester, receiver, None, Pending, now, None,
             false, false, NoLocation)
  }

  /** `EstadoLibro`. */
  datatype BookState = Available | ExchangePending | Unavailable | Exchanged

  /** `Libro`. */
  datatype Book = Book(
    id: BookId,                      // id_libro
    owner: UserId,                   // id_propietario
    title: string,                   // titulo
    author: string,                  // autor
    state: BookState,                // estado, default available
    description: Option<string>,     // descripcion (nullable)
    genres: seq<GenreId>)            // libro_genero join rows

  /** `Genero`; `nombre` is a unique column. */
  datatype Genre = Genre(id: GenreId, name: string)

  /** `LibroImagen`. */
  datatype BookImage = BookImage(id: int, book: BookId, url: string)

  /** `Usuario`, without the columns no modelled operation reads. */
  datatype User = User(
    id: UserId,                      // id_usuario
    username: string,                // nombre_usuario (unique)
    email: string,                   // email (unique)
    passwordHash: string,            // password_hash
    gender: Option<string>,          // genero (nullable)
    lat: Option<int>,                // latitud (nullable float; only zero or non-zero is read)
    lng: Option<int>,                // longitud (nullable float; only zero or non-zero is read)
    radiusKm: int,                   // radio_busqueda_km, default 10
    city: Option<string>,            // ciudad (nullable)
    locationUpdatedAt: Option<Time>) // ubicacion_actualizada_at (nullable)

  /** `Chat`. */
  datatype Chat = Chat(id: ChatId, exchange: Option<ExchangeId>)

  /** `ChatUsuario`: one membership row per (chat, user). */
  datatype ChatMember = ChatMember(chat: ChatId, user: UserId)

  /** `Mensaje`. */
  datatype Message = Message(id: int, chat: ChatId, sender: UserId, text: string, at: Time)

  /** `Calificacion`. */
  datatype Rating = Rating(
    id: int,                         // id_calificacion
    exchange: ExchangeId,            // id_intercambio
    rater: UserId,                   // id_usuario_calificador
    rated: UserId,                   // id_usuario_calificado
    stars: int,                      // estrellas
    review: Option<string>)          // resena (nullable)

  /** `TipoNotificacion`. */
  datatype NotificationKind =
    | ExchangeRequest | ExchangeAccepted | ExchangeRejected | ExchangeCanceled
    | ExchangeCompleted | NewMessage

  /** `Notificacion`; the message text is not modelled. */
  datatype Notification = Notification(
    id: int,                         // id_notificacion
    recipient: UserId,               // id_usuario_receptor
    emitter: Option<UserId>,         // id_usuario_emisor (nullable)
    exchange: Option<ExchangeId>,    // id_intercambio (nullable)
    kind: NotificationKind,          // tipo
    read: bool,                      // leida, default false
    createdAt: Time)                 // fecha_creacion
}

=== FILE: failures.dfy ===
/** The exceptions the services throw. Each carries the HTTP exception class the service uses
    (`NotFoundException`, `BadRequestException`, ...) and a reason standing for its message. */
module Failures {

  datatype Reason =
    // exchanges
    | ExchangeNotFound | BookNotFound | OwnBook | NotReceiver | ExchangeNotOpen
    | BookAlreadyOffered | NotRequesterBook | ExchangeNotAccepted | OfferedBookMissing
    | NotParticipant | NoMeetingLocation | AlreadyConfirmed | CancelNotAllowed | AlreadyCompleted
    // chats
    | UsersNotFound | SelfChat | NoChatAccess | DeleteNotAllowed | NotTwoParticipants | NegativeLimit
    // ratings
    | NotBothConfirmed | RaterNotParticipant | RatedNotOtherParticipant | AlreadyRated
    | StarsOutOfRange
    // notifications
    | NotificationNotFound
    // accounts
    | MissingFields | EmailTaken | UsernameTaken | InvalidEmailFormat | PasswordTooShort
    | RegistrationFailed | MissingCredentials | InvalidCredentials | UserNotFound
    | RadiusOutOfRange
    // bearer-token guard
    | TokenMissing | TokenFormat | TokenInvalidOrExpired

  datatype Failure =
    | NotFound(reason: Reason)      // NotFoundException (404)
    | BadRequest(reason: Reason)    // BadRequestException (400)
    | Forbidden(reason: Reason)     // ForbiddenException (403)
    | Unauthorized(reason: Reason)  // UnauthorizedException (401)
    | Conflict(reason: Reason)      // ConflictException (409)
    | Error(reason: Reason)         // a plain `Error` (500)
}

=== FILE: guard.dfy ===
/** The bearer-token guard in front of the protected routes: it parses the `Authorization`
    header, decodes the token and loads the user it names. Decoding stands for the service's
    `verifyToken`, a partial function from token text to a user key. */
module Guard {
  import opened Wrappers
  import opened Failures
  import opened Entities
  import opened Store
  import opened Strings

  /** What the guard attaches to the request: the user's key, name and e-mail. */
  datatype RequestUser = RequestUser(id: UserId, username: string, email: string)

  /** The scheme word the header must start with. */
  const Scheme := "Bearer"

  /** The first two pieces of `header.split(' ')`; a missing second piece reads as the empty
      string, which is as falsy as the `undefined` the destructuring yields. */
  function SchemeAndToken(header: string): (r: (string, string))
    ensures ' ' !in r.0 && ' ' !in r.1
    ensures JoinWith(SplitOn(header, ' '), ' ') == header
    ensures r.0 == SplitOn(header, ' ')[0]
    ensures |SplitOn(header, ' ')| > 1 ==> r.1 == SplitOn(header, ' ')[1]
    ensures |SplitOn(header, ' ')| == 1 ==> r.1 == ""
  {
    JoinSplit(header, ' ');
    var parts := SplitOn(header, ' ');
    (parts[0], if |parts| > 1 then parts[1] else "")
  }

  /** `canActivate`. A missing or empty header, then a malformed one, are rejected with their
      own messages; every later failure (an undecodable token, an unknown user) is the one
      "invalid or expired token" rejection. */
  function CanActivate(db: Db, header: Option<string>, decode: string -> Option<UserId>): (r: Result<RequestUser, Failure>)
    ensures header.None? || header.value == "" ==> r == Err(Unauthorized(TokenMissing))
    ensures header.Some? && header.value != "" ==> var (scheme, token) := SchemeAndToken(header.value);
      && (scheme != Scheme || token == "" ==> r == Err(Unauthorized(TokenFormat)))
      && (scheme == Scheme && token != "" ==>
            (r.Err? <==> decode(token).None? || FindUser(db, decode(token).value).None?)
            && (r.Err? ==> r.error == Unauthorized(TokenInvalidOrExpired)))
    ensures r.Ok? ==> exists u :: u in db.users && r.value == RequestUser(u.id, u.username, u.email)
    ensures r.Ok? ==> header.Some? && var token := SchemeAndToken(header.value).1;
      && decode(token).Some? && FindUser(db, decode(token).value).Some?
      && var u := FindUser(db, decode(token).value).value;
         r.value == RequestUser(u.id, u.username, u.email)
  {
    if header.None? || header.value == "" then Err(Unauthorized(TokenMissing))
    else
      var (scheme, token) := SchemeAndToken(header.value);
      if scheme != Scheme || token == "" then Err(Unauthorized(TokenFormat))
      else match decode(token)
        case None => Err(Unauthorized(TokenInvalidOrExpired))
        case Some(id) =>
          match FindUser(db, id)
          case None => Err(Unauthorized(TokenInvalidOrExpired))
          case Some(u) => Ok(RequestUser(u.id, u.username, u.email))
  }

  /** `"Bearer " + token` splits into the scheme and the token when the token has no space. */
  lemma BearerHeaderParts(token: string)
    requires ' ' !in token
    ensures SchemeAndToken(Scheme + " " + token) == (Scheme, token)
  {
    var h := Scheme + " " + token;
    IndexOfChar(h, ' ');
    assert h[6] == ' ' && ' ' !in h[..6];
    assert IndexOf(h, [' ']) == Some(6);
    assert h[..6] == Scheme && h[7..] == token;
    IndexOfChar(token, ' ');
    assert SplitOn(token, ' ') == [token];
    assert SplitOn(h, ' ') == [Scheme] + SplitOn(token, ' ');
  }

  /** A well-formed header `Bearer <token>` admits exactly the users the token names, and the
      request then carries that user's key, name and e-mail. */
  lemma WellFormedHeaderAdmitsTokenUser(db: Db, token: string, decode: string -> Option<UserId>)
    requires token != "" && ' ' !in token
    ensures CanActivate(db, Some(Scheme + " " + token), decode).Ok?
            <==> decode(token).Some? && FindUser(db, decode(token).value).Some?
    ensures CanActivate(db, Some(Scheme + " " + token), decode).Ok? ==>
      var u := FindUser(db, decode(token).value).value;
      CanActivate(db, Some(Scheme + " " + token), decode).value == RequestUser(u.id, u.username, u.email)
  {
    BearerHeaderParts(token);
  }

  /** Splitting on single spaces makes the header strict: a second space before the token, or
      a scheme word spelt otherwise, is a format error whatever the token. */
  lemma StrictHeaderFormat(db: Db, token: string, decode: string -> Option<UserId>)
    requires ' ' !in token
    ensures CanActivate(db, Some(Scheme + "  " + token), decode) == Err(Unauthorized(TokenFormat))
    ensures CanActivate(db, Some("bearer " + token), decode) == Err(Unauthorized(TokenFormat))
  {
    DoubleSpaceScheme(token);
    LowercaseScheme(token);
  }

  /** `Bearer  <token>` splits into the scheme and an empty second piece. */
  lemma DoubleSpaceScheme(token: string)
    ensures SchemeAndToken(Scheme + "  " + token) == (Scheme, "")
  {
    var h, rest := Scheme + "  " + token, " " + token;
    assert h == "Bearer " + rest;
    assert |"Bearer "| == 7;
    assert h[..6] == Scheme && h[7..] == rest;
    IndexOfChar(h, ' ');
    assert h[6] == ' ' && ' ' !in h[..6];
    assert IndexOf(h, [' ']) == Some(6);
    assert SplitOn(h, ' ') == [h[..6]] + SplitOn(rest, ' ');
    IndexOfChar(rest, ' ');
    assert rest[0] == ' ' && ' ' !in rest[..0];
    assert IndexOf(rest, [' ']) == Some(0);
    assert SplitOn(rest, ' ') == [rest[..0]] + SplitOn(rest[1..], ' ');
  }

  /** `bearer <token>` has the scheme word in lower case. */
  lemma LowercaseScheme(token: string)
    ensures SchemeAndToken("bearer " + token).0 == "bearer"
  {
    var g := "bearer " + token;
    IndexOfChar(g, ' ');
    assert g[6] == ' ' && ' ' !in g[..6];
    assert SplitOn(g, ' ')[0] == g[..6] == "bearer";
  }
}

=== FILE: images.dfy ===
/** The object-storage helpers of the image service: the object key of an upload, the public
    URL handed back to the client, and the key read back out of such a URL. The upload itself
    is a call into the storage client and is not modelled; the configuration values are
    parameters (`None` for an unset variable). */
module Images {
  import opened Wrappers
  import opened Strings
  import Js

  /** The bucket used when `AWS_S3_BUCKET_NAME` is unset or empty. */
  const DefaultBucket := "emaprobookify"

  /** The region the storage client uses when `AWS_REGION` is unset or empty. */
  const DefaultRegion := "us-east-2"

  /** The text between the host's region and the object key. */
  const Marker := ".amazonaws.com/"

  /** `s` with its leading whitespace run removed. */
  function DropSpaces(s: string): (r: string)
    ensures |r| <= |s| && r == s[|s| - |r|..]
    ensures forall k :: 0 <= k < |s| - |r| ==> IsSpace(s[k])
    ensures |r| > 0 ==> !IsSpace(r[0])
    decreases |s|
  {
    if |s| > 0 && IsSpace(s[0]) then DropSpaces(s[1..]) else s
  }

  /** `name.replace(/\s+/g, '-')`: every maximal run of whitespace becomes one `-`. */
  function Sanitize(s: string): (r: string)
    ensures NoSpace(r)
    ensures |r| <= |s|
    ensures NoSpace(s) ==> r == s
    decreases |s|
  {
    if |s| == 0 then ""
    else if IsSpace(s[0]) then "-" + Sanitize(DropSpaces(s))
    else [s[0]] + Sanitize(s[1..])
  }

  /** A string made of whitespace only, and at least one character of it. */
  predicate SpaceRun(w: string) {
    |w| > 0 && forall k :: 0 <= k < |w| ==> IsSpace(w[k])
  }

  /** The replacement is compositional: a whitespace run between a part that does not end in
      whitespace and a part that does not start with it becomes exactly one `-`. */
  lemma {:induction false} SanitizeRun(a: string, w: string, b: string)
    requires SpaceRun(w)
    requires |a| > 0 ==> !IsSpace(a[|a| - 1])
    requires |b| > 0 ==> !IsSpace(b[0])
    ensures Sanitize(a + w + b) == Sanitize(a) + "-" + Sanitize(b)
    decreases |a|
  {
    if |a| == 0 {
      assert a + w + b == w + b;
      assert Sanitize(a) + "-" + Sanitize(b) == "-" + Sanitize(b);
      LeadingRun(w, b);
    } else if IsSpace(a[0]) {
      SpaceHeadRun(a, w, b);
    } else {
      LetterHeadRun(a, w, b);
    }
  }

  /** `SanitizeRun` when the first part is empty. */
  lemma LeadingRun(w: string, b: string)
    requires SpaceRun(w)
    requires |b| > 0 ==> !IsSpace(b[0])
    ensures Sanitize(w + b) == "-" + Sanitize(b)
  {
    DropRun(w, b);
    SanitizeSpace(w + b);
  }

  /** `SanitizeRun` when the first part starts with whitespace. */
  lemma {:induction false} SpaceHeadRun(a: string, w: string, b: string)
    requires SpaceRun(w)
    requires |a| > 0 && IsSpace(a[0]) && !IsSpace(a[|a| - 1])
    requires |b| > 0 ==> !IsSpace(b[0])
    ensures Sanitize(a + w + b) == Sanitize(a) + "-" + Sanitize(b)
    decreases |a|, 0
  {
    var d := DropSpaces(a);
    var s, t := a + w + b, w + b;
    Strings.Assoc(a, w, b);
    DropAppend(a, t);
    assert DropSpaces(s) == d + t;
    Strings.Assoc(d, w, b);
    SanitizeSpace(s);
    SanitizeSpace(a);
    assert |d| > 0 && d[|d| - 1] == a[|a| - 1];
    SanitizeRun(d, w, b);
    var x, y := Sanitize(d), Sanitize(b);
    assert Sanitize(s) == "-" + (x + "-" + y);
    assert Sanitize(a) == "-" + x;
    Strings.Assoc("-", x + "-", y);
    Strings.Assoc("-", x, "-");
  }

  /** `SanitizeRun` when the first part starts with a non-space. */
  lemma {:induction false} LetterHeadRun(a: string, w: string, b: string)
    requires SpaceRun(w)
    requires |a| > 0 && !IsSpace(a[0]) && !IsSpace(a[|a| - 1])
    requires |b| > 0 ==> !IsSpace(b[0])
    ensures Sanitize(a + w + b) == Sanitize(a) + "-" + Sanitize(b)
    decreases |a|, 0
  {
    var s, tail := a + w + b, a[1..];
    Strings.Assoc(a, w, b);
    assert a == [a[0]] + tail;
    assert s == [a[0]] + (tail + w + b) by {
      Strings.Assoc([a[0]], tail, w + b);
      Strings.Assoc(tail, w, b);
    }
    SanitizeLetter(s);
    SanitizeLetter(a);
    assert s[1..] == tail + w + b;
    if |tail| > 0 {
      assert tail[|tail| - 1] == a[|a| - 1];
    }
    SanitizeRun(tail, w, b);
    var x, y := Sanitize(tail), Sanitize(b);
    assert Sanitize(s) == [a[0]] + (x + "-" + y);
    assert Sanitize(a) == [a[0]] + x;
    Strings.Assoc([a[0]], x + "-", y);
    Strings.Assoc([a[0]], x, "-");
  }

  /** One unfolding of `Sanitize` at a leading whitespace character. */
  lemma SanitizeSpace(s: string)
    requires |s| > 0 && IsSpace(s[0])
    ensures Sanitize(s) == "-" + Sanitize(DropSpaces(s))
  {
  }

  /** One unfolding of `Sanitize` at a leading non-space character. */
  lemma SanitizeLetter(s: string)
    requires |s| > 0 && !IsSpace(s[0])
    ensures Sanitize(s) == [s[0]] + Sanitize(s[1..])
  {
  }

  /** Dropping the leading whitespace of a part that ends in a non-space does not reach past it. */
  lemma {:induction false} DropAppend(a: string, t: string)
    requires |a| > 0 && !IsSpace(a[|a| - 1])
    ensures DropSpaces(a + t) == DropSpaces(a) + t
    decreases |a|
  {
    if IsSpace(a[0]) {
      assert |a| > 1;
      assert (a + t)[1..] == a[1..] + t;
      assert a[1..][|a[1..]| - 1] == a[|a| - 1];
      DropAppend(a[1..], t);
    }
  }

  /** Dropping a whitespace run that stops at a non-space leaves the rest. */
  lemma {:induction false} DropRun(w: string, b: string)
    requires SpaceRun(w)
    requires |b| > 0 ==> !IsSpace(b[0])
    ensures DropSpaces(w + b) == b
    decreases |w|
  {
    assert (w + b)[1..] == w[1..] + b;
    if |w| > 1 {
      DropRun(w[1..], b);
    } else {
      assert w[1..] + b == b;
    }
  }

  /** Sanitising twice is sanitising once. */
  lemma SanitizeIdempotent(s: string)
    ensures Sanitize(Sanitize(s)) == Sanitize(s)
  {
  }

  /** The key of a book picture: `books/<milliseconds>-<sanitised name>`. */
  function BookKey(now: nat, name: string): (k: string)
    ensures NoSpace(k)
    ensures |k| > 6 && k[..6] == "books/"
  {
    FolderKey("books/", now, name)
  }

  /** The key of a profile picture: `profiles/<milliseconds>-<sanitised name>`. */
  function ProfileKey(now: nat, name: string): (k: string)
    ensures NoSpace(k)
    ensures |k| > 9 && k[..9] == "profiles/"
  {
    FolderKey("profiles/", now, name)
  }

  /** `<folder><milliseconds>-<sanitised name>`. */
  function FolderKey(folder: string, now: nat, name: string): (k: string)
    requires NoSpace(folder)
    ensures NoSpace(k)
    ensures |k| > |folder| && k[..|folder|] == folder
  {
    var d := NatToString(now);
    assert NoSpace(d) by {
      forall i | 0 <= i < |d| ensures !IsSpace(d[i]) {
        assert IsDigit(d[i]);
      }
    }
    assert NoSpace("-") by {
      assert "-"[0] == '-';
    }
    NoSpaceConcat(folder, d);
    NoSpaceConcat(folder + d, "-");
    NoSpaceConcat(folder + d + "-", Sanitize(name));
    var k := folder + d + "-" + Sanitize(name);
    assert k[..|folder|] == folder;
    k
  }

  /** Two uploads into the same folder at different milliseconds never share a key, and one
      key determines the sanitised name. */
  lemma FolderKeyInjective(folder: string, n1: nat, a: string, n2: nat, b: string)
    requires NoSpace(folder)
    requires FolderKey(folder, n1, a) == FolderKey(folder, n2, b)
    ensures n1 == n2 && Sanitize(a) == Sanitize(b)
  {
    var d1, d2 := NatToString(n1), NatToString(n2);
    var t1, t2 := d1 + "-" + Sanitize(a), d2 + "-" + Sanitize(b);
    KeyRegroup(folder, d1, Sanitize(a));
    KeyRegroup(folder, d2, Sanitize(b));
    assert t1 == (folder + t1)[|folder|..];
    assert t2 == (folder + t2)[|folder|..];
    DigitsDashSplit(d1, Sanitize(a), d2, Sanitize(b));
    NatToStringRoundTrip(n1);
    NatToStringRoundTrip(n2);
  }

  /** The key as its folder followed by the rest. */
  lemma KeyRegroup(folder: string, d: string, rest: string)
    ensures folder + d + "-" + rest == folder + (d + "-" + rest)
  {
  }

  /** `<digits>-<rest>` determines the digits and the rest. */
  lemma DigitsDashSplit(d1: string, r1: string, d2: string, r2: string)
    requires forall i :: 0 <= i < |d1| ==> IsDigit(d1[i])
    requires forall i :: 0 <= i < |d2| ==> IsDigit(d2[i])
    requires d1 + "-" + r1 == d2 + "-" + r2
    ensures d1 == d2 && r1 == r2
  {
    var t := d1 + "-" + r1;
    DashAfterDigits(d1, r1);
    DashAfterDigits(d2, r2);
    assert |d1| == |d2|;
    assert d1 == t[..|d1|] && d2 == t[..|d2|];
    assert r1 == t[|d1| + 1..] && r2 == t[|d2| + 1..];
  }

  /** In `<digits>-<rest>` the first `-` is the one after the digits. */
  lemma DashAfterDigits(d: string, rest: string)
    requires forall i :: 0 <= i < |d| ==> IsDigit(d[i])
    ensures IndexOf(d + "-" + rest, "-") == Some(|d|)
  {
    var t := d + "-" + rest;
    assert t[|d|] == '-' && t[..|d|] == d;
    assert '-' !in d;
    IndexOfChar(t, '-');
  }

  /** The bucket the service writes to: the configured one, or the default. */
  function BucketName(env: Option<string>): (b: string)
    ensures Js.TruthyStr(env) ==> b == env.value
    ensures !Js.TruthyStr(env) ==> b == DefaultBucket
    ensures |b| > 0
  {
    if Js.TruthyStr(env) then env.value else DefaultBucket
  }

  /** The region the storage client is built with: the configured one, or the default. */
  function ClientRegion(env: Option<string>): (r: string)
    ensures Js.TruthyStr(env) ==> r == env.value
    ensures !Js.TruthyStr(env) ==> r == DefaultRegion
    ensures |r| > 0
  {
    if Js.TruthyStr(env) then env.value else DefaultRegion
  }

  /** A configuration value printed into a template string: an unset one prints `undefined`. */
  function Interpolated(env: Option<string>): string {
    match env
    case None => "undefined"
    case Some(v) => v
  }

  /** The host part of a public URL, up to the region. */
  function Host(bucket: string, region: string): string {
    "https://" + bucket + ".s3." + region
  }

  /** `https://<bucket>.s3.<region>.amazonaws.com/<key>`. */
  function UrlFor(bucket: string, region: string, key: string): string {
    Host(bucket, region) + Marker + key
  }

  /** The URL the upload methods return, as written: the region is the raw configuration value,
      not the client's region. */
  function PublicUrlAsWritten(bucketEnv: Option<string>, regionEnv: Option<string>, key: string): (u: string)
    ensures Js.TruthyStr(regionEnv) ==> u == UrlFor(BucketName(bucketEnv), regionEnv.value, key)
    ensures regionEnv.None? ==> u == UrlFor(BucketName(bucketEnv), "undefined", key)
    ensures regionEnv == Some("") ==> u == UrlFor(BucketName(bucketEnv), "", key)
  {
    UrlFor(BucketName(bucketEnv), Interpolated(regionEnv), key)
  }

  /** The URL of the object as uploaded: the client's bucket and region. It agrees with the URL
      the service returns whenever a region is configured, and names the default region's host
      when none is. */
  function PublicUrl(bucketEnv: Option<string>, regionEnv: Option<string>, key: string): (u: string)
    ensures Js.TruthyStr(regionEnv) ==> u == PublicUrlAsWritten(bucketEnv, regionEnv, key)
    ensures !Js.TruthyStr(regionEnv) ==> u == UrlFor(BucketName(bucketEnv), DefaultRegion, key)
  {
    UrlFor(BucketName(bucketEnv), ClientRegion(regionEnv), key)
  }

  /** With `AWS_REGION` unset the returned URL names the host `<bucket>.s3.undefined`, not the
      `us-east-2` host the object went to; with a region configured both agree. */
  lemma UnsetRegionNamesUndefinedHost(bucketEnv: Option<string>, regionEnv: Option<string>, key: string)
    ensures PublicUrlAsWritten(bucketEnv, None, key) != PublicUrl(bucketEnv, None, key)
    ensures Js.TruthyStr(regionEnv) ==> PublicUrlAsWritten(bucketEnv, regionEnv, key) == PublicUrl(bucketEnv, regionEnv, key)
  {
    var b := BucketName(bucketEnv);
    var p := |"https://" + b + ".s3."|;
    assert PublicUrlAsWritten(bucketEnv, None, key)[p + 1] == 'n';
    assert PublicUrl(bucketEnv, None, key)[p + 1] == 's';
  }

  /** `extractKeyFromUrl`: `url.split(Marker)[1]` when the marker occurs, the URL itself
      otherwise. The piece is the text after the first marker, up to the next one. */
  function ExtractKey(url: string): (r: string)
    ensures !Contains(url, Marker) ==> r == url
    ensures Contains(url, Marker) ==> !Contains(r, Marker)
    ensures Contains(url, Marker) ==>
      var rest := url[IndexOf(url, Marker).value + |Marker|..];
      r <= rest && (|r| < |rest| ==> OccursAt(rest, Marker, |r|))
  {
    match IndexOf(url, Marker)
    case None => url
    case Some(i) =>
      var rest := url[i + |Marker|..];
      match IndexOf(rest, Marker)
      case None => rest
      case Some(j) =>
        assert !Contains(rest[..j], Marker) by {
          forall k: nat | k <= j ensures !OccursAt(rest[..j], Marker, k) {
            if k + |Marker| <= j {
              assert rest[..j][k..k + |Marker|] == rest[k..k + |Marker|];
              assert !OccursAt(rest, Marker, k);
            }
          }
        }
        rest[..j]
  }

  /** After the scheme, the host has no `/` when neither the bucket nor the region has one. */
  lemma HostSlashes(bucket: string, region: string)
    requires '/' !in bucket && '/' !in region
    ensures forall q :: 8 <= q < |Host(bucket, region)| ==> Host(bucket, region)[q] != '/'
  {
    var h := Host(bucket, region);
    forall q | 8 <= q < |h| ensures h[q] != '/' {
      if q < 8 + |bucket| {
        assert h[q] == bucket[q - 8];
      } else if q < 12 + |bucket| {
        assert h[q] == ".s3."[q - 8 - |bucket|];
      } else {
        assert h[q] == region[q - 12 - |bucket|];
      }
    }
  }

  /** In a generated URL the first marker is the one after the host. */
  lemma FirstMarker(bucket: string, region: string, key: string)
    requires '/' !in bucket && '/' !in region
    ensures IndexOf(UrlFor(bucket, region, key), Marker) == Some(|Host(bucket, region)|)
  {
    var h := Host(bucket, region);
    var url := UrlFor(bucket, region, key);
    assert url[|h|..|h| + |Marker|] == Marker;
    assert OccursAt(url, Marker, |h|);
    HostSlashes(bucket, region);
    forall j: nat | j < |h| ensures !OccursAt(url, Marker, j) {
      var q := j + |Marker| - 1;
      if q < |h| {
        assert url[q] == h[q];
      } else {
        assert url[q] == Marker[q - |h|];
      }
      assert url[j..j + |Marker|][|Marker| - 1] == url[q];
    }
  }

  /** Reading the key back out of a generated URL gives the key, when neither the bucket nor
      the region holds a `/` and the key does not itself hold the marker. */
  lemma {:induction false} ExtractKeyRoundTrip(bucket: string, region: string, key: string)
    requires '/' !in bucket && '/' !in region
    requires !Contains(key, Marker)
    ensures ExtractKey(UrlFor(bucket, region, key)) == key
  {
    var url := UrlFor(bucket, region, key);
    FirstMarker(bucket, region, key);
    assert url[|Host(bucket, region)| + |Marker|..] == key;
  }

  /** The round trip for the URLs the upload methods return, and for the corrected URLs, for
      every key without the marker, whatever the region setting (one without a `/`). */
  lemma PublicUrlRoundTrip(bucketEnv: Option<string>, regionEnv: Option<string>, key: string)
    requires '/' !in BucketName(bucketEnv) && (regionEnv.Some? ==> '/' !in regionEnv.value)
    requires !Contains(key, Marker)
    ensures ExtractKey(PublicUrlAsWritten(bucketEnv, regionEnv, key)) == key
    ensures ExtractKey(PublicUrl(bucketEnv, regionEnv, key)) == key
  {
    assert '/' !in Interpolated(regionEnv) && '/' !in ClientRegion(regionEnv);
    ExtractKeyRoundTrip(BucketName(bucketEnv), Interpolated(regionEnv), key);
    ExtractKeyRoundTrip(BucketName(bucketEnv), ClientRegion(regionEnv), key);
  }

  /** With the correction, leaving `AWS_REGION` unset gives the URL of the region the client
      falls back to: the same URL as configuring that region explicitly. */
  lemma PublicUrlUnsetIsDefault(bucketEnv: Option<string>, key: string)
    ensures PublicUrl(bucketEnv, None, key) == PublicUrl(bucketEnv, Some(DefaultRegion), key)
    ensures PublicUrl(bucketEnv, None, key) == PublicUrlAsWritten(bucketEnv, Some(DefaultRegion), key)
    ensures PublicUrl(bucketEnv, Some(""), key) == PublicUrl(bucketEnv, None, key)
  {
  }

  /** A sanitised picture key never holds the marker's `/` after its folder, so every picture
      URL the upload returns, and its corrected form, gives its key back. */
  lemma BookKeyRoundTrip(bucketEnv: Option<string>, regionEnv: Option<string>, now: nat, name: string)
    requires '/' !in BucketName(bucketEnv) && (regionEnv.Some? ==> '/' !in regionEnv.value)
    requires '/' !in name
    ensures ExtractKey(PublicUrlAsWritten(bucketEnv, regionEnv, BookKey(now, name))) == BookKey(now, name)
    ensures ExtractKey(PublicUrl(bucketEnv, regionEnv, BookKey(now, name))) == BookKey(now, name)
  {
    var key := BookKey(now, name);
    assert !Contains(key, Marker) by {
      KeyTailSlashFree(now, name);
      forall k: nat | k <= |key| ensures !OccursAt(key, Marker, k) {
        if k + |Marker| <= |key| {
          var q := k + |Marker| - 1;
          assert key[k..k + |Marker|][|Marker| - 1] == key[q];
          assert key[q] == key[6..][q - 6];
        }
      }
    }
    PublicUrlRoundTrip(bucketEnv, regionEnv, key);
  }

  /** After its folder, a picture key holds no `/` when the file name holds none. */
  lemma KeyTailSlashFree(now: nat, name: string)
    requires '/' !in name
    ensures '/' !in BookKey(now, name)[6..]
  {
    var d := NatToString(now);
    var tail := d + "-" + Sanitize(name);
    SanitizeKeepsSlashFree(name);
    KeyRegroup("books/", d, Sanitize(name));
    assert BookKey(now, name) == "books/" + tail;
    assert BookKey(now, name)[6..] == tail;
    assert '/' !in d by {
      forall i | 0 <= i < |d| ensures d[i] != '/' {
        assert IsDigit(d[i]);
      }
    }
  }

  /** Sanitising only writes `-`, so it adds no `/`. */
  lemma {:induction false} SanitizeKeepsSlashFree(s: string)
    requires '/' !in s
    ensures '/' !in Sanitize(s)
    decreases |s|
  {
    if |s| > 0 {
      if IsSpace(s[0]) {
        var d := DropSpaces(s);
        assert '/' !in d;
        SanitizeKeepsSlashFree(d);
      } else {
        assert '/' !in s[1..];
        SanitizeKeepsSlashFree(s[1..]);
      }
    }
  }
}

=== FILE: intercambio.dfy ===
/** The exchange service: the negotiation of one book exchange between the requester and the
    owner of the requested book (the receiver). Each operation loads the exchange row, runs its
    guards in the order the service runs them, rewrites the row and files an inbox notification
    for the other party. */
module Exchanges {
  import opened Wrappers
  import opened Failures
  import opened Entities
  import opened Store
  import Js
  import Seqs
  import Chats

  /** `CreateExchangeDto`; the receiver is never taken from the request. */
  datatype CreateRequestDto = CreateRequestDto(requestedBook: BookId, offeredBook: Option<BookId>, requester: UserId)

  /** The user is the requester or the receiver of `e`. */
  predicate IsParticipant(e: Exchange, user: UserId) {
    e.requester == user || e.receiver == user
  }

  /** The participant of `e` who is not `user` (the requester when `user` is neither): always a
      participant, and, in an exchange between two users, never `user` itself when `user` is one
      of them. */
  function OtherParticipant(e: Exchange, user: UserId): (other: UserId)
    ensures IsParticipant(e, other)
    ensures IsParticipant(e, user) && e.requester != e.receiver ==> other != user
  {
    if user == e.requester then e.receiver else e.requester
  }

  /** Every exchange key is below the key generator. */
  ghost predicate ExchangeKeysIssued(db: Db) {
    forall k :: 0 <= k < |db.exchanges| ==> db.exchanges[k].id < db.nextId
  }

  /** `createExchangeRequest`: the requested book must exist and must not be the requester's
      own. The new row is pending, addressed to the book's current owner, and carries the
      offered book only when the request named a truthy one; the owner gets a request
      notification. Availability of the book and ownership of the offered book are not checked. */
  function CreateRequest(db: Db, dto: CreateRequestDto, now: Time): (r: Result<(Db, Exchange), Failure>)
    ensures FindBook(db, dto.requestedBook).None? ==> r == Err(NotFound(BookNotFound))
    ensures FindBook(db, dto.requestedBook).Some? && FindBook(db, dto.requestedBook).value.owner == dto.requester
            ==> r == Err(BadRequest(OwnBook))
    ensures r.Ok? <==> FindBook(db, dto.requestedBook).Some? && FindBook(db, dto.requestedBook).value.owner != dto.requester
    ensures r.Ok? ==> var (db', e) := r.value; var owner := FindBook(db, dto.requestedBook).value.owner;
      && e.id == db.nextId && e.requestedBook == dto.requestedBook && e.requester == dto.requester
      && e.receiver == owner && e.requester != e.receiver
      && e.offeredBook == Js.OrNull(dto.offeredBook)
      && e.state == Pending && e.proposedAt == now && e.agreedAt.None? && e.meetingPoint.None?
      && !e.confirmedByRequester && !e.confirmedByReceiver && e.location == NoLocation
      && db'.exchanges == db.exchanges + [e]
      && db'.notifications == db.notifications
           + [Notification(db.nextId + 1, owner, Some(dto.requester), Some(e.id), ExchangeRequest, false, now)]
      && SameExceptInbox(db', db.(exchanges := db'.exchanges))
      && db'.nextId > e.id
  {
    match FindBook(db, dto.requestedBook)
    case None => Err(NotFound(BookNotFound))
    case Some(book) =>
      if book.owner == dto.requester then Err(BadRequest(OwnBook))
      else
        var e := NewExchange(db.nextId, dto.requestedBook, Js.OrNull(dto.offeredBook), dto.requester, book.owner, now);
        var db1 := db.(exchanges := db.exchanges + [e], nextId := db.nextId + 1);
        Ok((AddNotification(db1, book.owner, Some(dto.requester), Some(e.id), ExchangeRequest, now), e))
  }

  /** `checkPendingExchange`: a pending request of `user` to `owner` for `book` exists. */
  function CheckPending(db: Db, book: BookId, user: UserId, owner: UserId): (r: bool)
    ensures r <==> exists e :: e in db.exchanges && e.requestedBook == book && e.requester == user
                              && e.receiver == owner && e.state == Pending
  {
    Seqs.First(db.exchanges, (e: Exchange) =>
      e.requestedBook == book && e.requester == user && e.receiver == owner && e.state == Pending).Some?
  }

  /** `getReceivedExchanges`: the exchanges the user receives, newest proposal first. */
  function Received(db: Db, user: UserId): (r: seq<Exchange>)
    ensures forall e :: e in r <==> e in db.exchanges && e.receiver == user
    ensures multiset(r) == multiset(Seqs.Filter(db.exchanges, (e: Exchange) => e.receiver == user))
    ensures forall i, j :: 0 <= i < j < |r| ==> r[i].proposedAt >= r[j].proposedAt
  {
    NewestFirst(Seqs.Filter(db.exchanges, (e: Exchange) => e.receiver == user))
  }

  /** `getSentExchanges`: the exchanges the user requested, newest proposal first. */
  function Sent(db: Db, user: UserId): (r: seq<Exchange>)
    ensures forall e :: e in r <==> e in db.exchanges && e.requester == user
    ensures multiset(r) == multiset(Seqs.Filter(db.exchanges, (e: Exchange) => e.requester == user))
    ensures forall i, j :: 0 <= i < j < |r| ==> r[i].proposedAt >= r[j].proposedAt
  {
    NewestFirst(Seqs.Filter(db.exchanges, (e: Exchange) => e.requester == user))
  }

  /** Writes `e` back over the row at index `i`. */
  function Save(db: Db, i: nat, e: Exchange): (db': Db)
    requires i < |db.exchanges|
    ensures |db'.exchanges| == |db.exchanges| && db'.exchanges[i] == e
    ensures forall k :: 0 <= k < |db.exchanges| && k != i ==> db'.exchanges[k] == db.exchanges[k]
    ensures SameExceptInbox(db', db.(exchanges := db'.exchanges)) && db'.notifications == db.notifications
    ensures db'.nextId == db.nextId
  {
    db.(exchanges := db.exchanges[i := e])
  }

  /** Writing a row back under its own key leaves `findOne` by that key on the same index. */
  lemma SaveKeepsIndex(db: Db, i: nat, e: Exchange)
    requires ExchangeIndex(db, e.id) == Some(i)
    ensures ExchangeIndex(Save(db, i, e), e.id) == Some(i)
  {
    var db' := Save(db, i, e);
    assert forall j :: 0 <= j < i ==> db'.exchanges[j] == db.exchanges[j];
  }

  /** A created request is found under its key, and is listed as pending for its triple, among
      the owner's received exchanges and among the requester's sent ones. */
  lemma {:induction false} CreatedRequestIsFound(db: Db, dto: CreateRequestDto, now: Time)
    requires ExchangeKeysIssued(db)
    requires CreateRequest(db, dto, now).Ok?
    ensures var (db', e) := CreateRequest(db, dto, now).value;
      && ExchangeIndex(db', e.id) == Some(|db.exchanges|)
      && FindExchange(db', e.id) == Some(e)
      && CheckPending(db', dto.requestedBook, dto.requester, e.receiver)
      && e in Received(db', e.receiver) && e in Sent(db', dto.requester)
      && ExchangeKeysIssued(db')
  {
    var r := CreateRequest(db, dto, now).value;
    AppendedExchangeIsFound(db, r.0, r.1);
  }

  /** A row appended under a fresh key is found under that key at the end of the table. */
  lemma AppendedExchangeIsFound(db: Db, db': Db, e: Exchange)
    requires ExchangeKeysIssued(db)
    requires db'.exchanges == db.exchanges + [e] && e.id >= db.nextId && db'.nextId > e.id
    ensures ExchangeIndex(db', e.id) == Some(|db.exchanges|)
    ensures FindExchange(db', e.id) == Some(e)
    ensures e in db'.exchanges
    ensures ExchangeKeysIssued(db')
  {
    var n := |db.exchanges|;
    assert db'.exchanges[n] == e;
    assert forall j :: 0 <= j < n ==> db'.exchanges[j] == db.exchanges[j];
  }

  /** The result of `updateExchangeStatus`: the store, the updated row, and the chat id the
      response carries. */
  datatype StatusUpdate = StatusUpdate(db: Db, exchange: Exchange, chat: Option<ChatId>)

  /** The row `updateExchangeStatus` writes: the requested state, and on acceptance the
      agreement date and, when a truthy one is given, the meeting point. */
  function ApplyStatus(e: Exchange, state: ProposalState, meetingPoint: Option<int>, now: Time): (e': Exchange)
    ensures e'.state == state
    ensures state == Accepted ==> e'.agreedAt == Some(now)
    ensures state == Accepted && Js.TruthyOpt(meetingPoint) ==> e'.meetingPoint == meetingPoint
    ensures state != Accepted || !Js.TruthyOpt(meetingPoint) ==> e'.meetingPoint == e.meetingPoint
    ensures state != Accepted ==> e'.agreedAt == e.agreedAt
    ensures e'.id == e.id && e'.requester == e.requester && e'.receiver == e.receiver
    ensures e'.requestedBook == e.requestedBook && e'.offeredBook == e.offeredBook
    ensures e'.proposedAt == e.proposedAt && e'.location == e.location
    ensures e'.confirmedByRequester == e.confirmedByRequester && e'.confirmedByReceiver == e.confirmedByReceiver
  {
    if state != Accepted then e.(state := state)
    else if Js.TruthyOpt(meetingPoint) then e.(state := state, agreedAt := Some(now), meetingPoint := meetingPoint)
    else e.(state := state, agreedAt := Some(now))
  }

  /** `updateExchangeStatus`: only the receiver may change the state, and the state becomes
      whatever is asked, from any state. The requester is notified (accepted, or rejected for
      every other state); on acceptance the pair's chat is created or found, and a failure there
      is swallowed. */
  function UpdateStatus(db: Db, id: ExchangeId, user: UserId, state: ProposalState,
                        meetingPoint: Option<int>, now: Time): (r: Result<StatusUpdate, Failure>)
    ensures FindExchange(db, id).None? ==> r == Err(NotFound(ExchangeNotFound))
    ensures FindExchange(db, id).Some? && FindExchange(db, id).value.receiver != user ==> r == Err(BadRequest(NotReceiver))
    ensures r.Ok? <==> FindExchange(db, id).Some? && FindExchange(db, id).value.receiver == user
    ensures r.Ok? ==> var i := ExchangeIndex(db, id).value; var e := db.exchanges[i]; var u := r.value;
      && u.exchange == ApplyStatus(e, state, meetingPoint, now)
      && |u.db.exchanges| == |db.exchanges| && u.db.exchanges[i] == u.exchange
      && (forall k :: 0 <= k < |db.exchanges| && k != i ==> u.db.exchanges[k] == db.exchanges[k])
      && |u.db.notifications| == |db.notifications| + 1
      && u.db.notifications[..|db.notifications|] == db.notifications
      && u.db.notifications[|db.notifications|]
         == Notification(db.nextId, e.requester, Some(user), Some(id),
                         if state == Accepted then ExchangeAccepted else ExchangeRejected, false, now)
      && u.db.users == db.users && u.db.books == db.books && u.db.messages == db.messages
      && u.db.ratings == db.ratings
      && (state != Accepted ==> u.chat.None? && u.db.chats == db.chats && u.db.members == db.members)
      && (u.chat.Some? ==> Chats.IsMember(u.db, u.chat.value, e.requester) && Chats.IsMember(u.db, u.chat.value, e.receiver))
      && (state == Accepted && FindUser(db, e.requester).Some? && FindUser(db, e.receiver).Some? && e.requester != e.receiver
          ==> Chats.FindExistingChat(u.db, e.requester, e.receiver).Some?)
      && (state == Accepted && (FindUser(db, e.requester).None? || FindUser(db, e.receiver).None? || e.requester == e.receiver)
          ==> u.chat.None? && u.db.chats == db.chats && u.db.members == db.members)
  {
    match ExchangeIndex(db, id)
    case None => Err(NotFound(ExchangeNotFound))
    case Some(i) =>
      var e := db.exchanges[i];
      if e.receiver != user then Err(BadRequest(NotReceiver))
      else
        var e' := ApplyStatus(e, state, meetingPoint, now);
        var kind := if state == Accepted then ExchangeAccepted else ExchangeRejected;
        var db1 := AddNotification(Save(db, i, e'), e.requester, Some(user), Some(id), kind, now);
        if state != Accepted then Ok(StatusUpdate(db1, e', None))
        else
          match Chats.CreateChat(db1, e.requester, e.receiver, Some(id))
          case Err(_) => Ok(StatusUpdate(db1, e', None))
          case Ok(c) => Ok(StatusUpdate(c.db, e', if Js.Truthy(c.chat) then Some(c.chat) else None))
  }

  /** `offerBook`: the exchange must be pending or accepted and have no truthy offered book;
      the book must exist and belong to the requester. Only the offered book changes, and the
      requester is notified on the receiver's behalf. No caller identity is checked. */
  function OfferBook(db: Db, id: ExchangeId, book: BookId, now: Time): (r: Result<(Db, Exchange), Failure>)
    ensures FindExchange(db, id).None? ==> r == Err(NotFound(ExchangeNotFound))
    ensures FindExchange(db, id).Some? ==> var e := FindExchange(db, id).value;
      && (e.state != Pending && e.state != Accepted ==> r == Err(BadRequest(ExchangeNotOpen)))
      && ((e.state == Pending || e.state == Accepted) && Js.TruthyOpt(e.offeredBook) ==> r == Err(BadRequest(BookAlreadyOffered)))
      && ((e.state == Pending || e.state == Accepted) && !Js.TruthyOpt(e.offeredBook) && FindBook(db, book).None?
          ==> r == Err(NotFound(BookNotFound)))
      && (((e.state == Pending || e.state == Accepted) && !Js.TruthyOpt(e.offeredBook) && FindBook(db, book).Some?
           && FindBook(db, book).value.owner != e.requester) ==> r == Err(BadRequest(NotRequesterBook)))
      && (r.Ok? <==> (e.state == Pending || e.state == Accepted) && !Js.TruthyOpt(e.offeredBook)
                     && FindBook(db, book).Some? && FindBook(db, book).value.owner == e.requester)
    ensures r.Ok? ==> var i := ExchangeIndex(db, id).value; var e := db.exchanges[i]; var (db', e') := r.value;
      && e' == e.(offeredBook := Some(book))
      && |db'.exchanges| == |db.exchanges| && db'.exchanges[i] == e'
      && (forall k :: 0 <= k < |db.exchanges| && k != i ==> db'.exchanges[k] == db.exchanges[k])
      && db'.notifications == db.notifications
           + [Notification(db.nextId, e.requester, Some(e.receiver), Some(id), ExchangeRequest, false, now)]
      && SameExceptInbox(db', db.(exchanges := db'.exchanges))
  {
    match ExchangeIndex(db, id)
    case None => Err(NotFound(ExchangeNotFound))
    case Some(i) =>
      var e := db.exchanges[i];
      if e.state != Pending && e.state != Accepted then Err(BadRequest(ExchangeNotOpen))
      else if Js.TruthyOpt(e.offeredBook) then Err(BadRequest(BookAlreadyOffered))
      else
        match FindBook(db, book)
        case None => Err(NotFound(BookNotFound))
        case Some(b) =>
          if b.owner != e.requester then Err(BadRequest(NotRequesterBook))
          else
            var e' := e.(offeredBook := Some(book));
            Ok((AddNotification(Save(db, i, e'), e.requester, Some(e.receiver), Some(id), ExchangeRequest, now), e'))
  }

  /** `proposeMeetingLocation`: the exchange must be accepted and have a truthy offered book.
      All five location columns are overwritten (the place id becomes null when it is falsy);
      nothing else changes and no inbox row is filed. No caller identity is checked. */
  function ProposeLocation(db: Db, id: ExchangeId, lat: Fixed7, lng: Fixed7, name: string, address: string,
                           placeId: Option<string>): (r: Result<(Db, Exchange), Failure>)
    ensures FindExchange(db, id).None? ==> r == Err(NotFound(ExchangeNotFound))
    ensures FindExchange(db, id).Some? ==> var e := FindExchange(db, id).value;
      && (e.state != Accepted ==> r == Err(BadRequest(ExchangeNotAccepted)))
      && (e.state == Accepted && !Js.TruthyOpt(e.offeredBook) ==> r == Err(BadRequest(OfferedBookMissing)))
      && (r.Ok? <==> e.state == Accepted && Js.TruthyOpt(e.offeredBook))
    ensures r.Ok? ==> var i := ExchangeIndex(db, id).value; var e := db.exchanges[i]; var (db', e') := r.value;
      && e' == e.(location := Location(Some(lat), Some(lng), Some(name), Some(address), Js.OrNullStr(placeId)))
      && |db'.exchanges| == |db.exchanges| && db'.exchanges[i] == e'
      && (forall k :: 0 <= k < |db.exchanges| && k != i ==> db'.exchanges[k] == db.exchanges[k])
      && SameExceptInbox(db', db.(exchanges := db'.exchanges))
      && db'.notifications == db.notifications && db'.nextId == db.nextId
  {
    match ExchangeIndex(db, id)
    case None => Err(NotFound(ExchangeNotFound))
    case Some(i) =>
      var e := db.exchanges[i];
      if e.state != Accepted then Err(BadRequest(ExchangeNotAccepted))
      else if !Js.TruthyOpt(e.offeredBook) then Err(BadRequest(OfferedBookMissing))
      else
        var e' := e.(location := Location(Some(lat), Some(lng), Some(name), Some(address), Js.OrNullStr(placeId)));
        Ok((Save(db, i, e'), e'))
  }

  /** The meeting location counts as proposed when both coordinates are stored. The columns are
      `decimal`, which the database driver hands back as strings (`"0.0000000"` for zero), and
      `confirmExchange` reloads the row, so a stored coordinate is always truthy and only a null
      one is missing. */
  predicate HasMeetingLocation(e: Exchange) {
    e.location.lat.Some? && e.location.lng.Some?
  }

  /** Marks every row of book `id` as exchanged; a missing book leaves the table as it is. */
  function MarkExchanged(books: seq<Book>, id: BookId): (r: seq<Book>)
    ensures |r| == |books|
    ensures forall k :: 0 <= k < |books| && books[k].id == id ==> r[k] == books[k].(state := Exchanged)
    ensures forall k :: 0 <= k < |books| && books[k].id != id ==> r[k] == books[k]
  {
    Seqs.Map(books, (b: Book) => if b.id == id then b.(state := Exchanged) else b)
  }

  /** The response of `confirmExchange`, with the store after the call. */
  datatype Confirmation = Confirmation(db: Db, exchange: ExchangeId, byRequester: bool, byReceiver: bool,
                                       both: bool, state: ProposalState)

  /** `confirmExchange`: the caller must be a participant (tested as requester first) and the
      meeting location must be proposed; the caller's own flag must still be false and becomes
      true. When both flags are then true the exchange is completed, the agreement date is
      stamped and both books become exchanged. The other party is notified. The state is never
      consulted. */
  function Confirm(db: Db, id: ExchangeId, user: UserId, now: Time): (r: Result<Confirmation, Failure>)
    ensures FindExchange(db, id).None? ==> r == Err(NotFound(ExchangeNotFound))
    ensures FindExchange(db, id).Some? ==> var e := FindExchange(db, id).value;
      && (!IsParticipant(e, user) ==> r == Err(BadRequest(NotParticipant)))
      && (IsParticipant(e, user) && !HasMeetingLocation(e) ==> r == Err(BadRequest(NoMeetingLocation)))
      && (IsParticipant(e, user) && HasMeetingLocation(e)
          && (if user == e.requester then e.confirmedByRequester else e.confirmedByReceiver)
          ==> r == Err(BadRequest(AlreadyConfirmed)))
      && (r.Ok? <==> IsParticipant(e, user) && HasMeetingLocation(e)
                     && !(if user == e.requester then e.confirmedByRequester else e.confirmedByReceiver))
    ensures r.Ok? ==> |r.value.db.exchanges| == |db.exchanges|
    ensures r.Ok? ==> var i := ExchangeIndex(db, id).value; var e := db.exchanges[i]; var c := r.value;
      var e' := c.db.exchanges[i];
      && (forall k :: 0 <= k < |db.exchanges| && k != i ==> c.db.exchanges[k] == db.exchanges[k])
      && e'.confirmedByRequester == (e.confirmedByRequester || user == e.requester)
      && e'.confirmedByReceiver == (e.confirmedByReceiver || user != e.requester)
      && c.exchange == e.id && c.byRequester == e'.confirmedByRequester && c.byReceiver == e'.confirmedByReceiver
      && (c.both <==> e'.confirmedByRequester && e'.confirmedByReceiver)
      && c.state == e'.state
      && (c.both ==> e'.state == Completed && e'.agreedAt == Some(now))
      && (!c.both ==> e'.state == e.state && e'.agreedAt == e.agreedAt)
      && e' == e.(confirmedByRequester := e'.confirmedByRequester, confirmedByReceiver := e'.confirmedByReceiver,
                  state := e'.state, agreedAt := e'.agreedAt)
      && (c.both ==> forall b :: b in c.db.books && (b.id == e.requestedBook || Some(b.id) == e.offeredBook)
                                 ==> b.state == Exchanged)
      && (!c.both ==> c.db.books == db.books)
      && |c.db.books| == |db.books|
      && (forall k :: 0 <= k < |db.books| && db.books[k].id != e.requestedBook && Some(db.books[k].id) != e.offeredBook
                      ==> c.db.books[k] == db.books[k])
      && c.db.notifications == db.notifications
           + [Notification(db.nextId, OtherParticipant(e, user), Some(user), Some(id),
                           if c.both then ExchangeCompleted else ExchangeRequest, false, now)]
      && c.db.users == db.users && c.db.chats == db.chats && c.db.members == db.members
      && c.db.messages == db.messages && c.db.ratings == db.ratings && c.db.genres == db.genres
      && c.db.images == db.images
  {
    match ExchangeIndex(db, id)
    case None => Err(NotFound(ExchangeNotFound))
    case Some(i) =>
      var e := db.exchanges[i];
      var asRequester := e.requester == user;
      if !asRequester && e.receiver != user then Err(BadRequest(NotParticipant))
      else if !HasMeetingLocation(e) then Err(BadRequest(NoMeetingLocation))
      else if asRequester && e.confirmedByRequester then Err(BadRequest(AlreadyConfirmed))
      else if !asRequester && e.confirmedByReceiver then Err(BadRequest(AlreadyConfirmed))
      else
        var flagged := if asRequester then e.(confirmedByRequester := true) else e.(confirmedByReceiver := true);
        var both := flagged.confirmedByRequester && flagged.confirmedByReceiver;
        var e' := if both then flagged.(state := Completed, agreedAt := Some(now)) else flagged;
        var books :=
          if !both then db.books
          else
            var withRequested := MarkExchanged(db.books, e.requestedBook);
            if e.offeredBook.Some? then MarkExchanged(withRequested, e.offeredBook.value) else withRequested;
        var db1 := Save(db, i, e').(books := books);
        var kind := if both then ExchangeCompleted else ExchangeRequest;
        var db2 := AddNotification(db1, OtherParticipant(e, user), Some(user), Some(id), kind, now);
        Ok(Confirmation(db2, e.id, e'.confirmedByRequester, e'.confirmedByReceiver, both, e'.state))
  }

  /** `cancelExchange`: the caller must be a participant and the exchange must not be completed.
      The state becomes rejected (never canceled) and nothing else in the row changes; the other
      party is notified with a request notification. */
  function Cancel(db: Db, id: ExchangeId, user: UserId, now: Time): (r: Result<Db, Failure>)
    ensures FindExchange(db, id).None? ==> r == Err(NotFound(ExchangeNotFound))
    ensures FindExchange(db, id).Some? ==> var e := FindExchange(db, id).value;
      && (!IsParticipant(e, user) ==> r == Err(BadRequest(CancelNotAllowed)))
      && (IsParticipant(e, user) && e.state == Completed ==> r == Err(BadRequest(AlreadyCompleted)))
      && (r.Ok? <==> IsParticipant(e, user) && e.state != Completed)
    ensures r.Ok? ==> var i := ExchangeIndex(db, id).value; var e := db.exchanges[i]; var db' := r.value;
      && |db'.exchanges| == |db.exchanges| && db'.exchanges[i] == e.(state := Rejected)
      && (forall k :: 0 <= k < |db.exchanges| && k != i ==> db'.exchanges[k] == db.exchanges[k])
      && db'.notifications == db.notifications
           + [Notification(db.nextId, OtherParticipant(e, user), Some(user), Some(id), ExchangeRequest, false, now)]
      && SameExceptInbox(db', db.(exchanges := db'.exchanges))
  {
    match ExchangeIndex(db, id)
    case None => Err(NotFound(ExchangeNotFound))
    case Some(i) =>
      var e := db.exchanges[i];
      if !IsParticipant(e, user) then Err(BadRequest(CancelNotAllowed))
      else if e.state == Completed then Err(BadRequest(AlreadyCompleted))
      else Ok(AddNotification(Save(db, i, e.(state := Rejected)), OtherParticipant(e, user), Some(user), Some(id), ExchangeRequest, now))
  }
}

=== FILE: js.dfy ===
/** The JavaScript value tests the services rely on. `if (x)`, `!x` and `x || y` treat
    `0`, `""`, `null` and `undefined` as false; these predicates spell that out so that every
    guard written as a truthiness test keeps its edge cases (an id or a coordinate of 0). */
module Js {
  import opened Wrappers

  /** `!!n` for a number. */
  predicate Truthy(n: int) {
    n != 0
  }

  /** `!!x` for a nullable number. */
  predicate TruthyOpt(x: Option<int>) {
    x.Some? && Truthy(x.value)
  }

  /** `!!s` for a nullable string. */
  predicate TruthyStr(s: Option<string>) {
    s.Some? && |s.value| > 0
  }

  /** `x || null` for a nullable number: a falsy number becomes null. */
  function OrNull(x: Option<int>): (r: Option<int>)
    ensures r.Some? <==> TruthyOpt(x)
    ensures r.Some? ==> r == x
  {
    if TruthyOpt(x) then x else None
  }

  /** `s || null` for a nullable string: the empty string becomes null. */
  function OrNullStr(s: Option<string>): (r: Option<string>)
    ensures r.Some? <==> TruthyStr(s)
    ensures r.Some? ==> r == s
  {
    if TruthyStr(s) then s else None
  }
}

=== FILE: negotiation.dfy ===
/** Sequences of requests against the exchange service, and what holds of every exchange row
    across any such sequence: who may set which flag, which fields never change, and how an
    exchange can become completed. Rows are never deleted by these requests, so a row keeps its
    index in the table. */
module Negotiation {
  import opened Wrappers
  import opened Entities
  import opened Store
  import Js
  import Chats
  import Exchanges

  /** One request to the exchange service, with the caller-supplied arguments. */
  datatype Op =
    | Request(dto: Exchanges.CreateRequestDto)
    | SetStatus(exchange: ExchangeId, user: UserId, state: ProposalState, meetingPoint: Option<int>)
    | Offer(exchange: ExchangeId, book: BookId)
    | Propose(exchange: ExchangeId, lat: Fixed7, lng: Fixed7, name: string, address: string, placeId: Option<string>)
    | ConfirmBy(exchange: ExchangeId, user: UserId)
    | CancelBy(exchange: ExchangeId, user: UserId)

  /** A request together with the clock reading at which it is served. */
  datatype Event = Event(op: Op, at: Time)

  /** The store after serving one request; a rejected request leaves it unchanged. */
  function Step(db: Db, ev: Event): Db {
    match ev.op
    case Request(dto) =>
      (match Exchanges.CreateRequest(db, dto, ev.at) case Ok(v) => v.0 case Err(_) => db)
    case SetStatus(id, user, state, mp) =>
      (match Exchanges.UpdateStatus(db, id, user, state, mp, ev.at) case Ok(u) => u.db case Err(_) => db)
    case Offer(id, book) =>
      (match Exchanges.OfferBook(db, id, book, ev.at) case Ok(v) => v.0 case Err(_) => db)
    case Propose(id, lat, lng, name, address, placeId) =>
      (match Exchanges.ProposeLocation(db, id, lat, lng, name, address, placeId) case Ok(v) => v.0 case Err(_) => db)
    case ConfirmBy(id, user) =>
      (match Exchanges.Confirm(db, id, user, ev.at) case Ok(c) => c.db case Err(_) => db)
    case CancelBy(id, user) =>
      (match Exchanges.Cancel(db, id, user, ev.at) case Ok(d) => d case Err(_) => db)
  }

  /** The store after serving the requests in order. */
  function Run(db: Db, evs: seq<Event>): Db
    decreases |evs|
  {
    if |evs| == 0 then db else Run(Step(db, evs[0]), evs[1..])
  }

  /** `b` is a later version of the row `a`: the key, the parties, the requested book and the
      proposal date are fixed, a confirmation flag once set stays set, and a truthy offered book
      is never replaced. */
  ghost predicate Evolves(a: Exchange, b: Exchange) {
    && b.id == a.id && b.requester == a.requester && b.receiver == a.receiver
    && b.requestedBook == a.requestedBook && b.proposedAt == a.proposedAt
    && (a.confirmedByRequester ==> b.confirmedByRequester)
    && (a.confirmedByReceiver ==> b.confirmedByReceiver)
    && (Js.TruthyOpt(a.offeredBook) ==> b.offeredBook == a.offeredBook)
  }

  /** Every row of `db` is still present, at its index, as a later version of itself. */
  ghost predicate Grows(db: Db, db': Db) {
    && |db.exchanges| <= |db'.exchanges|
    && forall k :: 0 <= k < |db.exchanges| ==> Evolves(db.exchanges[k], db'.exchanges[k])
  }

  lemma StepGrows(db: Db, ev: Event)
    ensures Grows(db, Step(db, ev))
  {
    var db' := Step(db, ev);
    forall k | 0 <= k < |db.exchanges|
      ensures Evolves(db.exchanges[k], db'.exchanges[k])
    {
      match ev.op
      case Request(dto) =>
        var r := Exchanges.CreateRequest(db, dto, ev.at);
        if r.Ok? {
          assert db'.exchanges == db.exchanges + [r.value.1];
          assert db'.exchanges[k] == db.exchanges[k];
        }
      case SetStatus(id, user, state, mp) =>
      case Offer(id, book) =>
      case Propose(id, lat, lng, name, address, placeId) =>
      case ConfirmBy(id, user) =>
      case CancelBy(id, user) =>
    }
  }

  /** Across any sequence of requests, every row only evolves. */
  lemma {:induction false} RunGrows(db: Db, evs: seq<Event>)
    ensures Grows(db, Run(db, evs))
    decreases |evs|
  {
    if |evs| > 0 {
      var mid := Step(db, evs[0]);
      StepGrows(db, evs[0]);
      RunGrows(mid, evs[1..]);
      var last := Run(mid, evs[1..]);
      forall k | 0 <= k < |db.exchanges|
        ensures Evolves(db.exchanges[k], last.exchanges[k])
      {
        assert Evolves(db.exchanges[k], mid.exchanges[k]);
        assert Evolves(mid.exchanges[k], last.exchanges[k]);
      }
    }
  }

  /** A request that sets the requester's flag of a row is that requester's own confirmation of
      that exchange; one that sets the receiver's flag is the receiver's. */
  lemma StepFlagProvenance(db: Db, ev: Event, k: nat)
    requires k < |db.exchanges|
    ensures k < |Step(db, ev).exchanges|
    ensures var a := db.exchanges[k]; var b := Step(db, ev).exchanges[k];
      && (!a.confirmedByRequester && b.confirmedByRequester ==> ev.op == ConfirmBy(a.id, a.requester))
      && (!a.confirmedByReceiver && b.confirmedByReceiver
          ==> ev.op == ConfirmBy(a.id, a.receiver) && a.receiver != a.requester)
  {
    StepGrows(db, ev);
    var db' := Step(db, ev);
    match ev.op
    case Request(dto) =>
      var r := Exchanges.CreateRequest(db, dto, ev.at);
      if r.Ok? {
        assert db'.exchanges == db.exchanges + [r.value.1];
        assert db'.exchanges[k] == db.exchanges[k];
      }
    case SetStatus(id, user, state, mp) =>
    case Offer(id, book) =>
    case Propose(id, lat, lng, name, address, placeId) =>
    case ConfirmBy(id, user) =>
    case CancelBy(id, user) =>
  }

  /** A requester's flag that is set after a run and was not set before was set by a
      confirmation of that requester within the run. */
  lemma {:induction false} RequesterFlagNeedsRequester(db: Db, evs: seq<Event>, k: nat)
    requires k < |db.exchanges| && !db.exchanges[k].confirmedByRequester
    requires k < |Run(db, evs).exchanges| && Run(db, evs).exchanges[k].confirmedByRequester
    ensures exists j :: 0 <= j < |evs| && evs[j].op == ConfirmBy(db.exchanges[k].id, db.exchanges[k].requester)
    decreases |evs|
  {
    var a := db.exchanges[k];
    if |evs| == 0 {
      assert false;
    } else {
      var mid := Step(db, evs[0]);
      StepFlagProvenance(db, evs[0], k);
      if mid.exchanges[k].confirmedByRequester {
        assert evs[0].op == ConfirmBy(a.id, a.requester);
      } else {
        StepGrows(db, evs[0]);
        RequesterFlagNeedsRequester(mid, evs[1..], k);
        var j :| 0 <= j < |evs[1..]| && evs[1..][j].op == ConfirmBy(mid.exchanges[k].id, mid.exchanges[k].requester);
        assert evs[j + 1].op == ConfirmBy(a.id, a.requester);
      }
    }
  }

  /** A receiver's flag that is set after a run and was not set before was set by a
      confirmation of that receiver within the run. */
  lemma {:induction false} ReceiverFlagNeedsReceiver(db: Db, evs: seq<Event>, k: nat)
    requires k < |db.exchanges| && !db.exchanges[k].confirmedByReceiver
    requires k < |Run(db, evs).exchanges| && Run(db, evs).exchanges[k].confirmedByReceiver
    ensures exists j :: 0 <= j < |evs| && evs[j].op == ConfirmBy(db.exchanges[k].id, db.exchanges[k].receiver)
    decreases |evs|
  {
    var a := db.exchanges[k];
    if |evs| == 0 {
      assert false;
    } else {
      var mid := Step(db, evs[0]);
      StepFlagProvenance(db, evs[0], k);
      if mid.exchanges[k].confirmedByReceiver {
        assert evs[0].op == ConfirmBy(a.id, a.receiver);
      } else {
        StepGrows(db, evs[0]);
        ReceiverFlagNeedsReceiver(mid, evs[1..], k);
        var j :| 0 <= j < |evs[1..]| && evs[1..][j].op == ConfirmBy(mid.exchanges[k].id, mid.exchanges[k].receiver);
        assert evs[j + 1].op == ConfirmBy(a.id, a.receiver);
      }
    }
  }

  /** A row becomes completed in one of two ways only: its receiver writes the completed state
      directly, or a participant's confirmation sets the last missing flag while a meeting
      location is proposed. */
  lemma StepCompletion(db: Db, ev: Event, k: nat)
    requires k < |db.exchanges| && db.exchanges[k].state != Completed
    ensures k < |Step(db, ev).exchanges|
    ensures var a := db.exchanges[k]; var b := Step(db, ev).exchanges[k];
      b.state == Completed ==>
        || (ev.op.SetStatus? && ev.op.exchange == a.id && ev.op.user == a.receiver && ev.op.state == Completed)
        || (&& ev.op.ConfirmBy? && ev.op.exchange == a.id && Exchanges.IsParticipant(a, ev.op.user)
            && Exchanges.HasMeetingLocation(a) && b.confirmedByRequester && b.confirmedByReceiver)
  {
    StepGrows(db, ev);
    var db' := Step(db, ev);
    match ev.op
    case Request(dto) =>
      var r := Exchanges.CreateRequest(db, dto, ev.at);
      if r.Ok? {
        assert db'.exchanges == db.exchanges + [r.value.1];
        assert db'.exchanges[k] == db.exchanges[k];
      }
    case SetStatus(id, user, state, mp) =>
    case Offer(id, book) =>
    case Propose(id, lat, lng, name, address, placeId) =>
    case ConfirmBy(id, user) =>
    case CancelBy(id, user) =>
  }

  /** Only a status write can take a row out of the completed state. */
  lemma StepKeepsCompleted(db: Db, ev: Event, k: nat)
    requires k < |db.exchanges| && db.exchanges[k].state == Completed
    requires !ev.op.SetStatus?
    ensures k < |Step(db, ev).exchanges| && Step(db, ev).exchanges[k].state == Completed
  {
    StepGrows(db, ev);
    var db' := Step(db, ev);
    match ev.op
    case Request(dto) =>
      var r := Exchanges.CreateRequest(db, dto, ev.at);
      if r.Ok? {
        assert db'.exchanges == db.exchanges + [r.value.1];
        assert db'.exchanges[k] == db.exchanges[k];
      }
    case Offer(id, book) =>
    case Propose(id, lat, lng, name, address, placeId) =>
    case ConfirmBy(id, user) =>
    case CancelBy(id, user) =>
  }

  /** In a run without status writes, a completed exchange stays completed. */
  lemma {:induction false} CompletedPersists(db: Db, evs: seq<Event>, k: nat)
    requires k < |db.exchanges| && db.exchanges[k].state == Completed
    requires forall j :: 0 <= j < |evs| ==> !evs[j].op.SetStatus?
    ensures k < |Run(db, evs).exchanges| && Run(db, evs).exchanges[k].state == Completed
    decreases |evs|
  {
    if |evs| > 0 {
      StepKeepsCompleted(db, evs[0], k);
      CompletedPersists(Step(db, evs[0]), evs[1..], k);
    }
  }

  /** The parts of a row the later steps of a negotiation depend on. */
  ghost predicate Unchanged(a: Exchange, b: Exchange) {
    && b.id == a.id && b.requester == a.requester && b.receiver == a.receiver
    && b.requestedBook == a.requestedBook
  }

  /** The owner accepts: the row stays at its index, under its key, and is now accepted. */
  lemma AcceptStep(db: Db, id: ExchangeId, n: nat, t: Time)
    requires ExchangeIndex(db, id) == Some(n)
    ensures var db' := Step(db, Event(SetStatus(id, db.exchanges[n].receiver, Accepted, None), t));
      && ExchangeIndex(db', id) == Some(n)
      && Unchanged(db.exchanges[n], db'.exchanges[n])
      && db'.exchanges[n] == db.exchanges[n].(state := Accepted, agreedAt := Some(t))
      && db'.books == db.books
  {
    var e := db.exchanges[n];
    var e' := Exchanges.ApplyStatus(e, Accepted, None, t);
    Exchanges.SaveKeepsIndex(db, n, e');
    var db1 := AddNotification(Exchanges.Save(db, n, e'), e.requester, Some(e.receiver), Some(id), ExchangeAccepted, t);
    Chats.CreateChatPreservesExchanges(db1, e.requester, e.receiver, Some(id));
  }

  /** The owner offers one of the requester's books for an accepted exchange without one. */
  lemma OfferStep(db: Db, id: ExchangeId, n: nat, book: BookId, t: Time)
    requires ExchangeIndex(db, id) == Some(n)
    requires db.exchanges[n].state == Accepted && db.exchanges[n].offeredBook.None?
    requires FindBook(db, book).Some? && FindBook(db, book).value.owner == db.exchanges[n].requester
    ensures var db' := Step(db, Event(Offer(id, book), t));
      && ExchangeIndex(db', id) == Some(n)
      && db'.exchanges[n] == db.exchanges[n].(offeredBook := Some(book))
      && db'.books == db.books
  {
    Exchanges.SaveKeepsIndex(db, n, db.exchanges[n].(offeredBook := Some(book)));
  }

  /** A meeting place is proposed for an accepted exchange with an offered book; any coordinates,
      zero included, make the location present. */
  lemma ProposeStep(db: Db, id: ExchangeId, n: nat, lat: Fixed7, lng: Fixed7, name: string, address: string, t: Time)
    requires ExchangeIndex(db, id) == Some(n)
    requires db.exchanges[n].state == Accepted && Js.TruthyOpt(db.exchanges[n].offeredBook)
    ensures var db' := Step(db, Event(Propose(id, lat, lng, name, address, None), t));
      && ExchangeIndex(db', id) == Some(n)
      && db'.exchanges[n] == db.exchanges[n].(location := Location(Some(lat), Some(lng), Some(name), Some(address), None))
      && Exchanges.HasMeetingLocation(db'.exchanges[n])
      && db'.books == db.books
  {
    Exchanges.SaveKeepsIndex(db, n, db.exchanges[n].(location := Location(Some(lat), Some(lng), Some(name), Some(address), None)));
  }

  /** The requester confirms first: only the requester's flag is set. */
  lemma FirstConfirmStep(db: Db, id: ExchangeId, n: nat, t: Time)
    requires ExchangeIndex(db, id) == Some(n)
    requires Exchanges.HasMeetingLocation(db.exchanges[n])
    requires !db.exchanges[n].confirmedByRequester && !db.exchanges[n].confirmedByReceiver
    ensures var db' := Step(db, Event(ConfirmBy(id, db.exchanges[n].requester), t));
      && ExchangeIndex(db', id) == Some(n)
      && db'.exchanges[n] == db.exchanges[n].(confirmedByRequester := true)
      && db'.books == db.books
  {
    Exchanges.SaveKeepsIndex(db, n, db.exchanges[n].(confirmedByRequester := true));
  }

  /** The receiver confirms second: the exchange completes and both books become exchanged. */
  lemma SecondConfirmStep(db: Db, id: ExchangeId, n: nat, t: Time)
    requires ExchangeIndex(db, id) == Some(n)
    requires Exchanges.HasMeetingLocation(db.exchanges[n])
    requires db.exchanges[n].confirmedByRequester && !db.exchanges[n].confirmedByReceiver
    requires db.exchanges[n].requester != db.exchanges[n].receiver
    ensures var e := db.exchanges[n]; var db' := Step(db, Event(ConfirmBy(id, e.receiver), t));
      && |db'.exchanges| == |db.exchanges|
      && db'.exchanges[n].state == Completed
      && db'.exchanges[n].confirmedByRequester && db'.exchanges[n].confirmedByReceiver
      && db'.exchanges[n].offeredBook == e.offeredBook
      && forall b :: b in db'.books && (b.id == e.requestedBook || Some(b.id) == e.offeredBook) ==> b.state == Exchanged
  {
  }

  /** A request for another user's book creates the row at the end of the table, under the
      next key, with no offered book. */
  lemma RequestStep(db: Db, book: BookId, requester: UserId, t: Time)
    requires Exchanges.ExchangeKeysIssued(db)
    requires FindBook(db, book).Some? && FindBook(db, book).value.owner != requester
    ensures var db' := Step(db, Event(Request(Exchanges.CreateRequestDto(book, None, requester)), t));
      var e := db'.exchanges[|db.exchanges|];
      && ExchangeIndex(db', db.nextId) == Some(|db.exchanges|)
      && e.requester == requester && e.receiver == FindBook(db, book).value.owner && e.requestedBook == book
      && e.offeredBook.None? && e.state == Pending && !e.confirmedByRequester && !e.confirmedByReceiver
      && db'.books == db.books
  {
    Exchanges.CreatedRequestIsFound(db, Exchanges.CreateRequestDto(book, None, requester), t);
  }

  /** Both parties confirm at a proposed meeting place, requester first: the exchange
      completes and both books become exchanged. */
  lemma {:induction false} ConfirmationsComplete(db: Db, id: ExchangeId, n: nat, t: Time)
    requires ExchangeIndex(db, id) == Some(n)
    requires Exchanges.HasMeetingLocation(db.exchanges[n])
    requires !db.exchanges[n].confirmedByRequester && !db.exchanges[n].confirmedByReceiver
    requires db.exchanges[n].requester != db.exchanges[n].receiver
    ensures var e := db.exchanges[n];
      var last := Run(db, [Event(ConfirmBy(id, e.requester), t), Event(ConfirmBy(id, e.receiver), t)]);
      && |last.exchanges| == |db.exchanges|
      && last.exchanges[n].state == Completed
      && last.exchanges[n].confirmedByRequester && last.exchanges[n].confirmedByReceiver
      && last.exchanges[n].offeredBook == e.offeredBook
      && forall b :: b in last.books && (b.id == e.requestedBook || Some(b.id) == e.offeredBook) ==> b.state == Exchanged
  {
    var e := db.exchanges[n];
    var evs := [Event(ConfirmBy(id, e.requester), t), Event(ConfirmBy(id, e.receiver), t)];
    var mid := Step(db, evs[0]);
    FirstConfirmStep(db, id, n, t);
    SecondConfirmStep(mid, id, n, t);
    RunPrefix2(db, evs);
    assert evs[2..] == [];
  }

  /** From acceptance on: the receiver offers a book of the requester, a meeting place is
      proposed, and both confirm. */
  lemma {:induction false} AcceptedCompletes(db: Db, id: ExchangeId, n: nat, offered: BookId,
                                             lat: Fixed7, lng: Fixed7, name: string, address: string, t: Time)
    requires ExchangeIndex(db, id) == Some(n)
    requires db.exchanges[n].state == Accepted && db.exchanges[n].offeredBook.None?
    requires !db.exchanges[n].confirmedByRequester && !db.exchanges[n].confirmedByReceiver
    requires db.exchanges[n].requester != db.exchanges[n].receiver
    requires FindBook(db, offered).Some? && FindBook(db, offered).value.owner == db.exchanges[n].requester && offered != 0
    ensures var e := db.exchanges[n];
      var last := Run(db, [Event(Offer(id, offered), t),
                           Event(Propose(id, lat, lng, name, address, None), t),
                           Event(ConfirmBy(id, e.requester), t),
                           Event(ConfirmBy(id, e.receiver), t)]);
      && |last.exchanges| == |db.exchanges|
      && last.exchanges[n].state == Completed
      && last.exchanges[n].confirmedByRequester && last.exchanges[n].confirmedByReceiver
      && last.exchanges[n].offeredBook == Some(offered)
      && forall b :: b in last.books && (b.id == e.requestedBook || b.id == offered) ==> b.state == Exchanged
  {
    var e := db.exchanges[n];
    var evs := [Event(Offer(id, offered), t),
                Event(Propose(id, lat, lng, name, address, None), t),
                Event(ConfirmBy(id, e.requester), t),
                Event(ConfirmBy(id, e.receiver), t)];
    var db2 := Step(Step(db, evs[0]), evs[1]);
    OfferThenPropose(db, id, n, offered, lat, lng, name, address, t);
    var e2 := db2.exchanges[n];
    assert e2.requester == e.requester && e2.receiver == e.receiver;
    assert e2.requestedBook == e.requestedBook && e2.offeredBook == Some(offered);
    ConfirmationsComplete(db2, id, n, t);
    RunFour(db, evs[0], evs[1], evs[2], evs[3]);
    assert Run(db, evs) == Run(db2, [evs[2], evs[3]]);
  }

  /** The offer and the proposal of an accepted exchange: the row stays in place with the
      offered book and a present meeting location, and its other columns as they were. */
  lemma OfferThenPropose(db: Db, id: ExchangeId, n: nat, offered: BookId,
                         lat: Fixed7, lng: Fixed7, name: string, address: string, t: Time)
    requires ExchangeIndex(db, id) == Some(n)
    requires db.exchanges[n].state == Accepted && db.exchanges[n].offeredBook.None?
    requires FindBook(db, offered).Some? && FindBook(db, offered).value.owner == db.exchanges[n].requester && offered != 0
    ensures var db2 := Step(Step(db, Event(Offer(id, offered), t)), Event(Propose(id, lat, lng, name, address, None), t));
      && ExchangeIndex(db2, id) == Some(n)
      && db2.exchanges[n] == db.exchanges[n].(offeredBook := Some(offered),
                                               location := Location(Some(lat), Some(lng), Some(name), Some(address), None))
      && Exchanges.HasMeetingLocation(db2.exchanges[n])
      && db2.books == db.books
  {
    var db1 := Step(db, Event(Offer(id, offered), t));
    OfferStep(db, id, n, offered, t);
    ProposeStep(db1, id, n, lat, lng, name, address, t);
  }

  /** A request for another user's book, accepted by the owner. */
  lemma RequestAccepted(db: Db, book: BookId, requester: UserId, t: Time)
    requires Exchanges.ExchangeKeysIssued(db)
    requires FindBook(db, book).Some? && FindBook(db, book).value.owner != requester
    ensures var owner := FindBook(db, book).value.owner;
      var db2 := Step(Step(db, Event(Request(Exchanges.CreateRequestDto(book, None, requester)), t)),
                      Event(SetStatus(db.nextId, owner, Accepted, None), t));
      var e := db2.exchanges[|db.exchanges|];
      && ExchangeIndex(db2, db.nextId) == Some(|db.exchanges|)
      && e.requester == requester && e.receiver == owner && e.requestedBook == book
      && e.offeredBook.None? && e.state == Accepted && !e.confirmedByRequester && !e.confirmedByReceiver
      && db2.books == db.books
  {
    var db1 := Step(db, Event(Request(Exchanges.CreateRequestDto(book, None, requester)), t));
    RequestStep(db, book, requester, t);
    AcceptStep(db1, db.nextId, |db.exchanges|, t);
  }

  /** The negotiation the service is built for: a request, its acceptance by the owner, the
      owner's choice of one of the requester's books, a meeting place, and both confirmations.
      It ends with the exchange completed and both books exchanged. */
  lemma {:induction false} FullNegotiationCompletes(db: Db, book: BookId, offered: BookId, requester: UserId,
                                                    lat: Fixed7, lng: Fixed7, name: string, address: string, t: Time)
    requires Exchanges.ExchangeKeysIssued(db)
    requires FindBook(db, book).Some? && FindBook(db, book).value.owner != requester
    requires FindBook(db, offered).Some? && FindBook(db, offered).value.owner == requester && offered != 0
    ensures var owner := FindBook(db, book).value.owner;
            var id := db.nextId;
            var last := Run(db, [Event(Request(Exchanges.CreateRequestDto(book, None, requester)), t),
                                 Event(SetStatus(id, owner, Accepted, None), t),
                                 Event(Offer(id, offered), t),
                                 Event(Propose(id, lat, lng, name, address, None), t),
                                 Event(ConfirmBy(id, requester), t),
                                 Event(ConfirmBy(id, owner), t)]);
            && |last.exchanges| == |db.exchanges| + 1
            && last.exchanges[|db.exchanges|].state == Completed
            && last.exchanges[|db.exchanges|].confirmedByRequester
            && last.exchanges[|db.exchanges|].confirmedByReceiver
            && last.exchanges[|db.exchanges|].offeredBook == Some(offered)
            && forall b :: b in last.books && (b.id == book || b.id == offered) ==> b.state == Exchanged
  {
    var owner := FindBook(db, book).value.owner;
    var id := db.nextId;
    var n := |db.exchanges|;
    var evs := [Event(Request(Exchanges.CreateRequestDto(book, None, requester)), t),
                Event(SetStatus(id, owner, Accepted, None), t),
                Event(Offer(id, offered), t),
                Event(Propose(id, lat, lng, name, address, None), t),
                Event(ConfirmBy(id, requester), t),
                Event(ConfirmBy(id, owner), t)];
    RunPrefix2(db, evs);
    RequestAccepted(db, book, requester, t);
    var db2 := Step(Step(db, evs[0]), evs[1]);
    assert FindBook(db2, offered) == FindBook(db, offered);
    AcceptedCompletes(db2, id, n, offered, lat, lng, name, address, t);
    var e := db2.exchanges[n];
    assert evs[2..] == [Event(Offer(id, offered), t),
                        Event(Propose(id, lat, lng, name, address, None), t),
                        Event(ConfirmBy(id, e.requester), t),
                        Event(ConfirmBy(id, e.receiver), t)];
  }

  /** The first two steps of a run of four. */
  lemma RunFour(db: Db, a: Event, b: Event, c: Event, d: Event)
    ensures Run(db, [a, b, c, d]) == Run(Step(Step(db, a), b), [c, d])
  {
    RunPrefix2(db, [a, b, c, d]);
    assert [a, b, c, d][2..] == [c, d];
  }

  /** The first two steps of a run. */
  lemma RunPrefix2(db: Db, evs: seq<Event>)
    requires |evs| >= 2
    ensures Run(db, evs) == Run(Step(Step(db, evs[0]), evs[1]), evs[2..])
  {
    RunCons(db, evs);
    RunCons(Step(db, evs[0]), evs[1..]);
    assert evs[1..][1..] == evs[2..];
  }

  /** One step of a run. */
  lemma RunCons(db: Db, evs: seq<Event>)
    requires |evs| > 0
    ensures Run(db, evs) == Run(Step(db, evs[0]), evs[1..])
  {
  }

  /** The status write takes any state from its receiver: a fresh request marked completed by
      the owner is completed with neither confirmation, no meeting place and neither book
      marked exchanged. */
  lemma {:induction false} StatusWriteCompletesUnconfirmed(db: Db, book: BookId, requester: UserId, t: Time)
    requires Exchanges.ExchangeKeysIssued(db)
    requires FindBook(db, book).Some? && FindBook(db, book).value.owner != requester
    ensures var owner := FindBook(db, book).value.owner;
      var last := Run(db, [Event(Request(Exchanges.CreateRequestDto(book, None, requester)), t),
                           Event(SetStatus(db.nextId, owner, Completed, None), t)]);
      && |last.exchanges| == |db.exchanges| + 1
      && var e := last.exchanges[|db.exchanges|];
      && e.state == Completed && !e.confirmedByRequester && !e.confirmedByReceiver
      && e.location == NoLocation && last.books == db.books
  {
    var owner := FindBook(db, book).value.owner;
    var evs := [Event(Request(Exchanges.CreateRequestDto(book, None, requester)), t),
                Event(SetStatus(db.nextId, owner, Completed, None), t)];
    var db1 := Step(db, evs[0]);
    RequestStep(db, book, requester, t);
    assert Run(db, evs) == Run(db1, evs[1..]);
    assert Run(db1, evs[1..]) == Run(Step(db1, evs[1]), evs[2..]);
  }
}

=== FILE: notification.dfy ===
/** The notification inbox: listing, read flags, unread counts and deletion, each restricted to
    the notifications the caller received. */
module Notifications {
  import opened Wrappers
  import opened Failures
  import opened Entities
  import opened Store
  import Seqs

  /** The most notifications one listing returns (`take: 50`). */
  const PageSize: nat := 50

  /** The sender as a notification shows it. */
  datatype Sender = Sender(id: UserId, username: string)

  /** The exchange as a notification shows it. */
  datatype ExchangeRef = ExchangeRef(id: ExchangeId, state: ProposalState)

  /** `NotificationDto`, without the message text. */
  datatype NotificationView = NotificationView(
    id: int, kind: NotificationKind, read: bool, createdAt: Time,
    sender: Option<Sender>, exchange: Option<ExchangeRef>)

  /** `formatNotification` over a notification loaded with its sender and exchange relations:
      each relation shows as null exactly when the row it points at is absent. */
  function Format(db: Db, n: Notification): (v: NotificationView)
    ensures v.id == n.id && v.kind == n.kind && v.read == n.read && v.createdAt == n.createdAt
    ensures v.sender.None? <==> n.emitter.None? || FindUser(db, n.emitter.value).None?
    ensures v.sender.Some? ==>
      v.sender.value.id == n.emitter.value
      && exists u :: u in db.users && u.id == n.emitter.value && v.sender.value.username == u.username
    ensures v.exchange.None? <==> n.exchange.None? || FindExchange(db, n.exchange.value).None?
    ensures v.exchange.Some? ==>
      v.exchange.value.id == n.exchange.value
      && exists e :: e in db.exchanges && e.id == n.exchange.value && v.exchange.value.state == e.state
  {
    var sender :=
      if n.emitter.None? then None
      else match FindUser(db, n.emitter.value)
        case None => None
        case Some(u) => Some(Sender(u.id, u.username));
    var exchange :=
      if n.exchange.None? then None
      else match FindExchange(db, n.exchange.value)
        case None => None
        case Some(e) => Some(ExchangeRef(e.id, e.state));
    NotificationView(n.id, n.kind, n.read, n.createdAt, sender, exchange)
  }

  /** The `WHERE` clause of a listing: received by `user`, and unread when `onlyUnread`. */
  function InInbox(user: UserId, onlyUnread: bool): Notification -> bool {
    (n: Notification) => n.recipient == user && (!onlyUnread || !n.read)
  }

  /** The notifications a listing selects from, in table order. */
  function Inbox(db: Db, user: UserId, onlyUnread: bool): (r: seq<Notification>)
    ensures forall n :: n in r <==> n in db.notifications && n.recipient == user && (onlyUnread ==> !n.read)
  {
    Seqs.Filter(db.notifications, InInbox(user, onlyUnread))
  }

  /** The page of a listing: the newest `PageSize` notifications of the inbox, newest first. */
  function LatestPage(db: Db, user: UserId, onlyUnread: bool): (r: seq<Notification>)
    ensures |r| == if |Inbox(db, user, onlyUnread)| < PageSize then |Inbox(db, user, onlyUnread)| else PageSize
    ensures multiset(r) <= multiset(Inbox(db, user, onlyUnread))
    ensures forall i :: 0 <= i < |r| ==> r[i] in db.notifications && r[i].recipient == user
    ensures onlyUnread ==> forall i :: 0 <= i < |r| ==> !r[i].read
    ensures forall i, j :: 0 <= i < j < |r| ==> r[i].createdAt >= r[j].createdAt
    ensures forall n, i :: n in Inbox(db, user, onlyUnread) && 0 <= i < |r| && n.createdAt > r[i].createdAt ==> n in r
  {
    Seqs.LargestBy(Inbox(db, user, onlyUnread), (n: Notification) => n.createdAt, PageSize)
  }

  /** `getUserNotifications`: the page, formatted. */
  function GetUserNotifications(db: Db, user: UserId, onlyUnread: bool): (r: seq<NotificationView>)
    ensures |r| <= PageSize
    ensures |r| == |LatestPage(db, user, onlyUnread)|
    ensures forall i :: 0 <= i < |r| ==> r[i] == Format(db, LatestPage(db, user, onlyUnread)[i])
    ensures onlyUnread ==> forall i :: 0 <= i < |r| ==> !r[i].read
    ensures forall i, j :: 0 <= i < j < |r| ==> r[i].createdAt >= r[j].createdAt
  {
    var page := LatestPage(db, user, onlyUnread);
    FormatKeepsOrder(db, page);
    Seqs.Map(page, (n: Notification) => Format(db, n))
  }

  /** Formatting keeps each notification's read flag and creation time. */
  lemma FormatKeepsOrder(db: Db, page: seq<Notification>)
    ensures var r := Seqs.Map(page, (n: Notification) => Format(db, n));
      forall i :: 0 <= i < |page| ==> r[i].read == page[i].read && r[i].createdAt == page[i].createdAt
  {
  }

  /** The index of the notification `id` received by `user` (`findOne` on both columns). */
  function OwnedIndex(db: Db, id: int, user: UserId): (r: Option<nat>)
    ensures r.Some? ==> (r.value < |db.notifications|
      && db.notifications[r.value].id == id && db.notifications[r.value].recipient == user)
    ensures r.None? <==> forall n :: n in db.notifications ==> n.id != id || n.recipient != user
  {
    Seqs.FirstIndex(db.notifications, (n: Notification) => n.id == id && n.recipient == user)
  }

  /** `markAsRead`: the notification must exist and be the caller's; it is then read, and
      nothing else changes. */
  function MarkAsRead(db: Db, id: int, user: UserId): (r: Result<(Db, NotificationView), Failure>)
    ensures r.Err? <==> forall n :: n in db.notifications ==> n.id != id || n.recipient != user
    ensures r.Err? ==> r.error == Error(NotificationNotFound)
    ensures r.Ok? ==> var (db', v) := r.value; var i := OwnedIndex(db, id, user).value;
      && |db'.notifications| == |db.notifications|
      && db'.notifications[i] == db.notifications[i].(read := true)
      && (forall j :: 0 <= j < |db.notifications| && j != i ==> db'.notifications[j] == db.notifications[j])
      && SameExceptInbox(db', db) && db'.nextId == db.nextId
      && v.id == id && v.read
  {
    match OwnedIndex(db, id, user)
    case None => Err(Error(NotificationNotFound))
    case Some(i) =>
      var n := db.notifications[i].(read := true);
      var db' := db.(notifications := db.notifications[i := n]);
      Ok((db', Format(db', n)))
  }

  /** `getUnreadCount`: the number of the user's unread notifications, which is the length of the
      unread-only inbox. */
  function GetUnreadCount(db: Db, user: UserId): (n: nat)
    ensures n == |Inbox(db, user, true)|
    ensures n == 0 <==> forall x :: x in db.notifications && x.recipient == user ==> x.read
  {
    Seqs.CountIsFilterSize(db.notifications, InInbox(user, true));
    Seqs.Count(db.notifications, InInbox(user, true))
  }

  /** `markAllAsRead`: every unread notification of the user becomes read; the count is the
      number of rows the update touched. */
  function MarkAllAsRead(db: Db, user: UserId): (r: (Db, nat))
    ensures |r.0.notifications| == |db.notifications|
    ensures forall i :: 0 <= i < |db.notifications| ==>
      r.0.notifications[i] == if db.notifications[i].recipient == user then db.notifications[i].(read := true)
                              else db.notifications[i]
    ensures SameExceptInbox(r.0, db) && r.0.nextId == db.nextId
  {
    var affected := Seqs.Count(db.notifications, InInbox(user, true));
    var marked := Seqs.Map(db.notifications, (n: Notification) =>
      if n.recipient == user && !n.read then n.(read := true) else n);
    (db.(notifications := marked), affected)
  }

  /** After `markAllAsRead` the user has nothing unread, the count returned is what was unread
      before, and every other user's unread count is unchanged. */
  lemma MarkAllAsReadClearsInbox(db: Db, user: UserId, other: UserId)
    requires other != user
    ensures MarkAllAsRead(db, user).1 == GetUnreadCount(db, user)
    ensures GetUnreadCount(MarkAllAsRead(db, user).0, user) == 0
    ensures GetUnreadCount(MarkAllAsRead(db, user).0, other) == GetUnreadCount(db, other)
  {
    var db' := MarkAllAsRead(db, user).0;
    Seqs.CountAgree(db'.notifications, InInbox(other, true), db.notifications, InInbox(other, true));
  }

  /** Marking one unread notification read lowers its owner's unread count by one; marking a
      read one changes nothing in the count. */
  lemma {:induction false} MarkAsReadCount(db: Db, id: int, user: UserId)
    requires MarkAsRead(db, id, user).Ok?
    ensures var i := OwnedIndex(db, id, user).value;
      GetUnreadCount(MarkAsRead(db, id, user).value.0, user)
        == GetUnreadCount(db, user) - (if db.notifications[i].read then 0 else 1)
  {
    var i := OwnedIndex(db, id, user).value;
    var db' := MarkAsRead(db, id, user).value.0;
    Seqs.CountUpdate(db.notifications, i, db.notifications[i].(read := true), InInbox(user, true));
    assert db'.notifications == db.notifications[i := db.notifications[i].(read := true)];
  }

  /** `deleteNotification`: the notification must exist and be the caller's; it is removed by
      its key, and nothing else changes. */
  function DeleteNotification(db: Db, id: int, user: UserId): (r: Result<Db, Failure>)
    ensures r.Err? <==> forall n :: n in db.notifications ==> n.id != id || n.recipient != user
    ensures r.Err? ==> r.error == Error(NotificationNotFound)
    ensures r.Ok? ==> forall n :: n in r.value.notifications <==> n in db.notifications && n.id != id
    ensures r.Ok? ==> SameExceptInbox(r.value, db) && r.value.nextId == db.nextId
  {
    match OwnedIndex(db, id, user)
    case None => Err(Error(NotificationNotFound))
    case Some(_) => Ok(db.(notifications := Seqs.Filter(db.notifications, (n: Notification) => n.id != id)))
  }

  /** Keys of notifications are unique. */
  ghost predicate UniqueKeys(db: Db) {
    forall i, j :: 0 <= i < j < |db.notifications| ==> db.notifications[i].id != db.notifications[j].id
  }

  /** Only the recipient can touch a notification: anyone else is told it does not exist, and
      once deleted it cannot be read or deleted again. */
  lemma OnlyRecipientTouches(db: Db, i: nat, stranger: UserId)
    requires UniqueKeys(db)
    requires i < |db.notifications| && db.notifications[i].recipient != stranger
    ensures MarkAsRead(db, db.notifications[i].id, stranger) == Err(Error(NotificationNotFound))
    ensures DeleteNotification(db, db.notifications[i].id, stranger) == Err(Error(NotificationNotFound))
    ensures var n := db.notifications[i];
      && DeleteNotification(db, n.id, n.recipient).Ok?
      && MarkAsRead(DeleteNotification(db, n.id, n.recipient).value, n.id, n.recipient).Err?
  {
  }
}

=== FILE: rating.dfy ===
/** The rating service: after both parties of an exchange have confirmed it, each may rate the
    other once. */
module Ratings {
  import opened Wrappers
  import opened Failures
  import opened Entities
  import opened Store
  import Js
  import Seqs

  /** `CreateRatingDto`. */
  datatype CreateRatingDto = CreateRatingDto(exchange: ExchangeId, rater: UserId, rated: UserId,
                                             stars: int, review: Option<string>)

  /** A rating of `exchange` by `rater` is stored. */
  predicate HasRated(db: Db, exchange: ExchangeId, rater: UserId) {
    exists r :: r in db.ratings && r.exchange == exchange && r.rater == rater
  }

  /** The request passes the participant checks: the exchange is confirmed by both parties, the
      rater is one of them and the rated user is the other. */
  predicate MayRate(e: Exchange, dto: CreateRatingDto) {
    && e.confirmedByRequester && e.confirmedByReceiver
    && (dto.rater == e.requester || dto.rater == e.receiver)
    && dto.rated == (if dto.rater == e.requester then e.receiver else e.requester)
  }

  /** `createRating` as the service runs it. The exchange must exist and both flags must be set
      (its state is not consulted); the rater must be a participant and the rated user the
      other one; a second rating by the same rater conflicts. The stars are stored as given:
      the declared bound 1..5 of the request is never enforced. */
  function CreateRating(db: Db, dto: CreateRatingDto): (r: Result<(Db, Rating), Failure>)
    ensures FindExchange(db, dto.exchange).None? ==> r == Err(NotFound(ExchangeNotFound))
    ensures FindExchange(db, dto.exchange).Some? ==> var e := FindExchange(db, dto.exchange).value;
      && (!(e.confirmedByRequester && e.confirmedByReceiver) ==> r == Err(BadRequest(NotBothConfirmed)))
      && (e.confirmedByRequester && e.confirmedByReceiver && dto.rater != e.requester && dto.rater != e.receiver
          ==> r == Err(BadRequest(RaterNotParticipant)))
      && ((e.confirmedByRequester && e.confirmedByReceiver && (dto.rater == e.requester || dto.rater == e.receiver)
           && !MayRate(e, dto)) ==> r == Err(BadRequest(RatedNotOtherParticipant)))
      && (MayRate(e, dto) && HasRated(db, dto.exchange, dto.rater) ==> r == Err(Conflict(AlreadyRated)))
      && (r.Ok? <==> MayRate(e, dto) && !HasRated(db, dto.exchange, dto.rater))
    ensures r.Ok? ==> var (db', rating) := r.value;
      && rating == Rating(db.nextId, dto.exchange, dto.rater, dto.rated, dto.stars, Js.OrNullStr(dto.review))
      && db'.ratings == db.ratings + [rating]
      && db'.nextId > db.nextId
      && db'.exchanges == db.exchanges && db'.users == db.users && db'.books == db.books
  {
    match FindExchange(db, dto.exchange)
    case None => Err(NotFound(ExchangeNotFound))
    case Some(e) =>
      if !e.confirmedByRequester || !e.confirmedByReceiver then Err(BadRequest(NotBothConfirmed))
      else if dto.rater != e.requester && dto.rater != e.receiver then Err(BadRequest(RaterNotParticipant))
      else if dto.rated != (if dto.rater == e.requester then e.receiver else e.requester) then
        Err(BadRequest(RatedNotOtherParticipant))
      else if HasUserRated(db, dto.exchange, dto.rater) then Err(Conflict(AlreadyRated))
      else
        var rating := Rating(db.nextId, dto.exchange, dto.rater, dto.rated, dto.stars, Js.OrNullStr(dto.review));
        Ok((db.(ratings := db.ratings + [rating], nextId := db.nextId + 1), rating))
  }

  /** The star bound the request type declares. */
  predicate StarsInRange(stars: int) {
    1 <= stars <= 5
  }

  /** `createRating` with the declared bound enforced, as a validating request pipe would do
      before the service runs: a star count outside 1..5 is a bad request, and otherwise the
      service runs as written. */
  function CreateRatingChecked(db: Db, dto: CreateRatingDto): (r: Result<(Db, Rating), Failure>)
    ensures !StarsInRange(dto.stars) ==> r == Err(BadRequest(StarsOutOfRange))
    ensures StarsInRange(dto.stars) ==> r == CreateRating(db, dto)
    ensures r.Ok? ==> StarsInRange(r.value.1.stars)
  {
    if !StarsInRange(dto.stars) then Err(BadRequest(StarsOutOfRange)) else CreateRating(db, dto)
  }

  /** Every stored rating has between one and five stars. */
  ghost predicate AllStarsInRange(db: Db) {
    forall r :: r in db.ratings ==> StarsInRange(r.stars)
  }

  /** With the bound enforced, every stored rating stays within 1..5. */
  lemma CheckedKeepsStarsInRange(db: Db, dto: CreateRatingDto)
    requires AllStarsInRange(db)
    requires CreateRatingChecked(db, dto).Ok?
    ensures AllStarsInRange(CreateRatingChecked(db, dto).value.0)
  {
  }

  /** As written, a rating of zero stars (or of a thousand) is accepted and stored whenever the
      rater may rate, which breaks the bound the request type declares. */
  lemma UncheckedStarsAreStored(db: Db, dto: CreateRatingDto)
    requires FindExchange(db, dto.exchange).Some? && MayRate(FindExchange(db, dto.exchange).value, dto)
    requires !HasRated(db, dto.exchange, dto.rater)
    ensures CreateRating(db, dto.(stars := 0)).Ok?
    ensures !AllStarsInRange(CreateRating(db, dto.(stars := 0)).value.0)
    ensures CreateRatingChecked(db, dto.(stars := 0)) == Err(BadRequest(StarsOutOfRange))
  {
    var rating := CreateRating(db, dto.(stars := 0)).value.1;
    assert rating in CreateRating(db, dto.(stars := 0)).value.0.ratings;
  }

  /** `hasUserRated`: a rating of the exchange by the user is stored. */
  function HasUserRated(db: Db, exchange: ExchangeId, user: UserId): (b: bool)
    ensures b <==> HasRated(db, exchange, user)
  {
    Seqs.First(db.ratings, (r: Rating) => r.exchange == exchange && r.rater == user).Some?
  }

  /** No rater has rated the same exchange twice. */
  ghost predicate OnePerRater(db: Db) {
    forall i, j :: 0 <= i < j < |db.ratings| ==>
      db.ratings[i].exchange != db.ratings[j].exchange || db.ratings[i].rater != db.ratings[j].rater
  }

  /** A rating, once stored, shows in `hasUserRated`, and never twice for the same rater. */
  lemma {:induction false} CreateRatingOncePerRater(db: Db, dto: CreateRatingDto)
    requires OnePerRater(db)
    requires CreateRating(db, dto).Ok?
    ensures var db' := CreateRating(db, dto).value.0;
      && OnePerRater(db')
      && !HasUserRated(db, dto.exchange, dto.rater)
      && HasUserRated(db', dto.exchange, dto.rater)
      && CreateRating(db', dto.(stars := 0)) == Err(Conflict(AlreadyRated))
  {
    var (db', rating) := CreateRating(db, dto).value;
    assert rating in db'.ratings;
    forall i, j | 0 <= i < j < |db'.ratings|
      ensures db'.ratings[i].exchange != db'.ratings[j].exchange || db'.ratings[i].rater != db'.ratings[j].rater
    {
      if j == |db.ratings| {
        assert db'.ratings[i] in db.ratings;
      } else {
        assert db'.ratings[i] == db.ratings[i] && db'.ratings[j] == db.ratings[j];
      }
    }
    assert FindExchange(db', dto.exchange) == FindExchange(db, dto.exchange);
  }

  /** The user-rating summary without the average: the count and the list. */
  datatype UserRatings = UserRatings(total: nat, ratings: seq<Rating>)

  /** `getUserRatings`: the ratings the user received, highest rating key first, and their
      count. */
  function GetUserRatings(db: Db, user: UserId): (r: UserRatings)
    ensures r.total == |r.ratings|
    ensures forall x :: x in r.ratings <==> x in db.ratings && x.rated == user
    ensures multiset(r.ratings) == multiset(Seqs.Filter(db.ratings, (x: Rating) => x.rated == user))
    ensures forall i, j :: 0 <= i < j < |r.ratings| ==> r.ratings[i].id >= r.ratings[j].id
  {
    var sorted := Seqs.SortDescBy(Seqs.Filter(db.ratings, (x: Rating) => x.rated == user), (x: Rating) => x.id);
    UserRatings(|sorted|, sorted)
  }

  /** The ratings of one exchange as `getExchangeRatings` reports them. */
  datatype ExchangeRatingsView = ExchangeRatingsView(byRequester: Option<Rating>, byReceiver: Option<Rating>, both: bool)

  /** `getExchangeRatings`: the exchange must exist; the first stored rating by its requester and
      the first by its receiver, and whether both are present. */
  function GetExchangeRatings(db: Db, exchange: ExchangeId): (r: Result<ExchangeRatingsView, Failure>)
    ensures FindExchange(db, exchange).None? <==> r == Err(NotFound(ExchangeNotFound))
    ensures r.Ok? ==> var e := FindExchange(db, exchange).value; var v := r.value;
      && (v.byRequester.Some? <==> HasRated(db, exchange, e.requester))
      && (v.byReceiver.Some? <==> HasRated(db, exchange, e.receiver))
      && (v.byRequester.Some? ==> v.byRequester.value in db.ratings && v.byRequester.value.exchange == exchange
                                  && v.byRequester.value.rater == e.requester)
      && (v.byReceiver.Some? ==> v.byReceiver.value in db.ratings && v.byReceiver.value.exchange == exchange
                                 && v.byReceiver.value.rater == e.receiver)
      && (v.both <==> HasUserRated(db, exchange, e.requester) && HasUserRated(db, exchange, e.receiver))
  {
    match FindExchange(db, exchange)
    case None => Err(NotFound(ExchangeNotFound))
    case Some(e) =>
      var mine := Seqs.Filter(db.ratings, (x: Rating) => x.exchange == exchange);
      var first := Seqs.First(mine, (x: Rating) => x.rater == e.requester);
      var second := Seqs.First(mine, (x: Rating) => x.rater == e.receiver);
      Ok(ExchangeRatingsView(first, second, first.Some? && second.Some?))
  }
}

=== FILE: seqs.dfy ===
/** Sequence operations that stand in for the repositories' `find`, `findOne`, `count`,
    `ORDER BY` and `take` over in-memory tables. */
module Seqs {
  import opened Wrappers

  /** The rows of `s` that satisfy `p`, in table order (a `WHERE` clause). */
  function Filter<T(!new)>(s: seq<T>, p: T -> bool): (r: seq<T>)
    ensures |r| <= |s|
    ensures forall x :: x in r <==> x in s && p(x)
    ensures forall i :: 0 <= i < |r| ==> p(r[i])
    ensures multiset(r) <= multiset(s)
  {
    if |s| == 0 then []
    else
      var rest := Filter(s[1..], p);
      assert s == [s[0]] + s[1..];
      if p(s[0]) then [s[0]] + rest else rest
  }

  /** Splitting a table by a condition and its negation loses and duplicates no row. */
  lemma {:induction false} FilterPartition<T(!new)>(s: seq<T>, p: T -> bool, q: T -> bool)
    requires forall i :: 0 <= i < |s| ==> q(s[i]) == !p(s[i])
    ensures multiset(Filter(s, p)) + multiset(Filter(s, q)) == multiset(s)
  {
    if |s| > 0 {
      FilterPartition(s[1..], p, q);
      if p(s[0]) {
        AddFront(s, Filter(s[1..], p), Filter(s[1..], q));
      } else {
        AddFront(s, Filter(s[1..], q), Filter(s[1..], p));
      }
    }
  }

  /** A split of a table's tail, with its head put back on one side, splits the table. */
  lemma AddFront<T>(s: seq<T>, a: seq<T>, b: seq<T>)
    requires |s| > 0 && multiset(a) + multiset(b) == multiset(s[1..])
    ensures multiset([s[0]] + a) + multiset(b) == multiset(s)
  {
    assert s == [s[0]] + s[1..];
  }

  /** Two conditions that agree on every row of a table select the same rows. */
  lemma {:induction false} FilterAgree<T(!new)>(s: seq<T>, p: T -> bool, q: T -> bool)
    requires forall i :: 0 <= i < |s| ==> p(s[i]) == q(s[i])
    ensures Filter(s, p) == Filter(s, q)
  {
    if |s| > 0 {
      assert forall i :: 0 <= i < |s| - 1 ==> s[1..][i] == s[i + 1];
      FilterAgree(s[1..], p, q);
    }
  }

  /** The number of rows of `s` that satisfy `p` (a `COUNT(*) ... WHERE` query). */
  function Count<T>(s: seq<T>, p: T -> bool): (n: nat)
    ensures n <= |s|
    ensures n == 0 <==> forall i :: 0 <= i < |s| ==> !p(s[i])
  {
    if |s| == 0 then 0
    else
      var rest := Count(s[1..], p);
      assert forall i :: 1 <= i < |s| ==> s[i] == s[1..][i - 1];
      (if p(s[0]) then 1 else 0) + rest
  }

  /** Counting the rows that satisfy `p` gives the size of the filtered table. */
  lemma {:induction false} CountIsFilterSize<T(!new)>(s: seq<T>, p: T -> bool)
    ensures Count(s, p) == |Filter(s, p)|
  {
    if |s| > 0 {
      CountIsFilterSize(s[1..], p);
    }
  }

  /** Appending a row to the table appends it to the filtered table exactly when it qualifies. */
  lemma {:induction false} FilterSnoc<T(!new)>(s: seq<T>, x: T, p: T -> bool)
    ensures Filter(s + [x], p) == Filter(s, p) + (if p(x) then [x] else [])
  {
    if |s| == 0 {
      assert s + [x] == [x];
    } else {
      assert (s + [x])[1..] == s[1..] + [x];
      FilterSnoc(s[1..], x, p);
    }
  }

  /** Overwriting one row changes the count by what the old and the new row contribute. */
  lemma {:induction false} CountUpdate<T>(s: seq<T>, i: nat, x: T, p: T -> bool)
    requires i < |s|
    ensures Count(s[i := x], p) == Count(s, p) - (if p(s[i]) then 1 else 0) + (if p(x) then 1 else 0)
  {
    if i == 0 {
      assert s[i := x][1..] == s[1..];
    } else {
      assert s[i := x][1..] == s[1..][i - 1 := x];
      CountUpdate(s[1..], i - 1, x, p);
    }
  }

  /** Two tables whose rows agree on `p` row by row have the same count. */
  lemma {:induction false} CountAgree<T, U>(s: seq<T>, p: T -> bool, t: seq<U>, q: U -> bool)
    requires |s| == |t|
    requires forall i :: 0 <= i < |s| ==> p(s[i]) == q(t[i])
    ensures Count(s, p) == Count(t, q)
  {
    if |s| > 0 {
      assert forall i :: 0 <= i < |s| - 1 ==> s[1..][i] == s[i + 1] && t[1..][i] == t[i + 1];
      CountAgree(s[1..], p, t[1..], q);
    }
  }

  /** The index of the first row of `s` that satisfies `p` (a `findOne`). */
  function FirstIndex<T>(s: seq<T>, p: T -> bool): (r: Option<nat>)
    ensures r.Some? ==> r.value < |s| && p(s[r.value])
    ensures r.Some? ==> forall j :: 0 <= j < r.value ==> !p(s[j])
    ensures r.None? <==> forall j :: 0 <= j < |s| ==> !p(s[j])
  {
    if |s| == 0 then None
    else if p(s[0]) then Some(0)
    else
      match FirstIndex(s[1..], p)
      case None => None
      case Some(i) => Some(i + 1)
  }

  /** The first row of `s` that satisfies `p`, if any. */
  function First<T(!new)>(s: seq<T>, p: T -> bool): (r: Option<T>)
    ensures r.Some? ==> r.value in s && p(r.value)
    ensures r.None? <==> forall x :: x in s ==> !p(x)
  {
    match FirstIndex(s, p)
    case None => None
    case Some(i) => Some(s[i])
  }

  /** `s` is in ascending order of `key`. */
  ghost predicate SortedBy<T>(s: seq<T>, key: T -> int) {
    forall i, j :: 0 <= i < j < |s| ==> key(s[i]) <= key(s[j])
  }

  /** Inserts `x` into the ascending sequence `s`, after every row whose key is not larger. */
  function Insert<T>(x: T, s: seq<T>, key: T -> int): (r: seq<T>)
    requires SortedBy(s, key)
    ensures SortedBy(r, key)
    ensures multiset(r) == multiset(s) + multiset{x}
    ensures |r| == |s| + 1
  {
    if |s| == 0 then [x]
    else if key(x) <= key(s[0]) then [x] + s
    else
      var rest := Insert(x, s[1..], key);
      assert s == [s[0]] + s[1..];
      HeadBelowRest(s, x, rest, key);
      SortedCons(s[0], rest, key);
      [s[0]] + rest
  }

  /** After inserting `x` into the tail of `s`, the head of `s` is still below every row. */
  lemma HeadBelowRest<T>(s: seq<T>, x: T, rest: seq<T>, key: T -> int)
    requires SortedBy(s, key) && |s| > 0 && key(s[0]) < key(x)
    requires multiset(rest) == multiset(s[1..]) + multiset{x}
    ensures forall i :: 0 <= i < |rest| ==> key(s[0]) <= key(rest[i])
  {
    forall i | 0 <= i < |rest|
      ensures key(s[0]) <= key(rest[i])
    {
      assert rest[i] in multiset(rest);
      if rest[i] != x {
        assert rest[i] in multiset(s[1..]);
        var k :| 0 <= k < |s[1..]| && s[1..][k] == rest[i];
        assert s[k + 1] == rest[i];
      }
    }
  }

  /** A row below every row of an ascending sequence can go in front of it. */
  lemma SortedCons<T>(h: T, t: seq<T>, key: T -> int)
    requires SortedBy(t, key)
    requires forall i :: 0 <= i < |t| ==> key(h) <= key(t[i])
    ensures SortedBy([h] + t, key)
  {
    var r := [h] + t;
    assert forall i :: 1 <= i < |r| ==> r[i] == t[i - 1];
  }

  /** The rows of `s` in ascending order of `key` (an `ORDER BY key ASC`). The database leaves
      the order among rows with equal keys unspecified; this is one of the orders it may return. */
  function SortBy<T>(s: seq<T>, key: T -> int): (r: seq<T>)
    ensures SortedBy(r, key)
    ensures multiset(r) == multiset(s)
    ensures |r| == |s|
  {
    if |s| == 0 then []
    else
      assert s == [s[0]] + s[1..];
      Insert(s[0], SortBy(s[1..], key), key)
  }

  /** Inserting under two keys that agree on every row involved gives the same sequence. */
  lemma {:induction false} InsertAgree<T>(x: T, s: seq<T>, k1: T -> int, k2: T -> int)
    requires SortedBy(s, k1) && SortedBy(s, k2)
    requires k1(x) == k2(x) && forall i :: 0 <= i < |s| ==> k1(s[i]) == k2(s[i])
    ensures Insert(x, s, k1) == Insert(x, s, k2)
  {
    if |s| > 0 && k1(x) > k1(s[0]) {
      assert forall i :: 0 <= i < |s| - 1 ==> s[1..][i] == s[i + 1];
      InsertAgree(x, s[1..], k1, k2);
    }
  }

  /** Sorting under two keys that agree on every row gives the same sequence. */
  lemma {:induction false} SortByAgree<T>(s: seq<T>, k1: T -> int, k2: T -> int)
    requires forall i :: 0 <= i < |s| ==> k1(s[i]) == k2(s[i])
    ensures SortBy(s, k1) == SortBy(s, k2)
  {
    if |s| > 0 {
      assert forall i :: 0 <= i < |s| - 1 ==> s[1..][i] == s[i + 1];
      SortByAgree(s[1..], k1, k2);
      var t := SortBy(s[1..], k1);
      forall i | 0 <= i < |t| ensures k1(t[i]) == k2(t[i]) {
        assert t[i] in multiset(s[1..]);
        var k :| 0 <= k < |s[1..]| && s[1..][k] == t[i];
      }
      InsertAgree(s[0], t, k1, k2);
    }
  }

  /** The first `n` rows of `s`, or all of them when there are fewer (a `LIMIT n`). */
  function Take<T>(s: seq<T>, n: nat): (r: seq<T>)
    ensures |r| == if n < |s| then n else |s|
    ensures forall i :: 0 <= i < |r| ==> r[i] == s[i]
  {
    if n < |s| then s[..n] else s
  }

  /** The rows of `s` in ascending order of `key`, with membership spelt out. */
  function SortAscBy<T(!new)>(s: seq<T>, key: T -> int): (r: seq<T>)
    ensures multiset(r) == multiset(s)
    ensures forall x :: x in r <==> x in s
    ensures |r| == |s|
    ensures forall i, j :: 0 <= i < j < |r| ==> key(r[i]) <= key(r[j])
  {
    var r := SortBy(s, key);
    assert forall x :: x in r <==> x in multiset(s);
    r
  }

  /** The rows of `s` in descending order of `key` (an `ORDER BY key DESC`). */
  function SortDescBy<T(!new)>(s: seq<T>, key: T -> int): (r: seq<T>)
    ensures multiset(r) == multiset(s)
    ensures forall x :: x in r <==> x in s
    ensures |r| == |s|
    ensures forall i, j :: 0 <= i < j < |r| ==> key(r[i]) >= key(r[j])
  {
    var r := SortBy(s, (x: T) => -key(x));
    assert forall x :: x in r <==> x in multiset(s);
    r
  }

  /** The first `n` rows of `s` in ascending order of `key` (`ORDER BY key ASC LIMIT n`). */
  function SmallestBy<T>(s: seq<T>, key: T -> int, n: nat): (r: seq<T>)
    ensures |r| == if n < |s| then n else |s|
    ensures multiset(r) <= multiset(s)
    ensures SortedBy(r, key)
    ensures forall x, i :: x in s && 0 <= i < |r| && key(x) < key(r[i]) ==> x in r
  {
    var sorted := SortBy(s, key);
    var r := Take(sorted, n);
    assert sorted == r + sorted[|r|..];
    assert multiset(sorted) == multiset(r) + multiset(sorted[|r|..]);
    PrefixHoldsSmaller(s, sorted, |r|, key);
    r
  }

  /** A prefix of an ascending sequence holds every row whose key is below one of its own. */
  lemma PrefixHoldsSmaller<T>(s: seq<T>, sorted: seq<T>, m: nat, key: T -> int)
    requires SortedBy(sorted, key) && m <= |sorted| && multiset(sorted) == multiset(s)
    ensures forall x, i :: x in s && 0 <= i < m && key(x) < key(sorted[i]) ==> x in sorted[..m]
  {
    forall x, i | x in s && 0 <= i < m && key(x) < key(sorted[i])
      ensures x in sorted[..m]
    {
      assert x in multiset(sorted);
      var k :| 0 <= k < |sorted| && sorted[k] == x;
      var atI, atK := key(sorted[i]), key(sorted[k]);
      assert i < k ==> atI <= atK;
      assert k < m && sorted[..m][k] == x;
    }
  }

  /** The first `n` rows of `s` by descending `key` (`ORDER BY key DESC LIMIT n`). */
  function LargestBy<T>(s: seq<T>, key: T -> int, n: nat): (r: seq<T>)
    ensures |r| == if n < |s| then n else |s|
    ensures multiset(r) <= multiset(s)
    ensures forall i :: 0 <= i < |r| ==> r[i] in s
    ensures forall i, j :: 0 <= i < j < |r| ==> key(r[i]) >= key(r[j])
    ensures forall x, i :: x in s && 0 <= i < |r| && key(x) > key(r[i]) ==> x in r
  {
    var neg := (x: T) => -key(x);
    var r := SmallestBy(s, neg, n);
    assert forall i :: 0 <= i < |r| ==> r[i] in multiset(s);
    r
  }

  /** Applies `f` to every row (an `UPDATE` that rewrites each row). */
  function Map<T, U>(s: seq<T>, f: T -> U): (r: seq<U>)
    ensures |r| == |s|
    ensures forall i :: 0 <= i < |s| ==> r[i] == f(s[i])
  {
    seq(|s|, i requires 0 <= i < |s| => f(s[i]))
  }
}

=== FILE: store.dfy ===
/** The database the services share: one sequence of rows per table, in insertion order,
    and the generator of fresh primary keys. `findOne` by primary key is the first row with
    that key; an update writes the row back at its index. */
module Store {
  import opened Wrappers
  import opened Entities
  import Seqs

  datatype Db = Db(
    users: seq<User>,
    books: seq<Book>,
    genres: seq<Genre>,
    images: seq<BookImage>,
    exchanges: seq<Exchange>,
    chats: seq<Chat>,
    members: seq<ChatMember>,
    messages: seq<Message>,
    ratings: seq<Rating>,
    notifications: seq<Notification>,
    /** The next value the serial columns hand out. The schema has one serial per table; one
        shared generator hands out the same kind of fresh keys. */
    nextId: int)

  function FindUser(db: Db, id: UserId): (r: Option<User>)
    ensures r.Some? ==> r.value in db.users && r.value.id == id
    ensures r.None? <==> forall u :: u in db.users ==> u.id != id
  {
    Seqs.First(db.users, (u: User) => u.id == id)
  }

  function FindBook(db: Db, id: BookId): (r: Option<Book>)
    ensures r.Some? ==> r.value in db.books && r.value.id == id
    ensures r.None? <==> forall b :: b in db.books ==> b.id != id
  {
    Seqs.First(db.books, (b: Book) => b.id == id)
  }

  /** The index of the exchange row with primary key `id`. */
  function ExchangeIndex(db: Db, id: ExchangeId): (r: Option<nat>)
    ensures r.Some? ==> r.value < |db.exchanges| && db.exchanges[r.value].id == id
    ensures r.Some? ==> forall j :: 0 <= j < r.value ==> db.exchanges[j].id != id
    ensures r.None? <==> forall j :: 0 <= j < |db.exchanges| ==> db.exchanges[j].id != id
  {
    Seqs.FirstIndex(db.exchanges, (e: Exchange) => e.id == id)
  }

  function FindExchange(db: Db, id: ExchangeId): (r: Option<Exchange>)
    ensures r.Some? <==> ExchangeIndex(db, id).Some?
    ensures r.Some? ==> r.value == db.exchanges[ExchangeIndex(db, id).value]
  {
    match ExchangeIndex(db, id)
    case None => None
    case Some(i) => Some(db.exchanges[i])
  }

  /** The exchanges of `es`, newest proposal first (`ORDER BY fecha_propuesta DESC`). */
  function NewestFirst(es: seq<Exchange>): (r: seq<Exchange>)
    ensures multiset(r) == multiset(es)
    ensures forall x :: x in r <==> x in es
    ensures forall i, j :: 0 <= i < j < |r| ==> r[i].proposedAt >= r[j].proposedAt
  {
    Seqs.SortDescBy(es, (e: Exchange) => e.proposedAt)
  }

  /** Inserts an unread inbox notification with a fresh key. */
  function AddNotification(db: Db, recipient: UserId, emitter: Option<UserId>,
                           exchange: Option<ExchangeId>, kind: NotificationKind, now: Time): Db
  {
    var n := Notification(db.nextId, recipient, emitter, exchange, kind, false, now);
    db.(notifications := db.notifications + [n], nextId := db.nextId + 1)
  }

  /** The tables other than the inbox and the key generator are those of `other`. */
  ghost predicate SameExceptInbox(db: Db, other: Db) {
    && db.users == other.users && db.books == other.books && db.genres == other.genres
    && db.images == other.images && db.exchanges == other.exchanges && db.chats == other.chats
    && db.members == other.members && db.messages == other.messages && db.ratings == other.ratings
  }
}

=== FILE: strings.dfy ===
/** String operations of the JavaScript standard library used by the services:
    whitespace classes, `indexOf`, `split`, `toLowerCase` and decimal formatting of numbers. */
module Strings {
  import opened Wrappers

  /** Membership in the regular-expression class `\s` of JavaScript: the ASCII controls
      TAB..CR, space, NO-BREAK SPACE, the Unicode space separators, LINE and PARAGRAPH
      SEPARATOR, and the byte-order mark. */
  predicate IsSpace(c: char) {
    var n := c as int;
    (9 <= n <= 13) || n == 32 || n == 0xA0 || n == 0x1680 || (0x2000 <= n <= 0x200A)
    || n == 0x2028 || n == 0x2029 || n == 0x202F || n == 0x205F || n == 0x3000 || n == 0xFEFF
  }

  /** No character of `s` is whitespace. */
  predicate NoSpace(s: string) {
    forall i :: 0 <= i < |s| ==> !IsSpace(s[i])
  }

  /** Two whitespace-free strings make a whitespace-free concatenation. */
  lemma NoSpaceConcat(a: string, b: string)
    requires NoSpace(a) && NoSpace(b)
    ensures NoSpace(a + b)
  {
    forall i | 0 <= i < |a + b| ensures !IsSpace((a + b)[i]) {
      if i < |a| {
        assert (a + b)[i] == a[i];
      } else {
        assert (a + b)[i] == b[i - |a|];
      }
    }
  }

  /** `pat` occurs in `s` starting at index `i`. */
  predicate OccursAt(s: string, pat: string, i: nat) {
    i + |pat| <= |s| && s[i..i + |pat|] == pat
  }

  /** `pat` occurs somewhere in `s`. */
  predicate Contains(s: string, pat: string) {
    exists i: nat | i <= |s| :: OccursAt(s, pat, i)
  }

  /** The first index at or after `from` where `pat` occurs in `s` (`s.indexOf(pat, from)`). */
  function IndexOfFrom(s: string, pat: string, from: nat): (r: Option<nat>)
    ensures r.Some? ==> from <= r.value && OccursAt(s, pat, r.value)
    ensures r.Some? ==> forall j: nat :: from <= j < r.value ==> !OccursAt(s, pat, j)
    ensures r.None? ==> forall j: nat :: from <= j ==> !OccursAt(s, pat, j)
    decreases |s| - from
  {
    if from + |pat| > |s| then None
    else if s[from..from + |pat|] == pat then Some(from)
    else IndexOfFrom(s, pat, from + 1)
  }

  /** The first index where `pat` occurs in `s` (`s.indexOf(pat)`), or None for -1. */
  function IndexOf(s: string, pat: string): (r: Option<nat>)
    ensures r.Some? ==> OccursAt(s, pat, r.value)
    ensures r.Some? ==> forall j: nat :: j < r.value ==> !OccursAt(s, pat, j)
    ensures r.None? <==> !Contains(s, pat)
  {
    IndexOfFrom(s, pat, 0)
  }

  /** A character that occurs nowhere before `n` is absent from the prefix of length `n`. */
  lemma NotBefore(s: string, c: char, n: nat)
    requires n <= |s|
    requires forall j: nat :: j < n ==> !OccursAt(s, [c], j)
    ensures c !in s[..n]
  {
    forall j | 0 <= j < n ensures s[..n][j] != c {
      assert !OccursAt(s, [c], j);
      assert s[j..j + 1] == [s[j]];
    }
  }

  /** For a one-character pattern, `indexOf` finds the first position holding that character. */
  lemma IndexOfChar(s: string, c: char)
    ensures IndexOf(s, [c]).Some? ==> IndexOf(s, [c]).value < |s| && s[IndexOf(s, [c]).value] == c
                                      && c !in s[..IndexOf(s, [c]).value]
    ensures forall i :: 0 <= i < |s| && s[i] == c && c !in s[..i] ==> IndexOf(s, [c]) == Some(i)
  {
    var r := IndexOf(s, [c]);
    if r.Some? {
      assert s[r.value..r.value + 1] == [c];
      NotBefore(s, c, r.value);
    }
    forall i | 0 <= i < |s| && s[i] == c && c !in s[..i] ensures r == Some(i) {
      assert s[i..i + 1] == [c];
      assert OccursAt(s, [c], i);
    }
  }

  /** `s.split(c)` for a one-character separator: the maximal pieces between separators. */
  function SplitOn(s: string, c: char): (parts: seq<string>)
    ensures |parts| >= 1
    ensures forall k :: 0 <= k < |parts| ==> c !in parts[k]
    decreases |s|
  {
    match IndexOf(s, [c])
    case None =>
      NotBefore(s, c, |s|);
      assert s[..|s|] == s;
      [s]
    case Some(i) =>
      NotBefore(s, c, i);
      [s[..i]] + SplitOn(s[i + 1..], c)
  }

  /** Concatenation regroups freely. */
  lemma Assoc(x: string, y: string, z: string)
    ensures x + (y + z) == x + y + z
  {
  }

  /** `parts.join(c)`. */
  function JoinWith(parts: seq<string>, c: char): string
    requires |parts| >= 1
  {
    if |parts| == 1 then parts[0] else parts[0] + [c] + JoinWith(parts[1..], c)
  }

  /** Splitting on a character and joining the pieces back with it gives the input. */
  lemma {:induction false} JoinSplit(s: string, c: char)
    ensures JoinWith(SplitOn(s, c), c) == s
    decreases |s|
  {
    match IndexOf(s, [c])
    case None =>
    case Some(i) =>
      var parts, rest := SplitOn(s, c), SplitOn(s[i + 1..], c);
      assert parts == [s[..i]] + rest;
      assert |parts| > 1 && parts[0] == s[..i] && parts[1..] == rest;
      JoinSplit(s[i + 1..], c);
      assert JoinWith(parts, c) == s[..i] + [c] + s[i + 1..];
      assert s[i..i + 1] == [c];
      assert s == s[..i] + [c] + s[i + 1..];
  }

  /** `toLowerCase` restricted to the ASCII letters. */
  function ToLower(s: string): (r: string)
    ensures |r| == |s|
    ensures forall i :: 0 <= i < |s| ==> r[i] == LowerChar(s[i])
  {
    seq(|s|, i requires 0 <= i < |s| => LowerChar(s[i]))
  }

  function LowerChar(c: char): (d: char)
    ensures !('A' <= d <= 'Z')
  {
    if 'A' <= c <= 'Z' then (c as int + 32) as char else c
  }


  predicate IsDigit(c: char) {
    '0' <= c <= '9'
  }

  /** The decimal numeral of a natural number, as `String(n)` writes it. */
  function NatToString(n: nat): (s: string)
    ensures |s| >= 1
    ensures forall i :: 0 <= i < |s| ==> IsDigit(s[i])
    ensures n < 10 <==> |s| == 1
    decreases n
  {
    var d := ['0' + (n % 10) as char];
    if n < 10 then d else NatToString(n / 10) + d
  }

  /** The value of a numeral of decimal digits (`parseInt(s, 10)` on digits only). */
  function DigitsValue(s: string): nat
    requires forall i :: 0 <= i < |s| ==> IsDigit(s[i])
  {
    if |s| == 0 then 0
    else
      assert IsDigit(s[|s| - 1]);
      10 * DigitsValue(s[..|s| - 1]) + (s[|s| - 1] as int - '0' as int)
  }

  /** Reading back a formatted number gives the number. */
  lemma {:induction false} NatToStringRoundTrip(n: nat)
    ensures DigitsValue(NatToString(n)) == n
    decreases n
  {
    var s := NatToString(n);
    if n >= 10 {
      NatToStringRoundTrip(n / 10);
      assert s[..|s| - 1] == NatToString(n / 10);
    }
  }
}

=== FILE: wrappers.dfy ===
/** Optional values and success/failure results shared by every service model. */
module Wrappers {

  /** A nullable column or an optional argument: `None` stands for SQL NULL or JavaScript undefined. */
  datatype Option<+T> = None | Some(value: T) {

    function GetOr(default: T): T {
      match this
      case Some(v) => v
      case None => default
    }
  }

  /** The outcome of a service call: a value, or the exception the service throws. */
  datatype Result<+T, +E> = Ok(value: T) | Err(error: E) {

    predicate IsFailure() {
      Err?
    }

    function PropagateFailure<U>(): Result<U, E>
      requires Err?
    {
      Err(error)
    }

    function Extract(): T
      requires Ok?
    {
      value
    }
  }
}
